=== FILE: README.md ===
# korio virtual file systems, modelled in Dafny

This project models the core of korio's virtual file system layer and proves
properties of the model:

- **Streams** (`streams.dfy`, module `Streams`): the `AsyncStream` defaults that
  throw "unsupported", `SliceAsyncStream` over a memory base, `slice`,
  `readSlice`, `getAvailable`, `readBytes`, `readStringz` and the `readExact`
  loop.
- **Producer/consumer byte queue** (`byte_queue.dfy`, module `ByteQueue`):
  `SyncProduceConsumerByteBuffer` with `produce`, `useNextBuffer`, `consume`,
  `consumeUntil`, `write` and `read`.
- **ZIP reader** (`zip.dfy`, module `Zip`): the end-of-central-directory record,
  the walk over central directory records, the two indexes (`files` and
  `filesPerFolder`), and `open`, `stat` and `list` of the opened archive.
  `zip_writer.dfy` (module `ZipWriter`) encodes central directory records, so
  that the reader can be shown to read back what was written.
- **In-memory node tree** (`node_vfs.dfy`, module `NodeVfs`): `Node` with its
  parent setter, `child`, `access` and `mkdir`, and the file system operations
  `open`, `stat`, `list`, `delete`, `mkdir` and `rename` with their event log.
- **Handles** (`vfs_file.dfy`, module `VfsFile`): `file[path]`, `exists`,
  `writeStream`, `copyTo`, `mkdirs`, `copyToTree` and `listRecursive` over an
  abstract backend.
- **Union of file systems** (`merged_vfs.dfy`, module `MergedVfs`): `access`,
  `stat` and the duplicate-free merged `list`.
- **TTL memo cache** (`cache.dfy`, module `Cache`): `AsyncInmemoryCache.get`
  and `AsyncInmemoryEntry.get`, with the clock as a parameter.
- **HTTP file system** (`url_vfs.dfy`, module `UrlVfs`): the full URL, the
  byte range of a read (section 2.1 of RFC 7233), `stat`, `open` and the
  headers of `put`, over an abstract HTTP oracle.

`common.dfy` (module `Common`) holds the shared vocabulary: bytes, `Option`,
`Result` with one error constructor per exception kind, the `VfsStat`
snapshot, and the string helpers for `/`-separated paths.

State is immutable: every operation takes a state and returns the new state
together with its answer, and the file system's event `Signal` becomes an
appended event log. I/O, the clock, the HTTP client and callbacks are
parameters or abstract functions.

`copyToTree` has no `try`/`catch`, so a `stat` or `list` that fails ends the
whole copy (`VfsFile.CopyToTree`).

Three operations are modelled twice, as written and corrected (see
"## Findings"): the copy loop of the byte queue's `consume`, the in-memory
`rename`, and the central directory walk of the ZIP reader. `Zip.Load` is the
reader as written; `Zip.LoadCorrected` skips each record's file comment.

`VfsUtil` and `PathInfo` are not part of this model. `VfsUtil.combine` is taken
as the join of two paths with one `/`, `VfsUtil.parts` as the split at every
`/`, and `PathInfo.folder`/`basename` as the text before and after the last `/`.

The readers the ZIP reader takes from `com.soywiz.korio.stream` are not part of
this model either; they are taken as follows. `sliceWithSize` is a slice of the
archive, as `slice` is for `AsyncStream`, and `readAvailable().openSync()` holds
the bytes of the slice that exist in the archive. In that synchronous buffer,
`readS32_be`, `readS32_le` and `readU16_le` need all their bytes and otherwise
fail with "Not enough data", while `readString` and `readBytes` of the name and
extra field take what is left when they run past the end. On the asynchronous
local-header path `readBytes` is `AsyncStream.readBytes`, which pads a short read
with zeros, and the fixed fields are read with `readExact`.

## Model

| member | source | states |
|---|---|---|
| Common.TrimShape | src/com/soywiz/korio/vfs/ZipVfs.kt:17 | `trim('/')` keeps a middle slice of its input that neither starts nor ends with `/`, and everything cut off is `/` |
| Common.FolderBasename | src/com/soywiz/korio/vfs/ZipVfs.kt:71-72 | the basename holds no `/`; a path with a `/` is its folder, `/`, and its basename; a path without one has folder "" and is its own basename |
| Common.Parts | src/commonMain/kotlin/com/soywiz/korio/file/std/NodeVfs.kt:60 | a path splits into at least one segment, none of which holds a `/` |
| Common.LowerChar | src/commonMain/kotlin/com/soywiz/korio/file/std/NodeVfs.kt:19 | ASCII lower-casing of one character: `A`-`Z` become the letter 32 code points up, in `a`-`z`; every other character is kept |
| Common.Lower | src/commonMain/kotlin/com/soywiz/korio/file/std/NodeVfs.kt:19 | `toLowerCase` keeps the length and lowers every character on its own, as `Common.LowerChar` states |
| Common.LowerIsLower | src/commonMain/kotlin/com/soywiz/korio/file/std/NodeVfs.kt:19 | a lowered name holds no upper-case ASCII letter, and lowering it again changes nothing |
| Common.LowerFixes | src/commonMain/kotlin/com/soywiz/korio/file/std/NodeVfs.kt:19 | a name is its own lowering exactly when it holds no upper-case ASCII letter |
| Streams.BareSupportsNothing | src/com/soywiz/coktvfs/stream/AsyncStream.kt:10-15 | each of the six operations a stream does not override fails as unsupported; a slice does not override `setLength` |
| Streams.Read | src/com/soywiz/coktvfs/stream/AsyncStream.kt:22-29 | a slice reads the base at `baseOffset + position` without clipping to `baseLength`, advances by the count and leaves the base's cursor where it was; the bytes are the base's bytes there, and a short read means the data ran out |
| Streams.Write | src/com/soywiz/coktvfs/stream/AsyncStream.kt:31-37 | a slice writes at `baseOffset + position`, advances by `len` and leaves the base's cursor where it was; the written range then holds the bytes |
| Streams.GetPosition | src/com/soywiz/coktvfs/stream/AsyncStream.kt:43-45 | a slice reports its own position and the memory base its cursor; every other stream fails as unsupported |
| Streams.SetPosition | src/com/soywiz/coktvfs/stream/AsyncStream.kt:39-41 | any value is accepted and `getPosition` then reports it; a slice leaves the base untouched |
| Streams.GetLength | src/com/soywiz/coktvfs/stream/AsyncStream.kt:47-49 | a slice reports the length it was cut with and the memory base its data's length; every other stream fails as unsupported |
| Streams.LengthAfterSetLength | src/com/soywiz/coktvfs/stream/AsyncStream.kt:14 | `getLength` after `setLength(v)` on the memory base reports `v`, and `v` minus the cursor is available |
| Streams.SetLength | src/com/soywiz/coktvfs/stream/AsyncStream.kt:14 | only the memory base can be resized: the data is cut or zero-extended to the new length and the cursor stays |
| Streams.SliceOf | src/com/soywiz/coktvfs/stream/AsyncStream.kt:52-59 | a new slice starts at position 0 with the length it was cut with |
| Streams.SliceOfSlice | src/com/soywiz/coktvfs/stream/AsyncStream.kt:54-55 | slicing a slice gives one slice of the original base with the offsets summed |
| Streams.GetAvailable | src/com/soywiz/coktvfs/stream/AsyncStream.kt:72 | a slice has its cut length minus its position available, the memory base its data's length minus its cursor; negative past the end |
| Streams.FreshSliceAvailable | src/com/soywiz/coktvfs/stream/AsyncStream.kt:47-59 | a fresh slice reports the length it was cut with, and all of it is available |
| Streams.ReadConsumesAvailable | src/com/soywiz/coktvfs/stream/AsyncStream.kt:22-29 | a read through a slice or the memory base lowers `available` by exactly the count it returns |
| Streams.AvailableIsRest | src/com/soywiz/coktvfs/stream/AsyncStream.kt:72 | on the memory base, a read of `available` bytes delivers exactly the rest of the data |
| Streams.SliceRest | src/com/soywiz/coktvfs/stream/AsyncStream.kt:61-63 | `slice()` is a fresh slice at the current position over what is available: the cut length less the position for a slice, the data's length less the cursor for the memory base |
| Streams.SliceRestReadsSame | src/com/soywiz/coktvfs/stream/AsyncStream.kt:61-63 | reading `n` bytes from `slice()` succeeds exactly when reading them from the stream does, yields the same bytes and leaves the base alone |
| Streams.ReadSlice | src/com/soywiz/coktvfs/stream/AsyncStream.kt:65-70 | `readSlice(n)` returns the slice cut at the current position and moves the position `n` further, leaving the data alone |
| Streams.ReadBytes | src/com/soywiz/coktvfs/stream/AsyncStream.kt:99 | `readBytes(len)` returns exactly `len` bytes: what one `read` delivered, then zeros |
| Streams.ReadStringz | src/com/soywiz/coktvfs/stream/AsyncStream.kt:74-78 | the bytes of `readBytes(len)` before the first zero, or all `len` of them when there is no zero |
| Streams.ReadExactFromBounds | src/com/soywiz/coktvfs/stream/AsyncStream.kt:83-95 | the `readExact` loop never fills more than asked and keeps what it already filled |
| Streams.ReadExact | src/com/soywiz/coktvfs/stream/AsyncStream.kt:83-95 | the loop (with its invariants) computes the recursive reading of `readExact` and fills at most `len` bytes |
| Streams.ReadExactDirect | src/com/soywiz/coktvfs/stream/AsyncStream.kt:83-95 | on the memory base, `readExact(len)` succeeds exactly when `len` bytes remain, yielding them and moving past them, and otherwise fails with "Not enough data" |
| Streams.ReadExactSlice | src/com/soywiz/coktvfs/stream/AsyncStream.kt:83-95 | the same through a slice: it succeeds exactly when enough base bytes follow the slice's cursor, and leaves the base as it was |
| Streams.WriteThenSlicesReadBack | src/com/soywiz/coktvfs/stream/AsyncStream.kt:22-37 | bytes written to the base read back through two adjacent slices that split them anywhere, and neither read disturbs the base |
| Streams.SliceReadsBase | src/com/soywiz/coktvfs/stream/AsyncStream.kt:22-29 | a fresh slice reads the `n` base bytes at its offset when they exist |
| ByteQueue.AvailableIsPending | korio-core/src/com/soywiz/korio/stream/SyncProduceConsumerByteBuffer.kt:16-18 | `available` equals the number of bytes still to be delivered |
| ByteQueue.Produce | korio-core/src/com/soywiz/korio/stream/SyncProduceConsumerByteBuffer.kt:20-23 | the chunk's bytes join the back of the pending bytes and `available` grows by its size |
| ByteQueue.UseNextBuffer | korio-core/src/com/soywiz/korio/stream/SyncProduceConsumerByteBuffer.kt:25-29 | the front chunk (or nothing) becomes current at position 0; once current is used up, no pending byte is lost |
| ByteQueue.EnsureCurrent | korio-core/src/com/soywiz/korio/stream/SyncProduceConsumerByteBuffer.kt:31-35 | the pending bytes are unchanged; with no empty chunks queued, an exhausted current afterwards means nothing is pending |
| ByteQueue.ConsumeAsWritten | korio-core/src/com/soywiz/korio/stream/SyncProduceConsumerByteBuffer.kt:37-52 | the copy loop as written delivers a prefix of the pending bytes in FIFO order and keeps the queue valid |
| ByteQueue.ConsumeAsWrittenOverreads | korio-core/src/com/soywiz/korio/stream/SyncProduceConsumerByteBuffer.kt:43 | a 5-byte request over a 3-byte and a 10-byte chunk copies 8 bytes, and into the 5-byte array of `consume(5)` it fails |
| ByteQueue.Consume | korio-core/src/com/soywiz/korio/stream/SyncProduceConsumerByteBuffer.kt:37-52 | `consume` (and `read`, which is `consume`) with each copy bounded by `remaining`: a FIFO prefix of the pending bytes of at most `len`; nothing from an empty queue; exactly `len` when current holds that many; with no empty chunks queued, the smaller of `len` and `available` |
| ByteQueue.ConsumeBytesAsWritten | korio-core/src/com/soywiz/korio/stream/SyncProduceConsumerByteBuffer.kt:54 | `consume(len)` as written: a negative length fails; a success delivers a FIFO prefix of the pending bytes and keeps the queue valid |
| ByteQueue.ConsumeBytesAsWrittenFails | korio-core/src/com/soywiz/korio/stream/SyncProduceConsumerByteBuffer.kt:43-54 | as written, `consume(5)` over a 3-byte and a queued 10-byte chunk fails with an index error although more than 5 bytes are pending |
| ByteQueue.ConsumeBytes | korio-core/src/com/soywiz/korio/stream/SyncProduceConsumerByteBuffer.kt:54 | `consume(len)` over the corrected copy loop: the next pending bytes, as many as are there up to `len`; a negative length fails and changes nothing |
| ByteQueue.IndexFrom | korio-core/src/com/soywiz/korio/stream/SyncProduceConsumerByteBuffer.kt:61 | the first index at or after `start` holding the byte, or -1 when none does |
| ByteQueue.ConsumeUntil | korio-core/src/com/soywiz/korio/stream/SyncProduceConsumerByteBuffer.kt:56-69 | delivers a FIFO prefix with no early `end`; with no empty chunks queued, exactly the bytes up to the first `end` (with it when `including`), or everything when there is no `end` |
| ByteQueue.Write | korio-core/src/com/soywiz/korio/stream/SyncProduceConsumerByteBuffer.kt:71-73 | a copy of `buffer[offset, offset + len)`, zero-padded past the array's end, is appended to the pending bytes; a bad offset or negative length fails |
| Zip.Signed32 | src/com/soywiz/korio/vfs/ZipVfs.kt:41-42 | a 32-bit field read as a Kotlin `Int` is its two's-complement value |
| Zip.ToUInt | src/com/soywiz/korio/vfs/ZipVfs.kt:80-82 | `toUInt` recovers the unsigned value with the same 32 bits |
| Zip.SignatureIsBytes | src/com/soywiz/korio/vfs/ZipVfs.kt:36 | comparing the big-endian integer with a signature is comparing the four bytes with its bytes |
| Zip.SignatureBytes | src/com/soywiz/korio/vfs/ZipVfs.kt:36 | the three signatures are the bytes `50 4B 05 06`, `50 4B 01 02` and `50 4B 03 04` |
| Zip.Latin1 | src/com/soywiz/korio/vfs/ZipVfs.kt:65 | a name keeps its bytes, one character per byte (the UTF-8 decoding of `readString` is not modelled) |
| Zip.ReadRecord | src/com/soywiz/korio/vfs/ZipVfs.kt:48-66 | a record reads exactly when its 46 fixed bytes are there and start with the record signature; its fields come from their offsets; a directory is a name ending in `/`; a wrong signature is "Not a zip file record" |
| Zip.Walk | src/com/soywiz/korio/vfs/ZipVfs.kt:47-86 | a successful walk yields exactly `entriesInDirectory` entries |
| Zip.BuildIndexLastWins | src/com/soywiz/korio/vfs/ZipVfs.kt:84-85 | a trimmed name is indexed exactly when some record has it, and to the last such record |
| Zip.AddEntryShared | src/com/soywiz/korio/vfs/ZipVfs.kt:68-85 | indexing one more entry keeps `files` and `filesPerFolder` in agreement both ways |
| Zip.BuildIndexShared | src/com/soywiz/korio/vfs/ZipVfs.kt:47-86 | the index built from the walk has every name listed in its folder under its basename, and every listed entry indexed |
| Zip.SplitInjective | src/com/soywiz/korio/vfs/ZipVfs.kt:71-72 | a trimmed name is determined by its folder and basename |
| Zip.Load | src/com/soywiz/korio/vfs/ZipVfs.kt:12-88 | the loader as written (comments not skipped): an opened archive has its two indexes in agreement |
| Zip.LoadCorrected | src/com/soywiz/korio/vfs/ZipVfs.kt:12-88 | the loader with the walk skipping each record's comment: an opened archive has its two indexes in agreement |
| Zip.EocdLayout | src/com/soywiz/korio/vfs/ZipVfs.kt:14-15 | the record read is the archive's last 22 bytes, or an index error for a shorter archive |
| Zip.DirectoryLayout | src/com/soywiz/korio/vfs/ZipVfs.kt:45-47 | the directory is the archive's `[offset, offset + size)` walked for the advertised count, as written or with comments skipped; a negative offset or size fails first |
| Zip.LoadLayout | src/com/soywiz/korio/vfs/ZipVfs.kt:14-48 | loading fails as "Not a zip file" before indexing anything when the last 22 bytes do not start with `50 4B 05 06`, and otherwise indexes the walk of exactly the advertised records, as written (`Zip.Load`) or with comments skipped (`Zip.LoadCorrected`) |
| Zip.DirectoryRead | src/com/soywiz/korio/vfs/ZipVfs.kt:45 | `readAvailable()` of the directory slice yields the directory bytes |
| Zip.HeaderOnBytes | src/com/soywiz/korio/vfs/ZipVfs.kt:95-107 | a local header is accepted exactly when its 30 bytes are there and start with `50 4B 03 04`, and its payload starts 30 + name length + extra length bytes on |
| Zip.SignatureCutShort | src/com/soywiz/korio/vfs/ZipVfs.kt:95 | a header offset before the data is an index error, and one too close to the end is "Not enough data" |
| Zip.SignatureRead | src/com/soywiz/korio/vfs/ZipVfs.kt:95 | a local header with another signature is "Not a zip file" |
| Zip.FieldsCutShort | src/com/soywiz/korio/vfs/ZipVfs.kt:96-105 | fixed header fields cut short by the end of the data are "Not enough data" |
| Zip.FieldsRead | src/com/soywiz/korio/vfs/ZipVfs.kt:96-107 | with the fixed fields there, the name and extra field move the cursor to where the payload starts |
| Zip.SkipRead | src/com/soywiz/korio/vfs/ZipVfs.kt:106-107 | skipping the name and the extra field moves the cursor by their lengths, or to the end of the data |
| Zip.LocalHeaderFails | src/com/soywiz/korio/vfs/ZipVfs.kt:95-107 | reading a rejected local header fails the way the byte-level judgement says |
| Zip.LocalHeaderRead | src/com/soywiz/korio/vfs/ZipVfs.kt:95-107 | reading an accepted local header leaves the cursor on the payload |
| Zip.Open | src/com/soywiz/korio/vfs/ZipVfs.kt:91-118 | an unindexed path fails with not-found; otherwise a payload slice of `compressedSize` bytes, raw for method 0 and inflating for method 8 |
| Zip.OpenLayout | src/com/soywiz/korio/vfs/ZipVfs.kt:92-116 | `open` of an indexed path is the local header's outcome on the archive bytes, then the payload by method, and any other method is not implemented |
| Zip.OpenEntryFails | src/com/soywiz/korio/vfs/ZipVfs.kt:95-107 | a rejected local header makes `open` fail the same way |
| Zip.OpenEntryPayload | src/com/soywiz/korio/vfs/ZipVfs.kt:108-116 | an accepted local header puts the payload slice where the header ends |
| Zip.StatOf | src/com/soywiz/korio/vfs/ZipVfs.kt:120-122 | an indexed path reports its directory flag and uncompressed size; any other is non-existent with size 0 |
| Zip.StatReportsLastRecord | src/com/soywiz/korio/vfs/ZipVfs.kt:120-122 | after loading, a path is found exactly when some record has its trimmed name, and reports the last such record |
| Zip.List | src/com/soywiz/korio/vfs/ZipVfs.kt:124-128 | a folder with no indexed entries fails the not-null assertion; otherwise exactly the stats of its entries under their raw names |
| Zip.ListedStatsAgree | src/com/soywiz/korio/vfs/ZipVfs.kt:124-128 | every stat `list` reports is what `stat` reports for its path |
| ZipWriter.HeaderAt | src/com/soywiz/korio/vfs/ZipVfs.kt:48-64 | the fixed part of a written record reads back field by field, with the record signature |
| ZipWriter.RecordAt | src/com/soywiz/korio/vfs/ZipVfs.kt:48-66 | a written record reads as the entry it describes, with the cursor right after its extra field |
| ZipWriter.ToUIntSigned | src/com/soywiz/korio/vfs/ZipVfs.kt:80-82 | a size read signed and made unsigned again is the unsigned size |
| ZipWriter.WalkReadsBack | src/com/soywiz/korio/vfs/ZipVfs.kt:47-66 | the walk that skips comments reads back every written record, in order; the walk as written does so only when no record has a comment |
| ZipWriter.AsWrittenMisreadsComment | src/com/soywiz/korio/vfs/ZipVfs.kt:60-66 | the walk as written fails with "Not a zip file record" on a directory whose first record has a comment not starting with a record signature |
| ZipWriter.LoadCorrectedReadsBack | src/com/soywiz/korio/vfs/ZipVfs.kt:12-88 | an archive whose end record points at written records loads, with comments skipped, to the index of exactly those records |
| ZipWriter.LoadRejectsComment | src/com/soywiz/korio/vfs/ZipVfs.kt:47-66 | the loader as written rejects the same archive with "Not a zip file record" when its first record has a comment not starting with a record signature |
| NodeVfs.Init | src/commonMain/kotlin/com/soywiz/korio/file/std/NodeVfs.kt:78 | a fresh file system is one root directory, linked and tidy |
| NodeVfs.SetParent | src/commonMain/kotlin/com/soywiz/korio/file/std/NodeVfs.kt:22-31 | the old parent drops the node's name from both maps, the link is set, the new parent lists the node under its name, and nothing else changes |
| NodeVfs.SetParentLinked | src/commonMain/kotlin/com/soywiz/korio/file/std/NodeVfs.kt:22-31 | after the setter every map entry still points back at its parent under its name |
| NodeVfs.SetParentTidy | src/commonMain/kotlin/com/soywiz/korio/file/std/NodeVfs.kt:22-31 | moving a node under a parent with no other child of the same key keeps every node listed under its parent |
| NodeVfs.Child | src/commonMain/kotlin/com/soywiz/korio/file/std/NodeVfs.kt:43-51 | "" and "." are the node, ".." its parent; other names find a child of the node whose name matches exactly, or ignoring case |
| NodeVfs.ChildFindsListed | src/commonMain/kotlin/com/soywiz/korio/file/std/NodeVfs.kt:43-51 | in a tidy tree a node whose name is not `""`, `.` or `..` is found under its parent by its own name |
| NodeVfs.RootOf | src/commonMain/kotlin/com/soywiz/korio/file/std/NodeVfs.kt:40 | `root` is a parentless node reached up the links; a parentless node is its own root |
| NodeVfs.CreateChild | src/commonMain/kotlin/com/soywiz/korio/file/std/NodeVfs.kt:53-54 | one new node, listed in its parent's maps, and no other node changed |
| NodeVfs.CreateChildKeeps | src/commonMain/kotlin/com/soywiz/korio/file/std/NodeVfs.kt:53-54 | a created child keeps the tree linked, and tidy when the parent had no child of that key |
| NodeVfs.AccessParts | src/commonMain/kotlin/com/soywiz/korio/file/std/NodeVfs.kt:60-64 | without `createFolders` the walk changes nothing and can fail only with not-found; with it the walk always succeeds; either way it only adds directories and changes no existing node's name, kind or stream |
| NodeVfs.Access | src/commonMain/kotlin/com/soywiz/korio/file/std/NodeVfs.kt:58-66 | `access` without `createFolders` changes nothing and fails only with not-found or an unresolvable root |
| NodeVfs.AccessAgree | src/commonMain/kotlin/com/soywiz/korio/file/std/NodeVfs.kt:58-66 | creating folders changes nothing on a path that already resolves |
| NodeVfs.AccessPartsKeeps | src/commonMain/kotlin/com/soywiz/korio/file/std/NodeVfs.kt:60-64 | walking a path keeps the tree linked, and tidy when no segment is `..` |
| NodeVfs.NodeMkdir | src/commonMain/kotlin/com/soywiz/korio/file/std/NodeVfs.kt:68-75 | false and no change when the name resolves; otherwise true and exactly one new directory child that the name then finds |
| NodeVfs.NodeMkdirKeeps | src/commonMain/kotlin/com/soywiz/korio/file/std/NodeVfs.kt:68-75 | `Node.mkdir` keeps the tree linked, and tidy unless the name is `..` |
| NodeVfs.Open | src/commonMain/kotlin/com/soywiz/korio/file/std/NodeVfs.kt:80-118 | the folder must resolve; a missing file is created as a leaf with an empty stream only with `createIfNotExists`, else not-found; a node without a stream is not-found |
| NodeVfs.OpenKeeps | src/commonMain/kotlin/com/soywiz/korio/file/std/NodeVfs.kt:80-118 | `open` keeps the tree linked, and tidy unless the basename is `..` |
| NodeVfs.Write | src/commonMain/kotlin/com/soywiz/korio/file/std/NodeVfs.kt:93-101 | the written bytes read back at their position, the length grows to cover them, every other byte of the stream is kept and a gap past the old end reads as zeros, one MODIFIED names the opened path, and no other node changes |
| NodeVfs.SetLength | src/commonMain/kotlin/com/soywiz/korio/file/std/NodeVfs.kt:103-111 | the stream is cut or zero-extended to the length and one MODIFIED is emitted |
| NodeVfs.ReadAt | src/commonMain/kotlin/com/soywiz/korio/file/std/NodeVfs.kt:89-91 | a read returns `len` bytes or, running past the end, only those that remain (none at or past the end); they are the stored bytes from `position` on |
| NodeVfs.Stat | src/commonMain/kotlin/com/soywiz/korio/file/std/NodeVfs.kt:120-129 | never fails: found exactly when the path resolves, then its kind and stream length or 0; otherwise non-existent |
| NodeVfs.List | src/commonMain/kotlin/com/soywiz/korio/file/std/NodeVfs.kt:131-138 | fails exactly when the path does not resolve; otherwise `path/name` for exactly the names in the node's child map |
| NodeVfs.Delete | src/commonMain/kotlin/com/soywiz/korio/file/std/NodeVfs.kt:140-145 | fails exactly when the path does not resolve; otherwise the node alone is detached, one DELETED is emitted and the answer is true |
| NodeVfs.DeleteKeeps | src/commonMain/kotlin/com/soywiz/korio/file/std/NodeVfs.kt:140-145 | `delete` keeps the tree linked and tidy |
| NodeVfs.Mkdir | src/commonMain/kotlin/com/soywiz/korio/file/std/NodeVfs.kt:147-152 | fails exactly when the folder does not resolve; `Node.mkdir` decides the answer and one CREATED is emitted either way |
| NodeVfs.MkdirKeeps | src/commonMain/kotlin/com/soywiz/korio/file/std/NodeVfs.kt:147-152 | `mkdir` keeps the tree linked, and tidy unless the basename is `..` |
| NodeVfs.Rename | src/commonMain/kotlin/com/soywiz/korio/file/std/NodeVfs.kt:154-168 | equal paths answer false and change nothing; otherwise it fails exactly when the source or the destination folder does not resolve, and else moves the node under the destination folder with its own name: the destination lists it under that name, its old parent (when another folder) drops the name from both its exact and its lower-cased map, every other node is unchanged; one RENAMED is emitted and the answer is true |
| NodeVfs.RenameKeeps | src/commonMain/kotlin/com/soywiz/korio/file/std/NodeVfs.kt:154-168 | `rename` of two resolving paths succeeds, keeps the tree linked, and keeps it tidy when the destination folder lists nothing else under the node's key |
| NodeVfs.MoveAs | src/commonMain/kotlin/com/soywiz/korio/file/std/NodeVfs.kt:159 | the intended move: the node takes the new name and is listed under the new parent by it, and leaves its old parent's maps |
| NodeVfs.RenameCorrected | src/commonMain/kotlin/com/soywiz/korio/file/std/NodeVfs.kt:154-168 | `rename` with the node taking the destination's basename, otherwise as written |
| NodeVfs.StatAtRoot | src/commonMain/kotlin/com/soywiz/korio/file/std/NodeVfs.kt:120-129 | at a parentless root, `/a` exists exactly when the root has a child `a` |
| NodeVfs.RootRenameIs | src/commonMain/kotlin/com/soywiz/korio/file/std/NodeVfs.kt:154-168 | `rename("/a", "/b")` is the parent setter from the root to the root plus one RENAMED |
| NodeVfs.AsWrittenRenameKeepsName | src/commonMain/kotlin/com/soywiz/korio/file/std/NodeVfs.kt:156-159 | as written, `rename("/a", "/b")` answers true, yet `/b` does not exist afterwards and `/a` still does |
| NodeVfs.RenameCorrectedMovesName | src/commonMain/kotlin/com/soywiz/korio/file/std/NodeVfs.kt:156-159 | the corrected rename makes `/b` exist and `/a` not |
| VfsFile.CombineSplits | korio-core/src/com/soywiz/korio/vfs/VfsFile.kt:19 | joining keeps the path's basename, and the folder is the base followed by the path's own folder |
| VfsFile.Get | korio-core/src/com/soywiz/korio/vfs/VfsFile.kt:19 | `file[path]` is on the same backend, with `path`'s basename and `path`'s folder under this handle |
| VfsFile.Exists | korio-core/src/com/soywiz/korio/vfs/VfsFile.kt:62-66 | true exactly when `stat` succeeds and reports existence; false when `stat` fails |
| VfsFile.WriteStream | korio-core/src/com/soywiz/korio/vfs/VfsFile.kt:31 | answers the source's length, and in every store the target then holds exactly the source's bytes, with no directory made |
| VfsFile.CopyTo | korio-core/src/com/soywiz/korio/vfs/VfsFile.kt:34 | answers the source's length and the target reads back equal to the source |
| VfsFile.Mkdirs | korio-core/src/com/soywiz/korio/vfs/VfsFile.kt:80-83 | only the handle's own directory is made; no ancestor is created and no file changes |
| VfsFile.CopyToTree | korio-core/src/com/soywiz/korio/vfs/VfsFile.kt:88-99 | the pair is notified first, a directory then makes its target directory, and the copy fails exactly when the `stat` or `list` of some source entry fails; a failing read-open of a source file and failures on the target side are not modelled |
| VfsFile.CopyChildren | korio-core/src/com/soywiz/korio/vfs/VfsFile.kt:92-94 | the loop over the children fails exactly when one of them does |
| VfsFile.CopyToTreeOrder | korio-core/src/com/soywiz/korio/vfs/VfsFile.kt:88-99 | a copy without failures notifies the source and target paths in pre-order and puts every file at its place under the target, in order |
| VfsFile.ListRecursive | korio-core/src/com/soywiz/korio/vfs/VfsFile.kt:107-116 | the filter applies to the top level only and the recursion uses the default filter (`VfsFile.FilterTopLevelOnly`); with the default filter the listing is the pre-order of the tree (`VfsFile.ListRecursiveIsPreOrder`); a filter rejecting every child yields nothing |
| VfsFile.FilterTopLevelOnly | korio-core/src/com/soywiz/korio/vfs/VfsFile.kt:113 | listing with a filter is listing the accepted children with the accept-all filter |
| VfsFile.ListRecursiveIsPreOrder | korio-core/src/com/soywiz/korio/vfs/VfsFile.kt:107-116 | without failures, the accept-all listing yields exactly the pre-order paths below the directory |
| VfsFile.CopyNotifiesListing | korio-core/src/com/soywiz/korio/vfs/VfsFile.kt:88-116 | copying a directory notifies its own pair and then exactly the paths `listRecursive` yields below it |
| MergedVfs.First | korio-core/src/com/soywiz/korio/vfs/MergedVfs.kt:11 | the first member, in list order, whose handle for the path exists, with none before it |
| MergedVfs.Access | korio-core/src/com/soywiz/korio/vfs/MergedVfs.kt:10-12 | the first member's handle where the path exists, and not-found exactly when no member has it |
| MergedVfs.Stat | korio-core/src/com/soywiz/korio/vfs/MergedVfs.kt:14-24 | the first member stat that succeeds and reports existence, re-targeted to the path; a failing member counts as missing; no member gives a non-existent stat |
| MergedVfs.StatAgreesWithAccess | korio-core/src/com/soywiz/korio/vfs/MergedVfs.kt:10-24 | `stat` finds the path exactly when `access` resolves it, and reports the resolved member's stat |
| MergedVfs.FirstOccurrencesUnique | korio-core/src/com/soywiz/korio/vfs/MergedVfs.kt:36-37 | the first-occurrence reference keeps every name, once |
| MergedVfs.Merge | korio-core/src/com/soywiz/korio/vfs/MergedVfs.kt:35-40 | the inner loop emits each of a member's names not emitted before, in order, and keeps the emitted set equal to all names seen |
| MergedVfs.List | korio-core/src/com/soywiz/korio/vfs/MergedVfs.kt:26-45 | the merged listing is `path/name` for the first occurrences of the names the members yield, member by member; a failing `list` adds nothing and a listing that breaks keeps what it yielded |
| MergedVfs.ListUnique | korio-core/src/com/soywiz/korio/vfs/MergedVfs.kt:26-45 | the merged listing names each basename once |
| MergedVfs.ListComplete | korio-core/src/com/soywiz/korio/vfs/MergedVfs.kt:26-45 | every basename some member yields appears in the merged listing |
| Cache.Get | korio-core/src/com/soywiz/korio/util/AsyncInmemoryCache.kt:18-24 | a run starts exactly when the key is missing or its age has reached the TTL, and is stored stamped with the clock; the caller receives the stored outcome; other keys are unchanged |
| Cache.Bind | korio-core/src/com/soywiz/korio/util/AsyncInmemoryCache.kt:13 | `get(clazz, key, ttlMs)` hands out an entry bound to exactly that key and TTL, which its `get` then uses (`Cache.EntryGet`) |
| Cache.EntryGet | korio-core/src/com/soywiz/korio/util/AsyncInmemoryCache.kt:29-33 | the bound entry's `get` starts a run exactly when its key is missing or expired, and otherwise returns the stored outcome and leaves the cache alone |
| Cache.NonPositiveTtlAlwaysRuns | korio-core/src/com/soywiz/korio/util/AsyncInmemoryCache.kt:20-21 | with a TTL of zero or less, on a clock that does not run backwards, every call starts a fresh run |
| Cache.ReusedWithinTtl | korio-core/src/com/soywiz/korio/util/AsyncInmemoryCache.kt:20-23 | within the TTL of a run, a second `get` starts nothing and receives the first run's outcome |
| Cache.ExpiredAfterTtl | korio-core/src/com/soywiz/korio/util/AsyncInmemoryCache.kt:20-21 | once the TTL has elapsed, the next `get` starts a run and receives its outcome |
| Cache.OtherKeysIndependent | korio-core/src/com/soywiz/korio/util/AsyncInmemoryCache.kt:21 | a `get` of one key does not change what a `get` of another key does |
| Cache.StoreHoldsLastRun | korio-core/src/com/soywiz/korio/util/AsyncInmemoryCache.kt:19-22 | over any sequence of calls from an empty cache, a key's entry is exactly its latest run |
| Cache.ResultIsLastRun | korio-core/src/com/soywiz/korio/util/AsyncInmemoryCache.kt:23 | every call receives the outcome of the latest run started for its key, which exists |
| UrlVfs.DecimalRoundTrip | korio-core/src/com/soywiz/korio/vfs/UrlVfs.kt:68 | the decimal text of every `Long` parses back to it |
| UrlVfs.FullUrl | korio-core/src/com/soywiz/korio/vfs/UrlVfs.kt:19 | the URL is the base trimmed of `/` at both ends, one `/`, and the path trimmed the same way (what `trim` keeps is stated by `Common.TrimShape`); neither part starts or ends with `/` |
| UrlVfs.FullUrlOfEdgeless | korio-core/src/com/soywiz/korio/vfs/UrlVfs.kt:19 | a base and a path without edge slashes are joined as they are, with one `/` between them |
| UrlVfs.FullUrlIgnoresEdgeSlashes | korio-core/src/com/soywiz/korio/vfs/UrlVfs.kt:19 | a trailing `/` on the base and a leading or trailing `/` on the path do not change the URL |
| UrlVfs.Stat | korio-core/src/com/soywiz/korio/vfs/UrlVfs.kt:64-72 | found exactly when the `HEAD` probe succeeds, then a directory sized by `content-length` (0 when absent or unparseable); otherwise non-existent |
| UrlVfs.StatReportsAnnouncedLength | korio-core/src/com/soywiz/korio/vfs/UrlVfs.kt:68 | a length announced in `content-length` is the stat size |
| UrlVfs.Open | korio-core/src/com/soywiz/korio/vfs/UrlVfs.kt:29-48 | succeeds exactly when the stat finds the resource, else not-found on the full URL; the stream's length is the stat size |
| UrlVfs.Read | korio-core/src/com/soywiz/korio/vfs/UrlVfs.kt:36-43 | a zero-length read sends no request and delivers nothing; otherwise one `GET` of the URL with only a `range` header, delivering a prefix of the response body of at most `len` bytes |
| UrlVfs.ReadRequestsItsRange | korio-core/src/com/soywiz/korio/vfs/UrlVfs.kt:38-40 | the range header names `position` as the first and `position + len - 1` as the last byte |
| UrlVfs.RangeSpansLen | korio-core/src/com/soywiz/korio/vfs/UrlVfs.kt:38-40 | the inclusive range covers exactly `len` bytes |
| UrlVfs.PutHeaders | korio-core/src/com/soywiz/korio/vfs/UrlVfs.kt:53-61 | the caller's headers, with `content-length` the content's length and `content-type` the MIME type or `application/json`; every other header kept |
| UrlVfs.PutRequest | korio-core/src/com/soywiz/korio/vfs/UrlVfs.kt:52-62 | one `PUT` of the full URL carrying the content and those headers |
| UrlVfs.PutAnnouncesLength | korio-core/src/com/soywiz/korio/vfs/UrlVfs.kt:56-59 | the receiver reads the content's length back from `content-length` |

## Left out

- The coroutine scheduler, event loop and worker offload (`async.kt`, `parallel.kt`, `executeInWorker`): the model is sequential.
- `InflateAsyncStream`: deflate decompression is opaque; `open` of method 8 returns the payload slice marked as inflating.
- `SyncStream.toAsync`: worker-pool plumbing only.
- The dependency-injection container, reflection helpers, JavaScript interop, `HttpDate`: not part of the file system core.
- `exec`, `execToString`, `passthru`, `watch`, `absolutePath` and charset decoding of `VfsFile`: processes, watchers and charsets are not modelled; names and contents are byte or character sequences.
- The HTTP client and `buffered()` of `UrlVfs`: replaced by an oracle from requests to responses.
- `VfsUtil.combine` normalisation of `.` and `..`: `VfsUtil` is not part of this model.
- NodeVfs.List: returns a set, because the insertion order of the `LinkedHashMap` child maps is not modelled.
- NodeVfs.RootOf: walks at most as many links as there are nodes; a longer chain is a cycle, where the source recurses without end, and is reported as unresolvable.
- NodeVfs.Write: positions are non-negative and the `Long` width of positions is not modelled.
- The `Signal` dispatch of file events: events are appended to a log.
- Cache.Get: one clock reading stands for the two `currentTimeMillis()` calls of one `get`, and the `Long` subtraction of timestamps is not wrapped.
- Cache.Get: a generator run is its settled outcome; the promise's suspension and concurrent `get`s are not modelled.
- UrlVfs.ParseLong: only ASCII digits are accepted, whereas Kotlin also accepts other Unicode decimal digits.
- UrlVfs.Read: the response body's own `read` is taken to deliver as much of the body as fits in `len`.
- UrlVfs.PutHeaders: header names are compared exactly; the case-insensitivity of `Http.Headers` is not modelled.
- MergedVfs.List: the member list is a value, so the copy made at construction is implicit.
- Zip.Load: the archive is read from a stream over memory; the archive comment after the end record is not supported, as in the source.
- ByteQueue.Produce: the chunk is taken by value; the source queues the caller's array by reference, so a change the caller makes to that array after `produce` would change the pending bytes, and that aliasing is not modelled.
- Streams.ReadStringz: returns the bytes before the first zero; their decoding with `charset` (UTF-8 by default) into a `String` is not modelled.
- Zip.Latin1: entry names are kept as their bytes, one character per byte; the UTF-8 decoding of `readString` is not modelled, so non-ASCII names differ from the source's, and invalid sequences decoded to U+FFFD do not collide as they can in the source.
- Common.Lower: only `A`-`Z` are lower-cased; Kotlin's Unicode and locale-dependent `toLowerCase()` (which can also change a string's length) is not modelled, so case-insensitive child lookups agree with the source on ASCII names only.
- ByteQueue.ConsumeBytes: built on the corrected copy loop, so it succeeds where the source's `consume(len)` fails; `ByteQueue.ConsumeBytesAsWritten` is the source as written.
- VfsFile.CopyToTree: only `stat` and `list` of source entries can fail. The source file's `openUse(VfsOpenMode.READ)` in `copyTo` cannot fail, nor can the target side (`mkdir`, and `put` of `writeStream`); a directory's listing either fails as a whole or yields all its children, so a listing that breaks after some children is not modelled here.
- UrlVfs.Stat: the response header is looked up under the exact name `content-length`; the case-insensitive lookup of `Http.Headers` (which would also find `Content-Length`) is not modelled.

## Findings

| source | as written | input that shows it | evidently intended | confidence | as-written member | corrected member |
|---|---|---|---|---|---|---|
| korio-core/src/com/soywiz/korio/stream/SyncProduceConsumerByteBuffer.kt:43 | each copy takes `min(availableInCurrent, len)` bytes | a 3-byte current chunk and a queued 10-byte chunk, `consume(5)`: 3 bytes are copied, then 5 more, 8 in all, which overruns the 5-byte array | each copy takes `min(availableInCurrent, remaining)` bytes, so at most `len` in all | high, not executed | ByteQueue.ConsumeAsWrittenOverreads | ByteQueue.Consume |
| src/commonMain/kotlin/com/soywiz/korio/file/std/NodeVfs.kt:156-159 | the node is reparented under the destination folder but keeps its own name | a file `/a` and no `/b`, `rename("/a", "/b")`: answers true, then `/b` is missing and `/a` still exists | the node is listed under the destination's basename | high, not executed | NodeVfs.AsWrittenRenameKeepsName | NodeVfs.RenameCorrectedMovesName |
| src/com/soywiz/korio/vfs/ZipVfs.kt:60-66 | `fileCommentLength` is read but the comment bytes are not skipped | a directory of two records whose first has a 4-byte comment not starting with `50 4B 01 02`: the second record is read at the comment and fails with "Not a zip file record" | the walk skips the file comment before the next record | high, not executed | ZipWriter.LoadRejectsComment | ZipWriter.LoadCorrectedReadsBack |

=== FILE: byte_queue.dfy ===
/** `SyncProduceConsumerByteBuffer`: a FIFO of byte chunks. Producers append
    whole chunks; consumers drain a `current` chunk from `currentPos` and move to
    the next queued chunk when it is used up. The queue keeps a running count of
    the bytes in its queued chunks (`availableInBuffers`).

    The state is a value; each operation returns the state afterwards. `Valid`
    is the class invariant that every reachable state satisfies. */
module ByteQueue {
  import opened Common
  import Streams

  datatype Queue = Queue(
    current: seq<Byte>,
    currentPos: int,
    buffers: seq<seq<Byte>>,
    availableInBuffers: int)

  /** The state of a new buffer: nothing current, nothing queued. */
  const Empty: Queue := Queue([], 0, [], 0)

  /** Total size of a list of chunks. */
  function TotalSize(bs: seq<seq<Byte>>): nat {
    if bs == [] then 0 else |bs[0]| + TotalSize(bs[1..])
  }

  /** The chunks' bytes, front to back. */
  function Flatten(bs: seq<seq<Byte>>): seq<Byte> {
    if bs == [] then [] else bs[0] + Flatten(bs[1..])
  }

  /** The class invariant: the cursor is inside `current` and the counter is the
      total size of the queued chunks. */
  predicate Valid(q: Queue) {
    0 <= q.currentPos <= |q.current| && q.availableInBuffers == TotalSize(q.buffers)
  }

  /** `availableInCurrent`. */
  function InCurrent(q: Queue): int {
    |q.current| - q.currentPos
  }

  /** `available`: what the buffer reports as readable. */
  function Available(q: Queue): int {
    InCurrent(q) + q.availableInBuffers
  }

  /** The bytes not yet consumed, in delivery order. */
  function Pending(q: Queue): seq<Byte>
    requires 0 <= q.currentPos <= |q.current|
  {
    q.current[q.currentPos..] + Flatten(q.buffers)
  }

  /** No queued chunk is empty. */
  predicate NoEmptyChunks(bs: seq<seq<Byte>>) {
    forall k :: 0 <= k < |bs| ==> |bs[k]| > 0
  }

  lemma {:induction false} FlattenSize(bs: seq<seq<Byte>>)
    ensures |Flatten(bs)| == TotalSize(bs)
  {
    if bs != [] {
      FlattenSize(bs[1..]);
    }
  }

  lemma {:induction false} FlattenAppend(bs: seq<seq<Byte>>, d: seq<Byte>)
    ensures Flatten(bs + [d]) == Flatten(bs) + d
    ensures TotalSize(bs + [d]) == TotalSize(bs) + |d|
  {
    if bs != [] {
      assert (bs + [d])[1..] == bs[1..] + [d];
      FlattenAppend(bs[1..], d);
    } else {
      assert Flatten([d]) == d + Flatten([]);
    }
  }

  /** `available` is exactly the number of bytes still to be delivered: what
      is left of `current` plus the total size of the queued chunks. */
  lemma AvailableIsPending(q: Queue)
    requires Valid(q)
    ensures Available(q) == |Pending(q)|
  {
    FlattenSize(q.buffers);
  }

  /** `produce(data)`: the chunk joins the back of the queue. */
  function Produce(q: Queue, data: seq<Byte>): (r: Queue)
    requires Valid(q)
    ensures Valid(r)
    ensures Pending(r) == Pending(q) + data
    ensures Available(r) == Available(q) + |data|
  {
    FlattenAppend(q.buffers, data);
    q.(buffers := q.buffers + [data], availableInBuffers := q.availableInBuffers + |data|)
  }

  /** `useNextBuffer()`: the front chunk (or nothing) becomes `current`. Called
      only once `current` is used up, so no byte is lost. */
  function UseNextBuffer(q: Queue): (r: Queue)
    requires Valid(q)
    ensures Valid(r) && r.currentPos == 0
    ensures q.buffers == [] ==> r.current == [] && r.buffers == []
    ensures q.buffers != [] ==> r.current == q.buffers[0] && r.buffers == q.buffers[1..]
    ensures InCurrent(q) == 0 ==> Pending(r) == Pending(q)
  {
    if q.buffers == [] then Queue([], 0, [], q.availableInBuffers)
    else Queue(q.buffers[0], 0, q.buffers[1..], q.availableInBuffers - |q.buffers[0]|)
  }

  /** `ensureCurrentBuffer()`. */
  function EnsureCurrent(q: Queue): (r: Queue)
    requires Valid(q)
    ensures Valid(r) && Pending(r) == Pending(q)
    ensures NoEmptyChunks(q.buffers) ==> NoEmptyChunks(r.buffers)
    ensures NoEmptyChunks(q.buffers) && InCurrent(r) <= 0 ==> Pending(q) == []
    ensures InCurrent(q) > 0 ==> r == q
  {
    if InCurrent(q) <= 0 then
      var r := UseNextBuffer(q);
      assert q.buffers != [] ==> q.buffers[0] + Flatten(q.buffers[1..]) == Flatten(q.buffers);
      r
    else q
  }

  lemma AppendAssoc(a: seq<Byte>, b: seq<Byte>, c: seq<Byte>)
    ensures a + (b + c) == (a + b) + c
  {
  }

  /** Taking `n` bytes off `current` delivers the next `n` pending bytes. */
  lemma Take(q: Queue, n: nat)
    requires Valid(q) && n <= InCurrent(q)
    ensures var next := q.(currentPos := q.currentPos + n);
      Valid(next) && InCurrent(next) == InCurrent(q) - n
      && q.current[q.currentPos..q.currentPos + n] == Pending(q)[..n]
      && Pending(q) == q.current[q.currentPos..q.currentPos + n] + Pending(next)
  {
  }

  // ---------------------------------------------------------------------------
  // consume, as written
  // ---------------------------------------------------------------------------

  /** The copy loop of `consume(data, offset, len)` exactly as written: each
      copy takes `min(availableInCurrent, len)` bytes, bounded by the whole
      request `len` instead of what `remaining` still wants. Returns the state,
      the bytes copied to `data[offset..]`, and false when `System.arraycopy`
      rejects a destination range outside the `size`-byte array. */
  function ConsumeAsWritten(q: Queue, size: int, outputPos: int, remaining: int, len: int)
    : (r: (Queue, seq<Byte>, bool))
    requires Valid(q)
    ensures Valid(r.0)
    ensures Pending(q) == r.1 + Pending(r.0)
    decreases remaining
  {
    if remaining <= 0 then (q, [], true)
    else
      var q1 := EnsureCurrent(q);
      var n := Streams.Min(InCurrent(q1), len);
      if n <= 0 then (q1, [], true)
      else if outputPos < 0 || outputPos + n > size then (q1, [], false)
      else
        var chunk := q1.current[q1.currentPos..q1.currentPos + n];
        var q2 := q1.(currentPos := q1.currentPos + n);
        Take(q1, n);
        var rest := ConsumeAsWritten(q2, size, outputPos + n, remaining - n, len);
        AppendAssoc(chunk, rest.1, Pending(rest.0));
        (rest.0, chunk + rest.1, rest.2)
  }

  /** The source's copy bound lets a read that spans two chunks copy more than
      it was asked for: asking for 5 bytes of a queue holding a 3-byte chunk and
      a 10-byte chunk copies 8 into a large enough array, and into the 5-byte
      array that `consume(5)` allocates it fails with an index error. */
  lemma ConsumeAsWrittenOverreads()
    ensures var q := Queue([1, 2, 3], 0, [[4, 5, 6, 7, 8, 9, 10, 11, 12, 13]], 10);
      Valid(q)
      && var big := ConsumeAsWritten(q, 100, 0, 5, 5);
      big.2 && big.1 == [1, 2, 3, 4, 5, 6, 7, 8] && |big.1| > 5
      && !ConsumeAsWritten(q, 5, 0, 5, 5).2
  {
    var q := Queue([1, 2, 3], 0, [[4, 5, 6, 7, 8, 9, 10, 11, 12, 13]], 10);
    assert TotalSize(q.buffers) == 10 + TotalSize([]);
    var q2 := q.(currentPos := 3);
    var q3 := Queue([4, 5, 6, 7, 8, 9, 10, 11, 12, 13], 0, [], 0);
    assert EnsureCurrent(q2) == q3;
    var q4 := q3.(currentPos := 5);
    assert q3.current[0..5] == [4, 5, 6, 7, 8];
    assert q.current[0..3] == [1, 2, 3];
    assert ConsumeAsWritten(q4, 100, 8, -3, 5) == (q4, [], true);
    assert ConsumeAsWritten(q2, 100, 3, 2, 5) == (q4, [4, 5, 6, 7, 8] + [], true);
    assert ConsumeAsWritten(q, 100, 0, 5, 5) == (q4, [1, 2, 3] + ([4, 5, 6, 7, 8] + []), true);
    assert ConsumeAsWritten(q2, 5, 3, 2, 5) == (q3, [], false);
    assert ConsumeAsWritten(q, 5, 0, 5, 5) == (q3, [1, 2, 3] + [], false);
  }

  // ---------------------------------------------------------------------------
  // consume, corrected
  // ---------------------------------------------------------------------------

  /** `consume(data, offset, len)` with each copy bounded by `remaining`, the
      evidently intended bound. Returns the state, the bytes copied to
      `data[offset..]` (their count is the returned `totalRead`), and false when
      the destination range leaves the `size`-byte array. */
  method Consume(q: Queue, size: int, offset: int, len: int) returns (r: Queue, out: seq<Byte>, ok: bool)
    requires Valid(q)
    ensures Valid(r)
    ensures Pending(q) == out + Pending(r)
    ensures |out| <= Streams.Max(len, 0)
    ensures 0 <= offset && offset + len <= size ==> ok
    ensures Available(q) == 0 ==> out == [] && ok
    ensures ok && 0 <= len <= InCurrent(q) ==> |out| == len
    ensures ok && NoEmptyChunks(q.buffers) ==> |out| == Streams.Min(Streams.Max(len, 0), Available(q))
  {
    AvailableIsPending(q);
    r, out, ok := q, [], true;
    var remaining := len;
    var outputPos := offset;
    while remaining > 0
      invariant Valid(r)
      invariant Pending(q) == out + Pending(r)
      invariant remaining == len - |out| && outputPos == offset + |out|
      invariant |out| <= Streams.Max(len, 0)
      invariant 0 <= offset && offset + len <= size ==> outputPos + remaining <= size
      invariant NoEmptyChunks(q.buffers) ==> NoEmptyChunks(r.buffers)
      invariant 0 <= len <= InCurrent(q) ==> InCurrent(r) >= remaining
      decreases remaining
    {
      r := EnsureCurrent(r);
      var readInCurrent := Streams.Min(InCurrent(r), remaining);
      if readInCurrent <= 0 {
        break;
      }
      if outputPos < 0 || outputPos + readInCurrent > size {
        ok := false;
        break;
      }
      var pp := r.currentPos + readInCurrent;
      Advance(r, out, Pending(q), pp);
      out, r := out + r.current[r.currentPos..pp], r.(currentPos := pp);
      remaining := remaining - readInCurrent;
      outputPos := outputPos + readInCurrent;
    }
    AvailableIsPending(r);
  }

  /** `consume(len)` as written: the copy loop of `ConsumeAsWritten` into a
      fresh `len`-byte array, trimmed to what was copied. A negative `len`
      fails when the array is allocated, and a copy past the array's end fails
      in `System.arraycopy`. */
  function ConsumeBytesAsWritten(q: Queue, len: int): (r: Result<(Queue, seq<Byte>)>)
    requires Valid(q)
    ensures len < 0 ==> r == Err(OutOfBounds)
    ensures r.Ok? ==> Valid(r.value.0) && Pending(q) == r.value.1 + Pending(r.value.0)
  {
    if len < 0 then Err(OutOfBounds)
    else
      var (r, out, ok) := ConsumeAsWritten(q, len, 0, len, len);
      if ok then Ok((r, out)) else Err(OutOfBounds)
  }

  /** As written, `consume(5)` over a 3-byte chunk and a queued 10-byte chunk
      fails, although the queue holds more than 5 bytes. */
  lemma ConsumeBytesAsWrittenFails()
    ensures var q := Queue([1, 2, 3], 0, [[4, 5, 6, 7, 8, 9, 10, 11, 12, 13]], 10);
      Valid(q) && Available(q) > 5 && ConsumeBytesAsWritten(q, 5) == Err(OutOfBounds)
  {
    ConsumeAsWrittenOverreads();
  }

  /** `consume(len)` over the corrected copy loop `Consume`: a fresh `len`-byte
      array, trimmed to what was copied. A negative `len` fails when the array
      is allocated. */
  method ConsumeBytes(q: Queue, len: int) returns (r: Queue, out: seq<Byte>, ok: bool)
    requires Valid(q)
    ensures Valid(r)
    ensures ok <==> 0 <= len
    ensures ok ==> |out| <= |Pending(q)| && out == Pending(q)[..|out|] && Pending(r) == Pending(q)[|out|..]
    ensures ok && NoEmptyChunks(q.buffers) ==> |out| == Streams.Min(len, Available(q))
    ensures !ok ==> r == q && out == []
  {
    if len < 0 {
      return q, [], false;
    }
    r, out, ok := Consume(q, len, 0, len);
    assert Pending(q)[..|out|] == out;
  }

  // ---------------------------------------------------------------------------
  // consumeUntil
  // ---------------------------------------------------------------------------

  /** `ByteArray.indexOf(start, v)`: the first index at or after `start` holding
      `v`, or -1. */
  function IndexFrom(s: seq<Byte>, start: nat, v: Byte): (i: int)
    requires start <= |s|
    ensures i == -1 || start <= i < |s|
    ensures 0 <= i ==> s[i] == v && v !in s[start..i]
    ensures i < 0 ==> v !in s[start..]
    decreases |s| - start
  {
    if start == |s| then -1
    else if s[start] == v then start
    else
      var j := IndexFrom(s, start + 1, v);
      assert s[start..] == [s[start]] + s[start + 1..];
      assert 0 <= j ==> s[start..j] == [s[start]] + s[start + 1..j];
      j
  }

  /** What `consumeUntil` delivers when no queued chunk is empty: the pending
      bytes `all` up to the first `end` (and that `end` when `including`), or
      all of them when there is no `end`. */
  predicate DrainedUntil(all: seq<Byte>, out: seq<Byte>, end: Byte, including: bool) {
    if end in all then out == all[..FirstIndex(all, end) + (if including then 1 else 0)]
    else out == all
  }

  /** `end` occurs in the output only as its last byte, and only when `including`. */
  predicate NoEarlyEnd(out: seq<Byte>, end: Byte, including: bool) {
    if including then end !in out[..Streams.Max(|out| - 1, 0)] else end !in out
  }

  /** `consumeUntil(end, including)`: drain up to the first `end`, keeping it
      (`including`) or leaving it in the queue; with no `end` anywhere, drain
      everything. An empty chunk met at the front of the queue stops the drain
      early, as the source's "no more data" test does. */
  method ConsumeUntil(q: Queue, end: Byte, including: bool) returns (r: Queue, out: seq<Byte>)
    requires Valid(q)
    ensures Valid(r)
    ensures Pending(q) == out + Pending(r)
    ensures NoEarlyEnd(out, end, including)
    ensures NoEmptyChunks(q.buffers) ==> DrainedUntil(Pending(q), out, end, including)
  {
    r, out := q, [];
    while true
      invariant Valid(r)
      invariant Pending(q) == out + Pending(r)
      invariant end !in out
      invariant NoEmptyChunks(q.buffers) ==> NoEmptyChunks(r.buffers)
      decreases |Pending(r)|
    {
      r := EnsureCurrent(r);
      if InCurrent(r) <= 0 {
        break;
      }
      var p := IndexFrom(r.current, r.currentPos, end);
      var pp := if p < 0 then |r.current| else if including then p + 1 else p;
      var chunk := r.current[r.currentPos..pp];
      var next := r.(currentPos := pp);
      if p >= 0 {
        FoundCase(Pending(q), out, r, end, p, pp);
        FoundDone(Pending(q), out + chunk, end, including);
        out, r := out + chunk, next;
        return;
      }
      Advance(r, out, Pending(q), pp);
      assert chunk == r.current[r.currentPos..];
      out, r := out + chunk, next;
    }
    NotFoundDone(Pending(q), out, Pending(r), end, including, NoEmptyChunks(q.buffers));
  }

  /** The found branch of `consumeUntil` meets its contract. */
  lemma FoundDone(all: seq<Byte>, out: seq<Byte>, end: Byte, including: bool)
    requires end in all
    requires out == all[..FirstIndex(all, end) + (if including then 1 else 0)]
    requires end !in out[..FirstIndex(all, end)]
    ensures DrainedUntil(all, out, end, including) && NoEarlyEnd(out, end, including)
  {
    if !including {
      assert out[..|out|] == out;
    }
  }

  /** The drain that ran out of bytes without meeting `end` meets its contract;
      with no empty chunk queued it has drained everything. */
  lemma NotFoundDone(all: seq<Byte>, out: seq<Byte>, rest: seq<Byte>, end: Byte, including: bool, drained: bool)
    requires all == out + rest && end !in out
    requires drained ==> rest == []
    ensures NoEarlyEnd(out, end, including)
    ensures drained ==> DrainedUntil(all, out, end, including)
  {
    NotInPrefix(out, end, Streams.Max(|out| - 1, 0));
    if drained {
      assert all == out;
    }
  }

  lemma NotInPrefix(s: seq<Byte>, x: Byte, k: nat)
    requires k <= |s| && x !in s
    ensures x !in s[..k]
  {
    assert forall i :: 0 <= i < k ==> s[..k][i] == s[i];
  }

  /** Moving the cursor of `current` to `pp` hands the bytes passed over to the
      output without losing or reordering any. */
  lemma Advance(r: Queue, out: seq<Byte>, all: seq<Byte>, pp: int)
    requires Valid(r) && r.currentPos <= pp <= |r.current| && all == out + Pending(r)
    ensures var next := r.(currentPos := pp);
      Valid(next) && all == (out + r.current[r.currentPos..pp]) + Pending(next)
      && |Pending(next)| == |Pending(r)| - (pp - r.currentPos)
  {
    var next := r.(currentPos := pp);
    Take(r, pp - r.currentPos);
    AppendAssoc(out, r.current[r.currentPos..pp], Pending(next));
  }

  /** The step of `consumeUntil` that finds `end` at `p` in `current` and moves
      the cursor to `pp` (past `end` or onto it) finishes the drain: the output
      is the pending bytes up to the first `end`, plus that `end` when `pp` is
      past it. */
  lemma FoundCase(all: seq<Byte>, out: seq<Byte>, r: Queue, end: Byte, p: int, pp: int)
    requires Valid(r) && all == out + Pending(r) && end !in out
    requires r.currentPos <= p < |r.current| && r.current[p] == end
    requires end !in r.current[r.currentPos..p]
    requires pp == p || pp == p + 1
    ensures var out' := out + r.current[r.currentPos..pp];
      var next := r.(currentPos := pp);
      Valid(next) && all == out' + Pending(next)
      && end in all && out' == all[..FirstIndex(all, end) + (pp - p)]
      && end !in out'[..FirstIndex(all, end)]
  {
    var k := p - r.currentPos;
    Advance(r, out, all, pp);
    Take(r, k);
    Take(r, k + 1);
    Take(r, pp - r.currentPos);
    UntilFound(all, out, Pending(r), end, k, pp - r.currentPos);
  }

  /** Meeting `end` at index `k` of the pending bytes `rest`, after an output
      free of `end`: the first `end` of the whole stream is there, and the
      output extended by `n` bytes of `rest` is a prefix of the stream. */
  lemma UntilFound(all: seq<Byte>, out: seq<Byte>, rest: seq<Byte>, end: Byte, k: nat, n: nat)
    requires all == out + rest && end !in out
    requires k < |rest| && rest[k] == end && end !in rest[..k]
    requires n == k || n == k + 1
    ensures end in all && FirstIndex(all, end) == |out| + k
    ensures out + rest[..n] == all[..|out| + n]
    ensures end !in (out + rest[..n])[..|out| + k]
  {
    FirstIndexAfterPrefix(out, rest, end, k);
    assert (out + rest[..n])[..|out| + k] == out + rest[..k];
  }

  /** Index of the first `v` in `s`. */
  function FirstIndex(s: seq<Byte>, v: Byte): (i: nat)
    requires v in s
    ensures i < |s| && s[i] == v && v !in s[..i]
  {
    if s[0] == v then 0
    else
      var j := FirstIndex(s[1..], v);
      assert s[..j + 1] == [s[0]] + s[1..][..j];
      j + 1
  }

  /** When a prefix holds no `v`, the first `v` of the whole is found in the rest. */
  lemma FirstIndexAfterPrefix(prefix: seq<Byte>, rest: seq<Byte>, v: Byte, k: nat)
    requires v !in prefix && k < |rest| && rest[k] == v && v !in rest[..k]
    ensures v in prefix + rest && FirstIndex(prefix + rest, v) == |prefix| + k
  {
    var s := prefix + rest;
    assert s[|prefix| + k] == v;
    assert s[..|prefix| + k] == prefix + rest[..k];
  }

  // ---------------------------------------------------------------------------
  // The stream face
  // ---------------------------------------------------------------------------

  /** `write(buffer, offset, len)`: a copy of `buffer[offset, offset + len)` is
      queued (zero-padded past the array's end, as `Arrays.copyOfRange` does);
      an offset outside the array or a negative length fails. */
  function Write(q: Queue, buffer: seq<Byte>, offset: int, len: int): (r: Result<Queue>)
    requires Valid(q)
    ensures r.Ok? <==> 0 <= offset <= |buffer| && 0 <= len
    ensures r.Ok? ==> Valid(r.value) && Available(r.value) == Available(q) + len
    ensures r.Ok? ==> |Pending(r.value)| == |Pending(q)| + len
    ensures r.Ok? ==> var added := Pending(r.value)[|Pending(q)|..];
              Pending(r.value)[..|Pending(q)|] == Pending(q) && |added| == len
              && forall k :: 0 <= k < len ==>
                   added[k] == (if offset + k < |buffer| then buffer[offset + k] else 0)
  {
    if offset < 0 || offset > |buffer| || len < 0 then Err(OutOfBounds)
    else
      var copy := buffer[offset..Streams.Min(offset + len, |buffer|)]
                  + Streams.Zeros(len - (Streams.Min(offset + len, |buffer|) - offset));
      var r := Produce(q, copy);
      assert Pending(r)[..|Pending(q)|] == Pending(q);
      assert Pending(r)[|Pending(q)|..] == copy;
      Ok(r)
  }
}

=== FILE: cache.dfy ===
/** `AsyncInmemoryCache`: a per-key memo of generator runs with a time to
    live. The clock is a parameter (`now`, in milliseconds), and a generator
    run is represented by the outcome its promise settles to, so a `get`
    returns the settled outcome instead of suspending on it. */
module Cache {
  import opened Common

  /** What a promise settles to: the generator's value or its exception. */
  datatype Outcome<T> = Resolved(value: T) | Rejected(reason: string)

  /** `AsyncInmemoryCache.Entry`: when the generator was started and the
      promise it produced. */
  datatype Entry<T> = Entry(timestamp: int, data: Outcome<T>)

  /** The result of one `get`: the cache map afterwards, what the caller
      receives, and whether a generator was started. */
  datatype Got<T> = Got(store: map<string, Entry<T>>, result: Outcome<T>, started: bool)

  /** An entry can still be served at `now`: its age is below the TTL. */
  predicate Live<T>(e: Entry<T>, now: int, ttlMs: int) {
    now - e.timestamp < ttlMs
  }

  /** `get(key, ttlMs, gen)` at time `now`, where `gen` is what the
      generator's promise would settle to. A missing or expired entry is
      replaced by a fresh run stamped `now`; a live one is served as stored.
      Either way the caller receives what the stored promise settles to. */
  function Get<T>(store: map<string, Entry<T>>, key: string, ttlMs: int, now: int, gen: Outcome<T>): (r: Got<T>)
    ensures r.started <==> key !in store || !Live(store[key], now, ttlMs)
    ensures key in r.store && r.result == r.store[key].data
    ensures r.started ==> r.store[key] == Entry(now, gen) && r.result == gen
    ensures !r.started ==> r.store == store && r.result == store[key].data
    ensures r.store.Keys == store.Keys + {key}
    ensures forall k :: k in store && k != key ==> r.store[k] == store[k]
  {
    if key !in store || now - store[key].timestamp >= ttlMs then
      Got(store[key := Entry(now, gen)], gen, true)
    else
      Got(store, store[key].data, false)
  }

  /** `AsyncInmemoryEntry`: a handle bound to one key and one TTL of a cache. */
  datatype Binding = Binding(key: string, ttlMs: int)

  /** `AsyncInmemoryCache.get(clazz, key, ttlMs)`: binds the key and the TTL. */
  function Bind(key: string, ttlMs: int): (b: Binding)
    ensures b.key == key && b.ttlMs == ttlMs
  {
    Binding(key, ttlMs)
  }

  /** `AsyncInmemoryEntry.get(routine)`: the cache's `get` with the bound key
      and TTL, so it starts a run exactly when that key's entry is missing or
      expired and otherwise leaves the cache as it is. */
  function EntryGet<T>(b: Binding, store: map<string, Entry<T>>, now: int, gen: Outcome<T>): (r: Got<T>)
    ensures r.started <==> b.key !in store || now - store[b.key].timestamp >= b.ttlMs
    ensures r.started ==> r.store == store[b.key := Entry(now, gen)] && r.result == gen
    ensures !r.started ==> r.store == store && r.result == store[b.key].data
  {
    Get(store, b.key, b.ttlMs, now, gen)
  }

  // ---------------------------------------------------------------------------
  // Properties of single calls
  // ---------------------------------------------------------------------------

  /** A TTL of zero or less serves nothing from the cache: on a clock that
      does not run backwards every call starts a fresh run. */
  lemma NonPositiveTtlAlwaysRuns<T>(store: map<string, Entry<T>>, key: string, ttlMs: int, now: int, gen: Outcome<T>)
    requires ttlMs <= 0
    requires key in store ==> store[key].timestamp <= now
    ensures Get(store, key, ttlMs, now, gen).started
    ensures Get(store, key, ttlMs, now, gen).result == gen
  {
  }

  /** Within the TTL of a run, a second `get` of the same key starts nothing,
      whatever its own generator would produce, and receives the first run's
      outcome. */
  lemma ReusedWithinTtl<T>(store: map<string, Entry<T>>, key: string, ttlMs: int, t0: int, t1: int, g0: Outcome<T>, g1: Outcome<T>)
    requires t0 <= t1 < t0 + ttlMs
    ensures var a := Get(store, key, ttlMs, t0, g0);
      var b := Get(a.store, key, ttlMs, t1, g1);
      a.started ==> !b.started && b.result == g0 && b.store == a.store
  {
  }

  /** Once the TTL of a run has elapsed, the next `get` of that key starts a
      new run and receives its outcome. */
  lemma ExpiredAfterTtl<T>(store: map<string, Entry<T>>, key: string, ttlMs: int, t0: int, t1: int, g0: Outcome<T>, g1: Outcome<T>)
    requires t1 >= t0 + ttlMs
    ensures var a := Get(store, key, ttlMs, t0, g0);
      var b := Get(a.store, key, ttlMs, t1, g1);
      a.started ==> b.started && b.result == g1
  {
  }

  /** A `get` of one key does not disturb what a `get` of another key sees. */
  lemma OtherKeysIndependent<T>(store: map<string, Entry<T>>, k1: string, k2: string, ttl1: int, ttl2: int,
                                t1: int, t2: int, g1: Outcome<T>, g2: Outcome<T>)
    requires k1 != k2
    ensures var a := Get(store, k1, ttl1, t1, g1);
      var direct := Get(store, k2, ttl2, t2, g2);
      var after := Get(a.store, k2, ttl2, t2, g2);
      after.started == direct.started && after.result == direct.result
  {
  }

  // ---------------------------------------------------------------------------
  // A sequence of calls
  // ---------------------------------------------------------------------------

  /** One call of `get`: its key, TTL, clock reading and generator outcome. */
  datatype Call<T> = Call(key: string, ttlMs: int, now: int, gen: Outcome<T>)

  function Step<T>(store: map<string, Entry<T>>, c: Call<T>): Got<T> {
    Get(store, c.key, c.ttlMs, c.now, c.gen)
  }

  /** The cache after the first `n` calls, starting from `store`. */
  function StoreAfter<T>(store: map<string, Entry<T>>, calls: seq<Call<T>>, n: nat): map<string, Entry<T>>
    requires n <= |calls|
  {
    if n == 0 then store else Step(StoreAfter(store, calls, n - 1), calls[n - 1]).store
  }

  /** What call `i` receives when the calls run in order from `store`. */
  function ResultOf<T>(store: map<string, Entry<T>>, calls: seq<Call<T>>, i: nat): Outcome<T>
    requires i < |calls|
  {
    Step(StoreAfter(store, calls, i), calls[i]).result
  }

  /** The latest of the first `n` calls that started a run for `key`, if any. */
  function LastRun<T>(store: map<string, Entry<T>>, calls: seq<Call<T>>, key: string, n: nat): (r: Option<nat>)
    requires n <= |calls|
    ensures r.Some? ==> r.value < n && calls[r.value].key == key
  {
    if n == 0 then None
    else if calls[n - 1].key == key && Step(StoreAfter(store, calls, n - 1), calls[n - 1]).started then Some(n - 1)
    else LastRun(store, calls, key, n - 1)
  }

  /** From an empty cache, the entry for a key is exactly the latest run
      started for it: present iff some call started one, and then stamped with
      that call's clock reading and holding that call's outcome. */
  lemma {:induction false} StoreHoldsLastRun<T>(calls: seq<Call<T>>, key: string, n: nat)
    requires n <= |calls|
    ensures var s := StoreAfter(map[], calls, n);
      var j := LastRun(map[], calls, key, n);
      (key in s <==> j.Some?)
      && (j.Some? ==> s[key] == Entry(calls[j.value].now, calls[j.value].gen))
  {
    if n > 0 {
      StoreHoldsLastRun(calls, key, n - 1);
    }
  }

  /** From an empty cache, every call receives the outcome of the latest run
      started for its key up to and including itself; such a run exists. */
  lemma ResultIsLastRun<T>(calls: seq<Call<T>>, i: nat)
    requires i < |calls|
    ensures var j := LastRun(map[], calls, calls[i].key, i + 1);
      j.Some? && ResultOf(map[], calls, i) == calls[j.value].gen
  {
    StoreHoldsLastRun(calls, calls[i].key, i + 1);
  }
}

=== FILE: common.dfy ===
/** Shared vocabulary of the VFS model: bytes, optional values, results with the
    runtime's error kinds, the stat snapshot, and the string helpers that the
    backends use to split and trim `/`-separated paths. */
module Common {

  /** One octet, as stored in a Kotlin `ByteArray` (read back unsigned). */
  newtype Byte = b: int | 0 <= b < 256

  /** Kotlin's nullable value. */
  datatype Option<+T> = None | Some(value: T)

  /** The exceptions the modelled code throws, one constructor per kind. */
  datatype Error =
    | NotFound(path: string)        // FileNotFoundException
    | Unsupported                   // UnsupportedOperationException of a bare stream
    | NotEnoughData                 // "Not enough data" thrown by readExact
    | InvalidFormat(what: string)   // IllegalStateException on a bad signature
    | NotImplemented(code: int)     // TODO(...) for an unknown compression method
    | OutOfBounds                   // an array or stream index outside its range
    | MissingFolder(path: string)   // the `!!` assertion on a missing listing
    | Unresolvable                  // a parent chain that never reaches a root
    | Failed                        // a failure reported by an abstract collaborator

  /** A value or the exception that replaced it; usable with `:-`. */
  datatype Result<+T> = Ok(value: T) | Err(error: Error) {
    predicate IsFailure() {
      Err?
    }

    function PropagateFailure<U>(): Result<U>
      requires Err?
    {
      Err(error)
    }

    function Extract(): T
      requires Ok?
    {
      value
    }
  }

  /** `VfsStat`: the snapshot every backend's `stat` produces, with the handle
      reduced to its path; `found` is the source's `exists` field. */
  datatype Stat = Stat(path: string, found: bool, isDirectory: bool, size: int)

  /** `createNonExistsStat(path)`. */
  function NonExistent(path: string): Stat {
    Stat(path, false, false, 0)
  }

  /** `createExistsStat(path, isDirectory, size)`. */
  function Existent(path: string, isDirectory: bool, size: int): Stat {
    Stat(path, true, isDirectory, size)
  }

  // ---------------------------------------------------------------------------
  // Searching a string for one character
  // ---------------------------------------------------------------------------

  /** Index of the first `c` in `s`, or -1 (`String.indexOf`). */
  function IndexOf(s: string, c: char): (i: int)
    ensures -1 <= i < |s|
    ensures 0 <= i ==> s[i] == c && c !in s[..i]
    ensures i < 0 ==> c !in s
  {
    if |s| == 0 then -1
    else if s[0] == c then 0
    else
      var j := IndexOf(s[1..], c);
      if j < 0 then -1
      else
        assert s[1..][..j] == s[1..j + 1];
        assert s[..j + 1] == [s[0]] + s[1..j + 1];
        j + 1
  }

  /** Index of the last `c` in `s`, or -1 (`String.lastIndexOf`). */
  function LastIndexOf(s: string, c: char): (i: int)
    ensures -1 <= i < |s|
    ensures 0 <= i ==> s[i] == c && c !in s[i + 1..]
    ensures i < 0 ==> c !in s
  {
    if |s| == 0 then -1
    else if s[|s| - 1] == c then |s| - 1
    else
      var j := LastIndexOf(s[..|s| - 1], c);
      assert 0 <= j ==> s[j + 1..] == s[..|s| - 1][j + 1..] + [s[|s| - 1]];
      assert j < 0 ==> s == s[..|s| - 1] + [s[|s| - 1]];
      j
  }

  // ---------------------------------------------------------------------------
  // Paths
  // ---------------------------------------------------------------------------

  /** `PathInfo.folder`, also `substringBeforeLast('/', "")`: the text before the
      last `/`, or "" when there is none. */
  function Folder(path: string): string {
    var i := LastIndexOf(path, '/');
    if i < 0 then "" else path[..i]
  }

  /** `PathInfo.basename`, also `substringAfterLast('/')`: the text after the
      last `/`, or the whole path when there is none. */
  function Basename(path: string): string {
    var i := LastIndexOf(path, '/');
    if i < 0 then path else path[i + 1..]
  }

  /** A path is its folder, a `/`, and its basename; the basename holds no `/`. */
  lemma FolderBasename(path: string)
    ensures '/' !in Basename(path)
    ensures '/' in path ==> path == Folder(path) + "/" + Basename(path)
    ensures '/' !in path ==> Folder(path) == "" && Basename(path) == path
  {
    var i := LastIndexOf(path, '/');
    if 0 <= i {
      assert path == path[..i] + [path[i]] + path[i + 1..];
    }
  }

  /** True when `s` holds no `/`. */
  predicate NoSlash(s: string) {
    '/' !in s
  }

  /** `VfsUtil.parts`: the path split at every `/`, empty segments included. */
  function Parts(s: string): (parts: seq<string>)
    ensures |parts| >= 1
    ensures forall k :: 0 <= k < |parts| ==> NoSlash(parts[k])
    decreases |s|
  {
    var i := IndexOf(s, '/');
    if i < 0 then [s]
    else
      var head := s[..i];
      var rest := Parts(s[i + 1..]);
      assert NoSlash(head);
      PrependKeeps(head, rest);
      [head] + rest
  }

  lemma PrependKeeps(head: string, rest: seq<string>)
    requires NoSlash(head)
    requires forall k :: 0 <= k < |rest| ==> NoSlash(rest[k])
    ensures forall k :: 0 <= k < |rest| + 1 ==> NoSlash(([head] + rest)[k])
  {
  }

  /** The inverse of `Parts`: segments glued back with `/`. */
  function JoinParts(parts: seq<string>): string
    requires |parts| >= 1
  {
    if |parts| == 1 then parts[0] else parts[0] + "/" + JoinParts(parts[1..])
  }

  /** Splitting loses nothing: joining the segments gives the path back. */
  lemma {:induction false} JoinPartsOfParts(s: string)
    ensures JoinParts(Parts(s)) == s
    decreases |s|
  {
    var i := IndexOf(s, '/');
    if 0 <= i {
      var tail := s[i + 1..];
      JoinPartsOfParts(tail);
      PartsStep(s, i);
      JoinStep(s[..i], Parts(tail));
      assert s == s[..i] + "/" + tail;
    }
  }

  /** One unfolding of `Parts` at the first `/`. */
  lemma PartsStep(s: string, i: int)
    requires i == IndexOf(s, '/') && 0 <= i
    ensures Parts(s) == [s[..i]] + Parts(s[i + 1..])
  {
  }

  /** One unfolding of `JoinParts` on a list with a head. */
  lemma JoinStep(head: string, rest: seq<string>)
    requires |rest| >= 1
    ensures JoinParts([head] + rest) == head + "/" + JoinParts(rest)
  {
    assert ([head] + rest)[1..] == rest;
  }

  /** True when every character of `s` is `c`. */
  predicate AllChar(s: string, c: char) {
    forall k :: 0 <= k < |s| ==> s[k] == c
  }

  /** Drops the leading run of `c`: what is left is a suffix of `s`, everything
      before it is `c`, and it does not start with `c`. */
  function TrimStart(s: string, c: char): (r: string)
    ensures |r| <= |s| && r == s[|s| - |r|..]
    ensures forall k :: 0 <= k < |s| - |r| ==> s[k] == c
    ensures r == [] || r[0] != c
  {
    if |s| > 0 && s[0] == c then TrimStart(s[1..], c) else s
  }

  /** Drops the trailing run of `c`: what is left is a prefix of `s`, everything
      after it is `c`, and it does not end with `c`. */
  function TrimEnd(s: string, c: char): (r: string)
    ensures |r| <= |s| && r == s[..|r|]
    ensures forall k :: |r| <= k < |s| ==> s[k] == c
    ensures r == [] || r[|r| - 1] != c
  {
    if |s| > 0 && s[|s| - 1] == c then TrimEnd(s[..|s| - 1], c) else s
  }

  /** `String.trim(c)`: drops `c` at both ends. */
  function Trim(s: string, c: char): string {
    TrimEnd(TrimStart(s, c), c)
  }

  /** `trim` keeps the middle of its input: what it returns is a slice `s[i..j]`
      that neither starts nor ends with `c`, and everything outside it is `c`. */
  lemma TrimShape(s: string, c: char)
    ensures var t := Trim(s, c);
      (t == [] || (t[0] != c && t[|t| - 1] != c))
      && exists i, j :: 0 <= i <= j <= |s| && t == s[i..j]
           && (forall k :: 0 <= k < i ==> s[k] == c)
           && (forall k :: j <= k < |s| ==> s[k] == c)
  {
    var u := TrimStart(s, c);
    var t := TrimEnd(u, c);
    var i := |s| - |u|;
    var j := i + |t|;
    assert t == Trim(s, c);
    assert t == s[i..j];
    assert forall k :: 0 <= k < i ==> s[k] == c;
    assert forall k :: j <= k < |s| ==> s[k] == c by {
      forall k | j <= k < |s|
        ensures s[k] == c
      {
        assert s[k] == u[k - i];
      }
    }
    if t != [] {
      assert t[0] == u[0];
    }
  }

  /** ASCII lower-casing of one character (`Char.toLowerCase` on ASCII). */
  function LowerChar(c: char): (r: char)
    ensures 'A' <= c <= 'Z' ==> 'a' <= r <= 'z' && r as int == c as int + 32
    ensures !('A' <= c <= 'Z') ==> r == c
  {
    if 'A' <= c <= 'Z' then (c as int + 32) as char else c
  }

  /** `String.toLowerCase`, character by character. */
  function Lower(s: string): (r: string)
    ensures |r| == |s|
    ensures forall k :: 0 <= k < |s| ==> r[k] == LowerChar(s[k])
  {
    seq(|s|, k requires 0 <= k < |s| => LowerChar(s[k]))
  }

  /** A lowered string holds no upper-case ASCII letter, so lowering it again
      changes nothing. */
  lemma LowerIsLower(s: string)
    ensures forall k :: 0 <= k < |s| ==> !('A' <= Lower(s)[k] <= 'Z')
    ensures Lower(Lower(s)) == Lower(s)
  {
  }

  /** Lowering changes exactly the upper-case ASCII letters: a string is its
      own lowering exactly when it holds none. */
  lemma LowerFixes(s: string)
    ensures Lower(s) == s <==> forall k :: 0 <= k < |s| ==> !('A' <= s[k] <= 'Z')
  {
    if Lower(s) == s {
      forall k | 0 <= k < |s|
        ensures !('A' <= s[k] <= 'Z')
      {
        assert Lower(s)[k] == s[k];
      }
    }
  }

  /** `s.endsWith(c)`. */
  predicate EndsWith(s: string, c: char) {
    |s| > 0 && s[|s| - 1] == c
  }

  /** `s.startsWith(c)`. */
  predicate StartsWith(s: string, c: char) {
    |s| > 0 && s[0] == c
  }
}

=== FILE: merged_vfs.dfy ===
/** `MergedVfs`: an overlay of member handles, consulted in list order. A
    path resolves to the first member where it exists; `stat` answers with
    the first member that reports existence; `list` merges the members'
    listings, each basename once, the first one seen winning. Members whose
    calls fail are passed over. */
module MergedVfs {
  import opened Common
  import opened VfsFile

  /** The handle member `i` gives for `path`, `members[i][path]`. */
  function At(members: seq<Handle>, i: nat, path: string): (h: Handle)
    requires i < |members|
    ensures h == Get(members[i], path)
  {
    Handle(members[i].vfs, Combine(members[i].path, path))
  }

  /** No member before `k` has `path`. */
  predicate NoneBefore(members: seq<Handle>, path: string, k: nat)
    requires k <= |members|
  {
    forall j :: 0 <= j < k ==> !Exists(At(members, j, path))
  }

  /** The reference for both lookups: the first member, from `k` on, whose
      handle for `path` exists, or `|members|` when there is none. */
  function FirstWith(members: seq<Handle>, path: string, k: nat): (i: nat)
    requires k <= |members| && NoneBefore(members, path, k)
    ensures k <= i <= |members| && NoneBefore(members, path, i)
    ensures i < |members| ==> Exists(At(members, i, path))
    decreases |members| - k
  {
    if k == |members| || Exists(At(members, k, path)) then k else FirstWith(members, path, k + 1)
  }

  /** The first member that has `path`, or `|members|`. */
  function First(members: seq<Handle>, path: string): (i: nat)
    ensures i <= |members| && NoneBefore(members, path, i)
    ensures i < |members| ==> Exists(At(members, i, path))
  {
    FirstWith(members, path, 0)
  }

  // ---------------------------------------------------------------------------
  // access and stat
  // ---------------------------------------------------------------------------

  /** `access(path)`: the first member handle for which `exists()` holds,
      or not-found. */
  function Access(members: seq<Handle>, path: string): (r: Result<Handle>)
    ensures r.Err? <==> First(members, path) == |members|
    ensures r.Err? ==> r == Err(NotFound(path))
    ensures r.Ok? ==> r.value == At(members, First(members, path), path)
  {
    AccessFrom(members, path, 0)
  }

  /** The `firstOrNull` scan from member `k` on. */
  function AccessFrom(members: seq<Handle>, path: string, k: nat): (r: Result<Handle>)
    requires k <= |members| && NoneBefore(members, path, k)
    ensures r.Err? <==> FirstWith(members, path, k) == |members|
    ensures r.Err? ==> r == Err(NotFound(path))
    ensures r.Ok? ==> r.value == At(members, FirstWith(members, path, k), path)
    decreases |members| - k
  {
    if k == |members| then Err(NotFound(path))
    else if Exists(At(members, k, path)) then Ok(At(members, k, path))
    else AccessFrom(members, path, k + 1)
  }

  /** What member `i`'s own `stat` of `path` reports, when it succeeds. */
  function MemberStat(members: seq<Handle>, i: nat, path: string): (s: Stat)
    requires i < |members| && Exists(At(members, i, path))
    ensures s.found
  {
    var h := At(members, i, path);
    h.vfs.stat(h.path).value
  }

  /** `stat(path)`: the first member stat that succeeds and reports
      existence, re-targeted to the merged path; a member whose `stat` fails
      counts as missing; when no member has the path, a non-existent stat
      rather than a failure. */
  function Stat(members: seq<Handle>, path: string): (r: Stat)
    ensures r.path == path
    ensures !r.found <==> First(members, path) == |members|
    ensures !r.found ==> r == NonExistent(path)
    ensures r.found ==> r == MemberStat(members, First(members, path), path).(path := path)
  {
    StatFrom(members, path, 0)
  }

  /** The loop of `stat` from member `k` on. */
  function StatFrom(members: seq<Handle>, path: string, k: nat): (r: Stat)
    requires k <= |members| && NoneBefore(members, path, k)
    ensures r.path == path
    ensures !r.found <==> FirstWith(members, path, k) == |members|
    ensures !r.found ==> r == NonExistent(path)
    ensures r.found ==> r == MemberStat(members, FirstWith(members, path, k), path).(path := path)
    decreases |members| - k
  {
    if k == |members| then NonExistent(path)
    else
      var h := At(members, k, path);
      match h.vfs.stat(h.path)
      case Ok(s) =>
        if s.found then s.(path := path) else StatFrom(members, path, k + 1)
      case Err(_) => StatFrom(members, path, k + 1)
  }

  /** `stat` and `access` consult the same member: the merged path exists
      exactly when it resolves, and then the stat is the resolved member's
      own, re-targeted. */
  lemma StatAgreesWithAccess(members: seq<Handle>, path: string)
    ensures Stat(members, path).found <==> Access(members, path).Ok?
    ensures Access(members, path).Ok? ==>
      exists i :: 0 <= i < |members| && Access(members, path).value == At(members, i, path)
                  && Exists(At(members, i, path))
                  && Stat(members, path) == MemberStat(members, i, path).(path := path)
  {
  }

  // ---------------------------------------------------------------------------
  // list
  // ---------------------------------------------------------------------------

  /** The basenames member `i`'s listing of `path` yielded, in its order: the
      handles produced before the listing ended, by failing or not; nothing
      when the `list` call itself fails. */
  function MemberNames(members: seq<Handle>, i: nat, path: string): seq<string>
    requires i < |members|
  {
    var h := At(members, i, path);
    match h.vfs.list(h.path)
    case Err(_) => []
    case Ok(l) => Basenames(l.items)
  }

  function Basenames(items: seq<string>): (r: seq<string>)
    ensures |r| == |items| && forall k :: 0 <= k < |items| ==> r[k] == Basename(items[k])
  {
    if items == [] then [] else [Basename(items[0])] + Basenames(items[1..])
  }

  /** The names of the first `n` members, one listing per member. */
  function Listings(members: seq<Handle>, path: string, n: nat): (r: seq<seq<string>>)
    requires n <= |members|
  {
    seq(n, k requires 0 <= k < n => MemberNames(members, k, path))
  }

  /** The listings one after another. */
  function Flatten(parts: seq<seq<string>>): seq<string> {
    if parts == [] then [] else Flatten(parts[..|parts| - 1]) + parts[|parts| - 1]
  }

  /** Every basename the members yield, member by member. */
  function AllNames(members: seq<Handle>, path: string, n: nat): seq<string>
    requires n <= |members|
  {
    Flatten(Listings(members, path, n))
  }

  /** The reference for the merge: each element of `s` that does not occur
      before it. */
  function FirstOccurrences(s: seq<string>): (r: seq<string>)
    ensures forall x :: x in r ==> x in s
  {
    if s == [] then []
    else
      var init := s[..|s| - 1];
      var last := s[|s| - 1];
      FirstOccurrences(init) + (if last in init then [] else [last])
  }

  /** Every element survives, once. */
  lemma {:induction false} FirstOccurrencesUnique(s: seq<string>)
    ensures forall x :: x in s ==> x in FirstOccurrences(s)
    ensures forall a, b :: 0 <= a < b < |FirstOccurrences(s)| ==> FirstOccurrences(s)[a] != FirstOccurrences(s)[b]
  {
    if s != [] {
      var init := s[..|s| - 1];
      FirstOccurrencesUnique(init);
      assert s == init + [s[|s| - 1]];
    }
  }

  /** Appending one element extends the first occurrences by it exactly when
      it is new. */
  lemma FirstOccurrencesSnoc(s: seq<string>, x: string)
    ensures FirstOccurrences(s + [x]) == FirstOccurrences(s) + (if x in s then [] else [x])
  {
    assert (s + [x])[..|s|] == s;
  }

  /** The elements of `s`, as the `LinkedHashSet` of emitted names holds
      them. */
  function Elements(s: seq<string>): set<string> {
    if s == [] then {} else Elements(s[..|s| - 1]) + {s[|s| - 1]}
  }

  lemma {:induction false} ElementsSnoc(s: seq<string>, x: string)
    ensures Elements(s + [x]) == Elements(s) + {x}
    ensures x in Elements(s) <==> x in s
  {
    assert (s + [x])[..|s|] == s;
    ElementsHas(s, x);
  }

  lemma {:induction false} ElementsHas(s: seq<string>, x: string)
    ensures x in Elements(s) <==> x in s
  {
    if s != [] {
      ElementsHas(s[..|s| - 1], x);
      assert s == s[..|s| - 1] + [s[|s| - 1]];
    }
  }

  /** `out` names `path/name` for each of `names`, in order. */
  predicate Under(out: seq<string>, path: string, names: seq<string>) {
    |out| == |names| && forall k :: 0 <= k < |out| ==> out[k] == path + "/" + names[k]
  }

  /** `list(path)` as its loops run: over the members in order, skipping a
      member whose `list` fails, and within a member over the handles it
      yields until its listing ends; a basename not yet emitted is emitted
      as `path/basename`. The merged listing itself never fails. */
  method List(members: seq<Handle>, path: string) returns (out: seq<string>)
    ensures Under(out, path, FirstOccurrences(AllNames(members, path, |members|)))
  {
    var emitted: set<string> := {};
    out := [];
    var i := 0;
    while i < |members|
      invariant 0 <= i <= |members|
      invariant emitted == Elements(AllNames(members, path, i))
      invariant Under(out, path, FirstOccurrences(AllNames(members, path, i)))
    {
      emitted, out := ListMember(members, path, i, emitted, out);
      i := i + 1;
    }
  }

  /** One turn of the outer loop of `list`: member `i`'s `list` call, and its
      names merged in, or nothing when the call fails. */
  method ListMember(members: seq<Handle>, path: string, i: nat, emitted0: set<string>, out0: seq<string>)
    returns (emitted: set<string>, out: seq<string>)
    requires i < |members|
    requires emitted0 == Elements(AllNames(members, path, i))
    requires Under(out0, path, FirstOccurrences(AllNames(members, path, i)))
    ensures emitted == Elements(AllNames(members, path, i + 1))
    ensures Under(out, path, FirstOccurrences(AllNames(members, path, i + 1)))
  {
    var h := At(members, i, path);
    var listing := h.vfs.list(h.path);
    var names := if listing.Ok? then Basenames(listing.value.items) else [];
    NamesStep(members, path, i);
    emitted, out := Merge(emitted0, out0, path, names, AllNames(members, path, i));
  }

  /** One more member adds its names, or none when its `list` fails. */
  lemma NamesStep(members: seq<Handle>, path: string, i: nat)
    requires i < |members|
    ensures var h := At(members, i, path);
      AllNames(members, path, i + 1)
      == AllNames(members, path, i)
         + (if h.vfs.list(h.path).Ok? then Basenames(h.vfs.list(h.path).value.items) else [])
  {
    var h := At(members, i, path);
    var parts := Listings(members, path, i + 1);
    assert parts[..i] == Listings(members, path, i);
    assert parts[i] == MemberNames(members, i, path);
    if h.vfs.list(h.path).Err? {
      assert AllNames(members, path, i) + [] == AllNames(members, path, i);
    }
  }

  /** The inner loop of `list`: the names of one member's listing, each
      emitted unless it was emitted before. */
  method Merge(emitted0: set<string>, out0: seq<string>, path: string, names: seq<string>, ghost seen: seq<string>)
    returns (emitted: set<string>, out: seq<string>)
    requires emitted0 == Elements(seen)
    requires Under(out0, path, FirstOccurrences(seen))
    ensures emitted == Elements(seen + names)
    ensures Under(out, path, FirstOccurrences(seen + names))
  {
    emitted, out := emitted0, out0;
    var rest := names;
    ghost var cur := seen;
    while rest != []
      invariant cur + rest == seen + names
      invariant emitted == Elements(cur)
      invariant Under(out, path, FirstOccurrences(cur))
      decreases |rest|
    {
      var b := rest[0];
      FirstOccurrencesSnoc(cur, b);
      ElementsSnoc(cur, b);
      assert cur + rest == (cur + [b]) + rest[1..];
      if b !in emitted {
        emitted := emitted + {b};
        out := out + [path + "/" + b];
      }
      cur := cur + [b];
      rest := rest[1..];
    }
    assert cur + [] == cur;
  }

  /** The merged listing names each basename once. */
  lemma ListUnique(members: seq<Handle>, path: string, out: seq<string>)
    requires Under(out, path, FirstOccurrences(AllNames(members, path, |members|)))
    ensures forall a, b :: 0 <= a < b < |out| ==> out[a] != out[b]
  {
    var first := FirstOccurrences(AllNames(members, path, |members|));
    FirstOccurrencesUnique(AllNames(members, path, |members|));
    forall a, b | 0 <= a < b < |out|
      ensures out[a] != out[b]
    {
      if out[a] == out[b] {
        SameUnder(path, first[a], first[b]);
      }
    }
  }

  /** `path/x` determines `x`. */
  lemma SameUnder(path: string, x: string, y: string)
    requires path + "/" + x == path + "/" + y
    ensures x == y
  {
    assert x == (path + "/" + x)[|path| + 1..];
    assert y == (path + "/" + y)[|path| + 1..];
  }

  /** Every basename some member yields is named in the merged listing,
      whichever members failed. */
  lemma ListComplete(members: seq<Handle>, path: string, out: seq<string>, i: nat, name: string)
    requires Under(out, path, FirstOccurrences(AllNames(members, path, |members|)))
    requires i < |members| && name in MemberNames(members, i, path)
    ensures path + "/" + name in out
  {
    var all := AllNames(members, path, |members|);
    AllNamesHas(members, path, |members|, i, name);
    FirstOccurrencesUnique(all);
    var first := FirstOccurrences(all);
    assert name in first;
    var k :| 0 <= k < |first| && first[k] == name;
    assert out[k] == path + "/" + name;
  }

  lemma AllNamesHas(members: seq<Handle>, path: string, n: nat, i: nat, name: string)
    requires i < n <= |members| && name in MemberNames(members, i, path)
    ensures name in AllNames(members, path, n)
  {
    FlattenHas(Listings(members, path, n), i, name);
  }

  /** A name in one of the listings is in their concatenation. */
  lemma {:induction false} FlattenHas(parts: seq<seq<string>>, i: nat, name: string)
    requires i < |parts| && name in parts[i]
    ensures name in Flatten(parts)
  {
    var init := parts[..|parts| - 1];
    if i < |parts| - 1 {
      assert init[i] == parts[i];
      FlattenHas(init, i, name);
    }
    InAppend(Flatten(init), parts[|parts| - 1], name);
  }

  /** An element of either side is an element of the concatenation. */
  lemma InAppend(a: seq<string>, b: seq<string>, x: string)
    ensures x in a || x in b ==> x in a + b
  {
    if x in a {
      var k :| 0 <= k < |a| && a[k] == x;
      assert (a + b)[k] == x;
    } else if x in b {
      var k :| 0 <= k < |b| && b[k] == x;
      assert (a + b)[|a| + k] == x;
    }
  }
}

=== FILE: node_vfs.dfy ===
/** The in-memory node tree: every node knows its parent, and every parent
    keeps two maps of its children, one by exact name and one by lower-cased
    name, that the parent setter keeps in step with the parent links. Paths
    are walked segment by segment with `.` and `..`; the file operations
    append to an event log instead of signalling listeners. */
module NodeVfs {
  import opened Common
  import Streams

  /** The memory stream `open` attaches to a file it creates, and the path of
      that `open` call, which names the file in the MODIFIED events. */
  datatype Content = Content(data: seq<Byte>, path: string)

  /** One `Node`: its name (fixed at creation), kind, parent, the two child
      maps and its stream (none for directories and the root). */
  datatype Node = Node(
    name: string,
    isDirectory: bool,
    parent: Option<nat>,
    children: map<string, nat>,
    childrenLC: map<string, nat>,
    stream: Option<Content>)

  /** `FileEvent` as the file operations emit it. */
  datatype Event =
    | Created(path: string)
    | Modified(path: string)
    | Deleted(path: string)
    | Renamed(src: string, dst: string)

  /** The whole file system: node `i` is `nodes[i]`; node 0 is `rootNode`. */
  datatype Fs = Fs(caseSensitive: bool, nodes: seq<Node>, events: seq<Event>)

  const Root: nat := 0

  /** A fresh `NodeVfs`: only the root directory, named "". */
  function Init(caseSensitive: bool): (fs: Fs)
    ensures Linked(fs) && Tidy(fs)
  {
    Fs(caseSensitive, [Node("", true, None, map[], map[], None)], [])
  }

  // ---------------------------------------------------------------------------
  // Invariants
  // ---------------------------------------------------------------------------

  /** Every id a node mentions names a node. */
  predicate Valid(fs: Fs) {
    |fs.nodes| >= 1
    && (forall i :: 0 <= i < |fs.nodes| && fs.nodes[i].parent.Some? ==> fs.nodes[i].parent.value < |fs.nodes|)
    && (forall i, n :: 0 <= i < |fs.nodes| && n in fs.nodes[i].children ==> fs.nodes[i].children[n] < |fs.nodes|)
    && (forall i, n :: 0 <= i < |fs.nodes| && n in fs.nodes[i].childrenLC ==> fs.nodes[i].childrenLC[n] < |fs.nodes|)
  }

  /** Every child map entry points back: the node listed under `n` in `p`'s
      maps has `p` as its parent and `n` (or its lower-case form) as its name.
      The parent setter keeps this whatever the names are. */
  predicate Linked(fs: Fs) {
    Valid(fs)
    && (forall p, n :: 0 <= p < |fs.nodes| && n in fs.nodes[p].children ==>
          fs.nodes[fs.nodes[p].children[n]].parent == Some(p)
          && fs.nodes[fs.nodes[p].children[n]].name == n)
    && (forall p, n :: 0 <= p < |fs.nodes| && n in fs.nodes[p].childrenLC ==>
          fs.nodes[fs.nodes[p].childrenLC[n]].parent == Some(p)
          && Lower(fs.nodes[fs.nodes[p].childrenLC[n]].name) == n)
  }

  /** The converse, which needs sibling names to be distinct: every node with
      a parent is listed there under its name (and, when lookups ignore case,
      under its lower-case name). */
  predicate Tidy(fs: Fs) {
    Linked(fs)
    && forall c :: 0 <= c < |fs.nodes| && fs.nodes[c].parent.Some? ==>
         Listed(fs, fs.nodes[c].parent.value, c)
  }

  /** Node `c` sits in `p`'s child map the lookups use. */
  predicate Listed(fs: Fs, p: nat, c: nat)
    requires Valid(fs) && p < |fs.nodes| && c < |fs.nodes|
  {
    var name := fs.nodes[c].name;
    if fs.caseSensitive then name in fs.nodes[p].children && fs.nodes[p].children[name] == c
    else Lower(name) in fs.nodes[p].childrenLC && fs.nodes[p].childrenLC[Lower(name)] == c
  }

  // ---------------------------------------------------------------------------
  // The parent setter
  // ---------------------------------------------------------------------------

  /** A node's maps without the entries under `name`. */
  function Unlist(nd: Node, name: string): Node {
    nd.(children := nd.children - {name}, childrenLC := nd.childrenLC - {Lower(name)})
  }

  /** A node's maps with `c` entered under `name`. */
  function Enlist(nd: Node, name: string, c: nat): Node {
    nd.(children := nd.children[name := c], childrenLC := nd.childrenLC[Lower(name) := c])
  }

  /** `parent = v`: the old parent drops whatever it lists under the node's
      name, the link is set, and the new parent lists the node under its name,
      replacing whatever was there. */
  function SetParent(fs: Fs, x: nat, v: Option<nat>): (r: Fs)
    requires Valid(fs) && x < |fs.nodes| && (v.Some? ==> v.value < |fs.nodes|)
    ensures |r.nodes| == |fs.nodes| && r.caseSensitive == fs.caseSensitive && r.events == fs.events
    ensures r.nodes[x].parent == v
    ensures forall i :: 0 <= i < |fs.nodes| ==>
      r.nodes[i].name == fs.nodes[i].name && r.nodes[i].isDirectory == fs.nodes[i].isDirectory
      && r.nodes[i].stream == fs.nodes[i].stream
      && (i != x ==> r.nodes[i].parent == fs.nodes[i].parent)
    ensures var name := fs.nodes[x].name; forall i :: 0 <= i < |fs.nodes| ==>
      if Some(i) == v then
        r.nodes[i].children == fs.nodes[i].children[name := x]
        && r.nodes[i].childrenLC == fs.nodes[i].childrenLC[Lower(name) := x]
      else if Some(i) == fs.nodes[x].parent then
        r.nodes[i].children == fs.nodes[i].children - {name}
        && r.nodes[i].childrenLC == fs.nodes[i].childrenLC - {Lower(name)}
      else
        r.nodes[i].children == fs.nodes[i].children && r.nodes[i].childrenLC == fs.nodes[i].childrenLC
  {
    fs.(nodes := seq(|fs.nodes|, i requires 0 <= i < |fs.nodes| => Reparented(fs, x, v, i)))
  }

  /** Node `i` after `x.parent = v`, the three steps of the setter applied to
      it in order. */
  function Reparented(fs: Fs, x: nat, v: Option<nat>, i: nat): (nd: Node)
    requires x < |fs.nodes| && i < |fs.nodes|
    ensures nd.name == fs.nodes[i].name && nd.isDirectory == fs.nodes[i].isDirectory
    ensures nd.stream == fs.nodes[i].stream
    ensures nd.parent == if i == x then v else fs.nodes[i].parent
    ensures var name := fs.nodes[x].name;
      if Some(i) == v then
        nd.children == fs.nodes[i].children[name := x]
        && nd.childrenLC == fs.nodes[i].childrenLC[Lower(name) := x]
      else if Some(i) == fs.nodes[x].parent then
        nd.children == fs.nodes[i].children - {name}
        && nd.childrenLC == fs.nodes[i].childrenLC - {Lower(name)}
      else
        nd.children == fs.nodes[i].children && nd.childrenLC == fs.nodes[i].childrenLC
  {
    var name := fs.nodes[x].name;
    var nd := fs.nodes[i];
    var nd := if Some(i) == fs.nodes[x].parent then Unlist(nd, name) else nd;
    var nd := if i == x then nd.(parent := v) else nd;
    if Some(i) == v then Enlist(nd, name, x) else nd
  }

  /** Moving `x` under `p` touches only `x`, `p` and the old parent: `p` lists
      `x` by its name, the old parent drops that name, and every other node is
      as it was. */
  lemma SetParentMoves(fs: Fs, x: nat, p: nat)
    requires Valid(fs) && x < |fs.nodes| && p < |fs.nodes|
    ensures var r := SetParent(fs, x, Some(p)); var name := fs.nodes[x].name;
      r.nodes[p].children == fs.nodes[p].children[name := x]
      && r.nodes[p].childrenLC == fs.nodes[p].childrenLC[Lower(name) := x]
      && (fs.nodes[x].parent.Some? && fs.nodes[x].parent != Some(p) && fs.nodes[x].parent.value < |fs.nodes| ==>
            r.nodes[fs.nodes[x].parent.value].children == fs.nodes[fs.nodes[x].parent.value].children - {name}
            && r.nodes[fs.nodes[x].parent.value].childrenLC == fs.nodes[fs.nodes[x].parent.value].childrenLC - {Lower(name)})
      && (forall i :: 0 <= i < |fs.nodes| && i != x && i != p && Some(i) != fs.nodes[x].parent ==>
            r.nodes[i] == fs.nodes[i])
  {
    var r := SetParent(fs, x, Some(p));
    forall i | 0 <= i < |fs.nodes| && i != x && i != p && Some(i) != fs.nodes[x].parent
      ensures r.nodes[i] == fs.nodes[i]
    {
      assert r.nodes[i].children == fs.nodes[i].children && r.nodes[i].childrenLC == fs.nodes[i].childrenLC;
    }
  }

  /** The setter introduces no id that does not name a node. */
  lemma SetParentValid(fs: Fs, x: nat, v: Option<nat>)
    requires Valid(fs) && x < |fs.nodes| && (v.Some? ==> v.value < |fs.nodes|)
    ensures Valid(SetParent(fs, x, v))
  {
    var r := SetParent(fs, x, v);
    forall i, n | 0 <= i < |r.nodes| && n in r.nodes[i].children
      ensures r.nodes[i].children[n] < |r.nodes|
    {
      if !(Some(i) == v && n == fs.nodes[x].name) {
        assert n in fs.nodes[i].children;
      }
    }
    forall i, n | 0 <= i < |r.nodes| && n in r.nodes[i].childrenLC
      ensures r.nodes[i].childrenLC[n] < |r.nodes|
    {
      if !(Some(i) == v && n == Lower(fs.nodes[x].name)) {
        assert n in fs.nodes[i].childrenLC;
      }
    }
  }

  /** The setter keeps every map entry pointing back at its parent. */
  lemma SetParentLinked(fs: Fs, x: nat, v: Option<nat>)
    requires Linked(fs) && x < |fs.nodes| && (v.Some? ==> v.value < |fs.nodes|)
    ensures Linked(SetParent(fs, x, v))
  {
    var r := SetParent(fs, x, v);
    var name := fs.nodes[x].name;
    forall p, n | 0 <= p < |r.nodes| && n in r.nodes[p].children
      ensures r.nodes[p].children[n] < |r.nodes|
      ensures r.nodes[r.nodes[p].children[n]].parent == Some(p)
      ensures r.nodes[r.nodes[p].children[n]].name == n
    {
      if !(Some(p) == v && n == name) {
        assert n in fs.nodes[p].children && r.nodes[p].children[n] == fs.nodes[p].children[n];
      }
    }
    forall p, n | 0 <= p < |r.nodes| && n in r.nodes[p].childrenLC
      ensures r.nodes[p].childrenLC[n] < |r.nodes|
      ensures r.nodes[r.nodes[p].childrenLC[n]].parent == Some(p)
      ensures Lower(r.nodes[r.nodes[p].childrenLC[n]].name) == n
    {
      if !(Some(p) == v && n == Lower(name)) {
        assert n in fs.nodes[p].childrenLC && r.nodes[p].childrenLC[n] == fs.nodes[p].childrenLC[n];
      }
    }
  }

  /** The key `x` is looked up by in its parent's map. */
  function Key(fs: Fs, x: nat): string
    requires x < |fs.nodes|
  {
    if fs.caseSensitive then fs.nodes[x].name else Lower(fs.nodes[x].name)
  }

  /** The map the lookups of `fs` use. */
  function Lookup(fs: Fs, p: nat): map<string, nat>
    requires p < |fs.nodes|
  {
    if fs.caseSensitive then fs.nodes[p].children else fs.nodes[p].childrenLC
  }

  /** `p` lists nothing but `x` under `x`'s key. */
  predicate Free(fs: Fs, p: nat, x: nat)
    requires p < |fs.nodes| && x < |fs.nodes|
  {
    Key(fs, x) !in Lookup(fs, p) || Lookup(fs, p)[Key(fs, x)] == x
  }

  /** Moving a node under a parent that holds no other child of the same key
      keeps every node listed under its parent. */
  lemma SetParentTidy(fs: Fs, x: nat, v: Option<nat>)
    requires Tidy(fs) && x < |fs.nodes| && (v.Some? ==> v.value < |fs.nodes| && Free(fs, v.value, x))
    ensures Tidy(SetParent(fs, x, v))
  {
    SetParentLinked(fs, x, v);
    var r := SetParent(fs, x, v);
    forall c | 0 <= c < |r.nodes| && r.nodes[c].parent.Some?
      ensures Listed(r, r.nodes[c].parent.value, c)
    {
      var p := r.nodes[c].parent.value;
      if c != x {
        assert Listed(fs, p, c);
        assert Key(fs, c) == Key(r, c);
        if Some(p) == fs.nodes[x].parent {
          assert Listed(fs, p, x);
        }
      }
    }
  }

  // ---------------------------------------------------------------------------
  // Looking up one name, the root, creating a child
  // ---------------------------------------------------------------------------

  /** `child(name)`: "" and "." are the node itself, ".." its parent, any
      other name an exact lookup, or a lower-cased one when the file system
      ignores case. */
  function Child(fs: Fs, id: nat, name: string): (r: Option<nat>)
    requires Valid(fs) && id < |fs.nodes|
    ensures r.Some? ==> r.value < |fs.nodes|
    ensures name == "" || name == "." ==> r == Some(id)
    ensures name == ".." ==> r == fs.nodes[id].parent
    ensures Linked(fs) && !Special(name) && r.Some? ==>
      fs.nodes[r.value].parent == Some(id)
      && (if fs.caseSensitive then fs.nodes[r.value].name == name
          else Lower(fs.nodes[r.value].name) == Lower(name))
  {
    if name == "" || name == "." then Some(id)
    else if name == ".." then fs.nodes[id].parent
    else
      var m := Lookup(fs, id);
      var k := if fs.caseSensitive then name else Lower(name);
      if k in m then Some(m[k]) else None
  }

  /** The names `child` answers without looking at the child maps. */
  predicate Special(name: string) {
    name == "" || name == "." || name == ".."
  }

  /** In a tidy tree, looking up a node's own name in its parent finds it:
      together with `Child`'s contract, the node is found under `p` by its name
      exactly when its parent is `p`. */
  lemma ChildFindsListed(fs: Fs, c: nat)
    requires Tidy(fs) && c < |fs.nodes| && fs.nodes[c].parent.Some? && !Special(fs.nodes[c].name)
    ensures Child(fs, fs.nodes[c].parent.value, fs.nodes[c].name) == Some(c)
  {
    assert Listed(fs, fs.nodes[c].parent.value, c);
  }

  /** `root`: up the parent links to a node without a parent. A chain longer
      than the number of nodes must run in a cycle, where the source recurses
      without end; it is reported as unresolvable. */
  function RootOf(fs: Fs, id: nat, fuel: nat): (r: Result<nat>)
    requires Valid(fs) && id < |fs.nodes|
    ensures r.Ok? ==> r.value < |fs.nodes| && fs.nodes[r.value].parent.None?
    ensures fs.nodes[id].parent.None? ==> r == Ok(id)
    ensures r.Err? ==> r.error == Unresolvable
    decreases fuel
  {
    match fs.nodes[id].parent
    case None => Ok(id)
    case Some(p) => if fuel == 0 then Err(Unresolvable) else RootOf(fs, p, fuel - 1)
  }

  /** `createChild(name, isDirectory)`: a new node, appended, whose parent is
      set to `p`. */
  function CreateChild(fs: Fs, p: nat, name: string, isDirectory: bool): (r: (Fs, nat))
    requires Valid(fs) && p < |fs.nodes|
    ensures var (fs', id) := r;
      id == |fs.nodes| && |fs'.nodes| == id + 1
      && fs'.caseSensitive == fs.caseSensitive && fs'.events == fs.events
      && fs'.nodes[id] == Node(name, isDirectory, Some(p), map[], map[], None)
      && fs'.nodes[p].children == fs.nodes[p].children[name := id]
      && fs'.nodes[p].childrenLC == fs.nodes[p].childrenLC[Lower(name) := id]
      && forall i :: 0 <= i < id && i != p ==> fs'.nodes[i] == fs.nodes[i]
    ensures Valid(r.0)
  {
    var id := |fs.nodes|;
    var fs1 := Appended(fs, Node(name, isDirectory, None, map[], map[], None));
    SetParentValid(fs1, id, Some(p));
    (SetParent(fs1, id, Some(p)), id)
  }

  /** The nodes with a detached, childless node added at the end. */
  function Appended(fs: Fs, nd: Node): (r: Fs)
    requires Valid(fs) && nd.parent.None? && nd.children == map[] && nd.childrenLC == map[]
    ensures Valid(r) && r.nodes == fs.nodes + [nd]
    ensures r.caseSensitive == fs.caseSensitive && r.events == fs.events
  {
    fs.(nodes := fs.nodes + [nd])
  }

  /** Adding a detached node keeps the tree linked and tidy. */
  lemma AppendedKeeps(fs: Fs, nd: Node)
    requires Valid(fs) && nd.parent.None? && nd.children == map[] && nd.childrenLC == map[]
    ensures Linked(fs) ==> Linked(Appended(fs, nd))
    ensures Tidy(fs) ==> Tidy(Appended(fs, nd))
  {
    var r := Appended(fs, nd);
    if Tidy(fs) {
      forall c | 0 <= c < |r.nodes| && r.nodes[c].parent.Some?
        ensures Listed(r, r.nodes[c].parent.value, c)
      {
        assert Listed(fs, r.nodes[c].parent.value, c);
      }
    }
  }

  /** A created child keeps the tree linked, and tidy when its parent had no
      child of that key. */
  lemma CreateChildKeeps(fs: Fs, p: nat, name: string, isDirectory: bool)
    requires Valid(fs) && p < |fs.nodes|
    ensures Linked(fs) ==> Linked(CreateChild(fs, p, name, isDirectory).0)
    ensures Tidy(fs) && (if fs.caseSensitive then name else Lower(name)) !in Lookup(fs, p) ==>
      Tidy(CreateChild(fs, p, name, isDirectory).0)
  {
    var nd := Node(name, isDirectory, None, map[], map[], None);
    var fs1 := Appended(fs, nd);
    AppendedKeeps(fs, nd);
    if Linked(fs) {
      SetParentLinked(fs1, |fs.nodes|, Some(p));
    }
    if Tidy(fs) && (if fs.caseSensitive then name else Lower(name)) !in Lookup(fs, p) {
      assert Lookup(fs1, p) == Lookup(fs, p);
      SetParentTidy(fs1, |fs.nodes|, Some(p));
    }
  }

  // ---------------------------------------------------------------------------
  // Walking a path
  // ---------------------------------------------------------------------------

  /** The nodes of `fs` are still there, unchanged but for their links and
      maps, and every node added since is a directory. */
  predicate Grown(fs: Fs, fs': Fs) {
    |fs.nodes| <= |fs'.nodes| && fs'.caseSensitive == fs.caseSensitive && fs'.events == fs.events
    && (forall i :: 0 <= i < |fs.nodes| ==>
          fs'.nodes[i].name == fs.nodes[i].name && fs'.nodes[i].isDirectory == fs.nodes[i].isDirectory
          && fs'.nodes[i].stream == fs.nodes[i].stream)
    && (forall i :: |fs.nodes| <= i < |fs'.nodes| ==> fs'.nodes[i].isDirectory && fs'.nodes[i].stream.None?)
  }

  /** The loop of `access` over the path's segments from `node`: a segment
      that does not resolve fails with not-found, or, when `createFolders`,
      becomes a new directory child. */
  function AccessParts(fs: Fs, node: nat, parts: seq<string>, createFolders: bool, path: string): (r: Result<(Fs, nat)>)
    requires Valid(fs) && node < |fs.nodes|
    ensures r.Ok? ==> Valid(r.value.0) && r.value.1 < |r.value.0.nodes| && Grown(fs, r.value.0)
    ensures !createFolders && r.Ok? ==> r.value.0 == fs
    ensures !createFolders && r.Err? ==> r.error == NotFound(path)
    ensures createFolders ==> r.Ok?
    decreases |parts|
  {
    if parts == [] then Ok((fs, node))
    else
      match Child(fs, node, parts[0])
      case Some(c) => AccessParts(fs, c, parts[1..], createFolders, path)
      case None =>
        if createFolders then
          var (fs', c) := CreateChild(fs, node, parts[0], true);
          AccessParts(fs', c, parts[1..], createFolders, path)
        else Err(NotFound(path))
  }

  /** `access(path, createFolders)` from node `start`: from the root when the
      path starts with `/`, then segment by segment. */
  function Access(fs: Fs, start: nat, path: string, createFolders: bool): (r: Result<(Fs, nat)>)
    requires Valid(fs) && start < |fs.nodes|
    ensures r.Ok? ==> Valid(r.value.0) && r.value.1 < |r.value.0.nodes| && Grown(fs, r.value.0)
    ensures !createFolders && r.Ok? ==> r.value.0 == fs
    ensures createFolders && r.Err? ==> r.error == Unresolvable
    ensures r.Err? ==> r.error == Unresolvable || r.error == NotFound(path)
  {
    var node :- if StartsWith(path, '/') then RootOf(fs, start, |fs.nodes|) else Ok(start);
    AccessParts(fs, node, Parts(path), createFolders, path)
  }

  /** Walking a path keeps the tree linked; it keeps it tidy too unless a
      `..` segment at a parentless node creates a child named `..` beside an
      earlier one. */
  lemma {:induction false} AccessPartsKeeps(fs: Fs, node: nat, parts: seq<string>, createFolders: bool, path: string)
    requires Valid(fs) && node < |fs.nodes|
    requires AccessParts(fs, node, parts, createFolders, path).Ok?
    ensures Linked(fs) ==> Linked(AccessParts(fs, node, parts, createFolders, path).value.0)
    ensures Tidy(fs) && (forall k :: 0 <= k < |parts| ==> parts[k] != "..") ==>
      Tidy(AccessParts(fs, node, parts, createFolders, path).value.0)
    decreases |parts|
  {
    if parts != [] {
      assert forall k :: 0 <= k < |parts| - 1 ==> parts[1..][k] == parts[k + 1];
      match Child(fs, node, parts[0])
      case Some(c) => AccessPartsKeeps(fs, c, parts[1..], createFolders, path);
      case None =>
        if createFolders {
          CreateChildKeeps(fs, node, parts[0], true);
          var (fs', c) := CreateChild(fs, node, parts[0], true);
          AccessPartsKeeps(fs', c, parts[1..], createFolders, path);
        }
    }
  }

  /** Creating folders changes nothing on a path that already resolves: the
      walk finds the same node and leaves the tree as it was. */
  lemma {:induction false} AccessPartsAgree(fs: Fs, node: nat, parts: seq<string>, path: string, found: nat)
    requires Valid(fs) && node < |fs.nodes|
    requires AccessParts(fs, node, parts, false, path) == Ok((fs, found))
    ensures AccessParts(fs, node, parts, true, path) == Ok((fs, found))
    decreases |parts|
  {
    if parts != [] {
      var c := Child(fs, node, parts[0]);
      AccessPartsAgree(fs, c.value, parts[1..], path, found);
    }
  }

  /** Both forms of `access` agree where the plain one succeeds. */
  lemma AccessAgree(fs: Fs, start: nat, path: string, found: nat)
    requires Valid(fs) && start < |fs.nodes| && Access(fs, start, path, false) == Ok((fs, found))
    ensures Access(fs, start, path, true) == Ok((fs, found))
  {
    var node := if StartsWith(path, '/') then RootOf(fs, start, |fs.nodes|).value else start;
    AccessPartsAgree(fs, node, Parts(path), path, found);
  }

  // ---------------------------------------------------------------------------
  // Node.mkdir
  // ---------------------------------------------------------------------------

  /** `Node.mkdir(name)`: false and no change when the name already resolves,
      otherwise one new directory child and true. */
  function NodeMkdir(fs: Fs, id: nat, name: string): (r: (Fs, bool))
    requires Valid(fs) && id < |fs.nodes|
    ensures Valid(r.0)
    ensures r.1 <==> Child(fs, id, name).None?
    ensures !r.1 ==> r.0 == fs
    ensures r.1 ==> (|r.0.nodes| == |fs.nodes| + 1 && r.0.events == fs.events
      && r.0.nodes[|fs.nodes|] == Node(name, true, Some(id), map[], map[], None)
      && (forall i :: 0 <= i < |fs.nodes| && i != id ==> r.0.nodes[i] == fs.nodes[i]))
    ensures r.1 && !Special(name) ==> Child(r.0, id, name) == Some(|fs.nodes|)
  {
    if Child(fs, id, name).Some? then (fs, false)
    else (CreateChild(fs, id, name, true).0, true)
  }

  // ---------------------------------------------------------------------------
  // The file operations
  // ---------------------------------------------------------------------------

  /** The tree with node `id`'s stream replaced. */
  function WithStream(fs: Fs, id: nat, c: Option<Content>): (r: Fs)
    requires Valid(fs) && id < |fs.nodes|
    ensures Valid(r) && |r.nodes| == |fs.nodes| && r.events == fs.events && r.caseSensitive == fs.caseSensitive
    ensures r.nodes[id] == fs.nodes[id].(stream := c)
    ensures forall i :: 0 <= i < |fs.nodes| && i != id ==> r.nodes[i] == fs.nodes[i]
  {
    fs.(nodes := fs.nodes[id := fs.nodes[id].(stream := c)])
  }

  /** `open(path, mode)`: the folder must resolve; a missing file is created,
      as a leaf with an empty memory stream, only when the mode allows it; a
      node without a stream (a directory) cannot be opened. The handle is the
      node's id. */
  function Open(fs: Fs, path: string, createIfNotExists: bool): (r: Result<(Fs, nat)>)
    requires Valid(fs)
    ensures r.Ok? ==> (Valid(r.value.0) && r.value.1 < |r.value.0.nodes|
      && r.value.0.nodes[r.value.1].stream.Some? && r.value.0.events == fs.events)
    ensures Access(fs, Root, Folder(path), false).Err? ==> r == Err(Access(fs, Root, Folder(path), false).error)
    ensures Access(fs, Root, Folder(path), false).Ok? ==>
      var folder := Access(fs, Root, Folder(path), false).value.1;
      match Child(fs, folder, Basename(path))
      case None =>
        if createIfNotExists then
          r.Ok? && r.value.1 == |fs.nodes| && |r.value.0.nodes| == |fs.nodes| + 1
          && r.value.0.nodes[r.value.1] == Node(Basename(path), false, Some(folder), map[], map[], Some(Content([], path)))
        else r == Err(NotFound(path))
      case Some(n) =>
        if fs.nodes[n].stream.Some? then r == Ok((fs, n)) else r == Err(NotFound(path))
  {
    var (_, folder) :- Access(fs, Root, Folder(path), false);
    var name := Basename(path);
    match Child(fs, folder, name)
    case None =>
      if createIfNotExists then
        var (fs1, id) := CreateChild(fs, folder, name, false);
        Ok((WithStream(fs1, id, Some(Content([], path))), id))
      else Err(NotFound(path))
    case Some(n) =>
      if fs.nodes[n].stream.Some? then Ok((fs, n)) else Err(NotFound(path))
  }

  /** Node `id` has the memory stream `open` gave it. */
  predicate IsFile(fs: Fs, id: nat) {
    id < |fs.nodes| && fs.nodes[id].stream.Some?
  }

  /** The stream's `write(position, bytes)`: the memory stream takes the
      bytes, and one MODIFIED event naming the opened path is emitted. */
  function Write(fs: Fs, id: nat, position: nat, bytes: seq<Byte>): (r: Fs)
    requires Valid(fs) && IsFile(fs, id)
    ensures Valid(r) && IsFile(r, id) && |r.nodes| == |fs.nodes|
    ensures r.events == fs.events + [Modified(fs.nodes[id].stream.value.path)]
    ensures ReadAt(r, id, position, |bytes|) == bytes
    ensures |Data(r, id)| == Streams.Max(|Data(fs, id)|, position + |bytes|)
    ensures forall k :: 0 <= k < |Data(r, id)| && (k < position || position + |bytes| <= k) ==>
              Data(r, id)[k] == if k < |Data(fs, id)| then Data(fs, id)[k] else 0
    ensures forall i :: 0 <= i < |fs.nodes| && i != id ==> r.nodes[i] == fs.nodes[i]
  {
    var c := fs.nodes[id].stream.value;
    var data := Streams.Overwrite(c.data, position, bytes);
    assert data[position..position + |bytes|] == bytes;
    var fs1 := WithStream(fs, id, Some(c.(data := data)));
    fs1.(events := fs1.events + [Modified(c.path)])
  }

  /** The stream's `setLength(n)`: cut or grown with zeros, and one MODIFIED
      event. */
  function SetLength(fs: Fs, id: nat, n: nat): (r: Fs)
    requires Valid(fs) && IsFile(fs, id)
    ensures Valid(r) && IsFile(r, id) && |r.nodes| == |fs.nodes|
    ensures r.events == fs.events + [Modified(fs.nodes[id].stream.value.path)]
    ensures |Data(r, id)| == n
    ensures forall k :: 0 <= k < n ==> Data(r, id)[k] == if k < |Data(fs, id)| then Data(fs, id)[k] else 0
    ensures forall i :: 0 <= i < |fs.nodes| && i != id ==> r.nodes[i] == fs.nodes[i]
  {
    var c := fs.nodes[id].stream.value;
    var data := if n <= |c.data| then c.data[..n] else c.data + Streams.Zeros(n - |c.data|);
    var fs1 := WithStream(fs, id, Some(c.(data := data)));
    fs1.(events := fs1.events + [Modified(c.path)])
  }

  /** The bytes of a file's memory stream. */
  function Data(fs: Fs, id: nat): seq<Byte>
    requires IsFile(fs, id)
  {
    fs.nodes[id].stream.value.data
  }

  /** The stream's `read(position, len)`: as many bytes as the memory stream
      holds there, and no event. */
  function ReadAt(fs: Fs, id: nat, position: nat, len: nat): (r: seq<Byte>)
    requires IsFile(fs, id)
    ensures |r| == Streams.Min(len, Streams.Max(|Data(fs, id)| - position, 0))
    ensures position <= |Data(fs, id)| ==> r == Data(fs, id)[position..position + |r|]
  {
    Streams.MemRead(Data(fs, id), position, len).value
  }

  /** `stat(path)`: never fails. A path that does not resolve is reported
      missing; a node reports its kind and its stream's length, or 0. */
  function Stat(fs: Fs, path: string): (r: Stat)
    requires Valid(fs)
    ensures r.path == path
    ensures r.found <==> Access(fs, Root, path, false).Ok?
    ensures !r.found ==> r == NonExistent(path)
    ensures r.found ==> var n := Access(fs, Root, path, false).value.1;
      r.isDirectory == fs.nodes[n].isDirectory
      && r.size == (if fs.nodes[n].stream.Some? then |fs.nodes[n].stream.value.data| else 0)
  {
    match Access(fs, Root, path, false)
    case Err(_) => NonExistent(path)
    case Ok((_, n)) =>
      Existent(path, fs.nodes[n].isDirectory,
               if fs.nodes[n].stream.Some? then |fs.nodes[n].stream.value.data| else 0)
  }

  /** `list(path)`: the path must resolve; every name in the node's exact-name
      map becomes `path/name`. */
  function List(fs: Fs, path: string): (r: Result<set<string>>)
    requires Valid(fs)
    ensures r.Err? <==> Access(fs, Root, path, false).Err?
    ensures r.Err? ==> r.error == Access(fs, Root, path, false).error
    ensures r.Ok? ==> var n := Access(fs, Root, path, false).value.1;
      forall s :: s in r.value <==> exists name :: name in fs.nodes[n].children && s == path + "/" + name
  {
    var (_, n) :- Access(fs, Root, path, false);
    Ok(set name | name in fs.nodes[n].children :: path + "/" + name)
  }

  /** `delete(path)`: the node is detached from its parent (its own children
      stay attached to it), one DELETED event is emitted, and the answer is
      true. */
  function Delete(fs: Fs, path: string): (r: Result<(Fs, bool)>)
    requires Valid(fs)
    ensures r.Err? <==> Access(fs, Root, path, false).Err?
    ensures r.Ok? ==> var n := Access(fs, Root, path, false).value.1;
      r.value.1 && Valid(r.value.0) && |r.value.0.nodes| == |fs.nodes|
      && r.value.0.events == fs.events + [Deleted(path)]
      && r.value.0.nodes[n].parent.None?
      && (forall i :: 0 <= i < |fs.nodes| && i != n ==> r.value.0.nodes[i].parent == fs.nodes[i].parent)
  {
    var (_, n) :- Access(fs, Root, path, false);
    SetParentValid(fs, n, None);
    var fs1 := SetParent(fs, n, None);
    Ok((fs1.(events := fs1.events + [Deleted(path)]), true))
  }

  /** `mkdir(path)`: the folder must resolve; `Node.mkdir` decides the
      answer, and one CREATED event is emitted either way. */
  function Mkdir(fs: Fs, path: string): (r: Result<(Fs, bool)>)
    requires Valid(fs)
    ensures r.Err? <==> Access(fs, Root, Folder(path), false).Err?
    ensures r.Ok? ==> var folder := Access(fs, Root, Folder(path), false).value.1;
      Valid(r.value.0)
      && r.value.0.events == fs.events + [Created(path)]
      && (r.value.1 <==> Child(fs, folder, Basename(path)).None?)
      && (!r.value.1 ==> r.value.0.nodes == fs.nodes)
      && (r.value.1 ==>
            (|r.value.0.nodes| == |fs.nodes| + 1
             && r.value.0.nodes[|fs.nodes|] == Node(Basename(path), true, Some(folder), map[], map[], None)))
  {
    var (_, folder) :- Access(fs, Root, Folder(path), false);
    var (fs1, out) := NodeMkdir(fs, folder, Basename(path));
    Ok((fs1.(events := fs1.events + [Created(path)]), out))
  }

  /** `rename(src, dst)`: false and nothing else when the paths are equal;
      otherwise the source node is moved under the destination's folder, one
      RENAMED event is emitted, and the answer is true. The node keeps its
      own name. */
  function Rename(fs: Fs, src: string, dst: string): (r: Result<(Fs, bool)>)
    requires Valid(fs)
    ensures src == dst ==> r == Ok((fs, false))
    ensures src != dst ==> (r.Err? <==> Access(fs, Root, src, false).Err? || Access(fs, Root, Folder(dst), false).Err?)
    ensures src != dst && r.Ok? ==>
      var n := Access(fs, Root, src, false).value.1;
      var folder := Access(fs, Root, Folder(dst), false).value.1;
      r.value.1 && Valid(r.value.0) && |r.value.0.nodes| == |fs.nodes|
      && r.value.0.events == fs.events + [Renamed(src, dst)]
      && r.value.0.nodes[n].parent == Some(folder)
      && r.value.0.nodes[n].name == fs.nodes[n].name
    ensures src != dst && r.Ok? ==>
      var n := Access(fs, Root, src, false).value.1;
      var folder := Access(fs, Root, Folder(dst), false).value.1;
      var name := fs.nodes[n].name;
      r.value.0.caseSensitive == fs.caseSensitive
      && r.value.0.nodes[folder].children == fs.nodes[folder].children[name := n]
      && r.value.0.nodes[folder].childrenLC == fs.nodes[folder].childrenLC[Lower(name) := n]
      && (fs.nodes[n].parent.Some? && fs.nodes[n].parent != Some(folder) && fs.nodes[n].parent.value < |fs.nodes| ==>
            r.value.0.nodes[fs.nodes[n].parent.value].children
              == fs.nodes[fs.nodes[n].parent.value].children - {name}
            && r.value.0.nodes[fs.nodes[n].parent.value].childrenLC
              == fs.nodes[fs.nodes[n].parent.value].childrenLC - {Lower(name)})
      && (forall i :: 0 <= i < |fs.nodes| && i != n && i != folder && Some(i) != fs.nodes[n].parent ==>
            r.value.0.nodes[i] == fs.nodes[i])
  {
    if src == dst then Ok((fs, false))
    else
      var (_, n) :- Access(fs, Root, src, false);
      var (_, folder) :- Access(fs, Root, Folder(dst), false);
      SetParentValid(fs, n, Some(folder));
      SetParentMoves(fs, n, folder);
      var fs1 := SetParent(fs, n, Some(folder));
      Ok((fs1.(events := fs1.events + [Renamed(src, dst)]), true))
  }

  /** The intended move: the node leaves its parent, takes the name `name`,
      and is listed under `p` by that name. */
  function MoveAs(fs: Fs, x: nat, p: nat, name: string): (r: Fs)
    requires Valid(fs) && x < |fs.nodes| && p < |fs.nodes|
    ensures Valid(r) && |r.nodes| == |fs.nodes| && r.events == fs.events && r.caseSensitive == fs.caseSensitive
    ensures r.nodes[x].name == name && r.nodes[x].parent == Some(p)
    ensures r.nodes[p].children == (if Some(p) == fs.nodes[x].parent
                                    then fs.nodes[p].children - {fs.nodes[x].name}
                                    else fs.nodes[p].children)[name := x]
    ensures r.nodes[p].childrenLC == (if Some(p) == fs.nodes[x].parent
                                      then fs.nodes[p].childrenLC - {Lower(fs.nodes[x].name)}
                                      else fs.nodes[p].childrenLC)[Lower(name) := x]
    ensures forall i :: 0 <= i < |fs.nodes| && i != x ==> r.nodes[i].parent == fs.nodes[i].parent
  {
    SetParentValid(fs, x, None);
    var fs1 := SetParent(fs, x, None);
    var fs2 := fs1.(nodes := fs1.nodes[x := fs1.nodes[x].(name := name)]);
    assert Valid(fs2);
    assert fs2.nodes[p].children == fs1.nodes[p].children && fs2.nodes[p].childrenLC == fs1.nodes[p].childrenLC;
    assert fs2.nodes[x].parent.None?;
    SetParentValid(fs2, x, Some(p));
    SetParent(fs2, x, Some(p))
  }

  /** `rename` as its result promises: like `Rename`, except that the node
      takes the destination's basename as its new name. */
  function RenameCorrected(fs: Fs, src: string, dst: string): (r: Result<(Fs, bool)>)
    requires Valid(fs)
    ensures src == dst ==> r == Ok((fs, false))
    ensures src != dst ==> (r.Err? <==> Access(fs, Root, src, false).Err? || Access(fs, Root, Folder(dst), false).Err?)
    ensures src != dst && r.Ok? ==>
      var n := Access(fs, Root, src, false).value.1;
      var folder := Access(fs, Root, Folder(dst), false).value.1;
      r.value.1 && Valid(r.value.0) && |r.value.0.nodes| == |fs.nodes|
      && r.value.0.events == fs.events + [Renamed(src, dst)]
      && r.value.0.nodes[n].parent == Some(folder)
      && r.value.0.nodes[n].name == Basename(dst)
  {
    if src == dst then Ok((fs, false))
    else
      var (_, n) :- Access(fs, Root, src, false);
      var (_, folder) :- Access(fs, Root, Folder(dst), false);
      var fs1 := MoveAs(fs, n, folder, Basename(dst));
      Ok((fs1.(events := fs1.events + [Renamed(src, dst)]), true))
  }

  // ---------------------------------------------------------------------------
  // What the operations keep
  // ---------------------------------------------------------------------------

  /** Replacing a stream touches no link. */
  lemma WithStreamKeeps(fs: Fs, id: nat, c: Option<Content>)
    requires Valid(fs) && id < |fs.nodes|
    ensures Linked(fs) ==> Linked(WithStream(fs, id, c))
    ensures Tidy(fs) ==> Tidy(WithStream(fs, id, c))
  {
    var r := WithStream(fs, id, c);
    assert forall i :: 0 <= i < |fs.nodes| ==>
      r.nodes[i].name == fs.nodes[i].name && r.nodes[i].parent == fs.nodes[i].parent
      && r.nodes[i].children == fs.nodes[i].children && r.nodes[i].childrenLC == fs.nodes[i].childrenLC;
    if Tidy(fs) {
      forall c | 0 <= c < |r.nodes| && r.nodes[c].parent.Some?
        ensures Listed(r, r.nodes[c].parent.value, c)
      {
        assert Listed(fs, fs.nodes[c].parent.value, c);
      }
    }
  }

  /** The invariants read only the nodes and the case rule, not the log. */
  lemma SameTree(fs: Fs, fs': Fs)
    requires fs'.nodes == fs.nodes && fs'.caseSensitive == fs.caseSensitive
    ensures Linked(fs) ==> Linked(fs')
    ensures Tidy(fs) ==> Tidy(fs')
  {
    if Tidy(fs) {
      forall c | 0 <= c < |fs'.nodes| && fs'.nodes[c].parent.Some?
        ensures Listed(fs', fs'.nodes[c].parent.value, c)
      {
        assert Listed(fs, fs.nodes[c].parent.value, c);
      }
    }
  }

  /** Writing to a stream keeps the tree as it was. */
  lemma WriteKeeps(fs: Fs, id: nat, position: nat, bytes: seq<Byte>)
    requires Valid(fs) && IsFile(fs, id)
    ensures Linked(fs) ==> Linked(Write(fs, id, position, bytes))
    ensures Tidy(fs) ==> Tidy(Write(fs, id, position, bytes))
  {
    var c := fs.nodes[id].stream.value;
    var fs1 := WithStream(fs, id, Some(c.(data := Streams.Overwrite(c.data, position, bytes))));
    WithStreamKeeps(fs, id, Some(c.(data := Streams.Overwrite(c.data, position, bytes))));
    SameTree(fs1, Write(fs, id, position, bytes));
  }

  /** Resizing a stream keeps the tree as it was. */
  lemma SetLengthKeeps(fs: Fs, id: nat, n: nat)
    requires Valid(fs) && IsFile(fs, id)
    ensures Linked(fs) ==> Linked(SetLength(fs, id, n))
    ensures Tidy(fs) ==> Tidy(SetLength(fs, id, n))
  {
    var c := fs.nodes[id].stream.value;
    var data := if n <= |c.data| then c.data[..n] else c.data + Streams.Zeros(n - |c.data|);
    var fs1 := WithStream(fs, id, Some(c.(data := data)));
    WithStreamKeeps(fs, id, Some(c.(data := data)));
    SameTree(fs1, SetLength(fs, id, n));
  }

  /** `Node.mkdir` keeps the tree linked, and tidy unless the name is `..`
      (which, at a node without a parent, makes a child `..` beside any
      earlier one). */
  lemma NodeMkdirKeeps(fs: Fs, id: nat, name: string)
    requires Valid(fs) && id < |fs.nodes|
    ensures Linked(fs) ==> Linked(NodeMkdir(fs, id, name).0)
    ensures Tidy(fs) && name != ".." ==> Tidy(NodeMkdir(fs, id, name).0)
  {
    CreateChildKeeps(fs, id, name, true);
  }

  /** `open` keeps the tree linked, and tidy unless the basename is `..`. */
  lemma OpenKeeps(fs: Fs, path: string, createIfNotExists: bool)
    requires Valid(fs) && Open(fs, path, createIfNotExists).Ok?
    ensures Linked(fs) ==> Linked(Open(fs, path, createIfNotExists).value.0)
    ensures Tidy(fs) && Basename(path) != ".." ==> Tidy(Open(fs, path, createIfNotExists).value.0)
  {
    var (_, folder) := Access(fs, Root, Folder(path), false).value;
    var name := Basename(path);
    if Child(fs, folder, name).None? && createIfNotExists {
      CreateChildKeeps(fs, folder, name, false);
      var (fs1, id) := CreateChild(fs, folder, name, false);
      WithStreamKeeps(fs1, id, Some(Content([], path)));
    }
  }

  /** `delete` keeps the tree linked and tidy. */
  lemma DeleteKeeps(fs: Fs, path: string)
    requires Valid(fs) && Delete(fs, path).Ok?
    ensures Linked(fs) ==> Linked(Delete(fs, path).value.0)
    ensures Tidy(fs) ==> Tidy(Delete(fs, path).value.0)
  {
    var n := Access(fs, Root, path, false).value.1;
    var fs1 := SetParent(fs, n, None);
    if Linked(fs) {
      SetParentLinked(fs, n, None);
    }
    if Tidy(fs) {
      SetParentTidy(fs, n, None);
    }
    SameTree(fs1, Delete(fs, path).value.0);
  }

  /** `mkdir` keeps the tree linked, and tidy unless the basename is `..`. */
  lemma MkdirKeeps(fs: Fs, path: string)
    requires Valid(fs) && Mkdir(fs, path).Ok?
    ensures Linked(fs) ==> Linked(Mkdir(fs, path).value.0)
    ensures Tidy(fs) && Basename(path) != ".." ==> Tidy(Mkdir(fs, path).value.0)
  {
    var folder := Access(fs, Root, Folder(path), false).value.1;
    NodeMkdirKeeps(fs, folder, Basename(path));
  }

  /** `rename` of node `n` into `folder` keeps the tree linked; when the
      folder lists nothing else under the node's key it keeps it tidy too. */
  lemma RenameKeeps(fs: Fs, src: string, dst: string, n: nat, folder: nat)
    requires Valid(fs) && src != dst
    requires Access(fs, Root, src, false) == Ok((fs, n)) && Access(fs, Root, Folder(dst), false) == Ok((fs, folder))
    ensures Rename(fs, src, dst).Ok?
    ensures Linked(fs) ==> Linked(Rename(fs, src, dst).value.0)
    ensures Tidy(fs) && Free(fs, folder, n) ==> Tidy(Rename(fs, src, dst).value.0)
  {
    var fs1 := SetParent(fs, n, Some(folder));
    assert Rename(fs, src, dst) == Ok((fs1.(events := fs1.events + [Renamed(src, dst)]), true));
    if Linked(fs) {
      SetParentLinked(fs, n, Some(folder));
    }
    if Tidy(fs) && Free(fs, folder, n) {
      SetParentTidy(fs, n, Some(folder));
    }
    SameTree(fs1, Rename(fs, src, dst).value.0);
  }

  // ---------------------------------------------------------------------------
  // Renaming at the root: the name the node keeps
  // ---------------------------------------------------------------------------

  /** `/a`, for a segment `a`, splits into the root's "" and `a`; its folder
      is "" and its basename `a`. */
  lemma RootPath(a: string)
    requires NoSlash(a)
    ensures StartsWith("/" + a, '/')
    ensures Parts("/" + a) == ["", a]
    ensures Folder("/" + a) == "" && Basename("/" + a) == a
  {
    var s := "/" + a;
    assert IndexOf(s, '/') == 0;
    PartsStep(s, 0);
    assert s[1..] == a;
    assert IndexOf(a, '/') < 0;
    FolderBasename(s);
  }

  /** At a parentless root, `/a` resolves to the root's child `a`, and the
      folder of `/a` to the root itself. */
  lemma RootPathAccess(fs: Fs, a: string)
    requires Valid(fs) && fs.nodes[Root].parent.None? && NoSlash(a) && !Special(a)
    ensures Access(fs, Root, Folder("/" + a), false) == Ok((fs, Root))
    ensures Child(fs, Root, a).Some? ==> Access(fs, Root, "/" + a, false) == Ok((fs, Child(fs, Root, a).value))
    ensures Child(fs, Root, a).None? ==> Access(fs, Root, "/" + a, false).Err?
  {
    RootPath(a);
    assert Parts("") == [""];
    assert AccessParts(fs, Root, [""], false, "") == AccessParts(fs, Root, [], false, "");
    assert ["", a][1..] == [a];
    assert AccessParts(fs, Root, ["", a], false, "/" + a) == AccessParts(fs, Root, [a], false, "/" + a);
    match Child(fs, Root, a)
    case Some(c) =>
      assert [a][1..] == [];
      assert AccessParts(fs, Root, [a], false, "/" + a) == AccessParts(fs, c, [], false, "/" + a);
    case None =>
  }

  /** The shared setting: a tidy tree whose root has no parent, a file `/a`
      and no `/b`, two ordinary names with different keys. */
  predicate RootRename(fs: Fs, a: string, b: string) {
    Tidy(fs) && fs.nodes[Root].parent.None?
    && NoSlash(a) && NoSlash(b) && !Special(a) && !Special(b)
    && Child(fs, Root, a).Some? && Child(fs, Root, b).None?
  }

  /** At a parentless root, `/a` exists exactly when the root has a child
      `a`. */
  lemma StatAtRoot(fs: Fs, a: string)
    requires Valid(fs) && fs.nodes[Root].parent.None? && NoSlash(a) && !Special(a)
    ensures Stat(fs, "/" + a).found <==> Child(fs, Root, a).Some?
  {
    RootPathAccess(fs, a);
  }

  /** What `rename("/a", "/b")` does in that setting: it moves the node `a`
      names from the root to the root. */
  lemma RootRenameIs(fs: Fs, a: string, b: string)
    requires RootRename(fs, a, b)
    ensures "/" + a != "/" + b
    ensures var n := Child(fs, Root, a).value;
      Rename(fs, "/" + a, "/" + b)
      == Ok((SetParent(fs, n, Some(Root)).(events := fs.events + [Renamed("/" + a, "/" + b)]), true))
    ensures var n := Child(fs, Root, a).value;
      RenameCorrected(fs, "/" + a, "/" + b)
      == Ok((MoveAs(fs, n, Root, b).(events := fs.events + [Renamed("/" + a, "/" + b)]), true))
  {
    assert a != b;
    assert ("/" + a)[1..] == a;
    RootPathAccess(fs, a);
    RootPathAccess(fs, b);
    RootPath(b);
  }

  /** The root's lookups after the node `a` names is moved from the root to
      the root, keeping its name: `a` still finds it and `b` finds nothing. */
  lemma KeptNameLookups(fs: Fs, a: string, b: string, n: nat)
    requires RootRename(fs, a, b) && Child(fs, Root, a) == Some(n)
    ensures var r := SetParent(fs, n, Some(Root));
      Valid(r) && r.nodes[Root].parent.None? && Child(r, Root, b).None? && Child(r, Root, a) == Some(n)
  {
    SetParentValid(fs, n, Some(Root));
    var r := SetParent(fs, n, Some(Root));
    var name := fs.nodes[n].name;
    assert r.nodes[Root].children == (fs.nodes[Root].children - {name})[name := n];
    assert r.nodes[Root].childrenLC == (fs.nodes[Root].childrenLC - {Lower(name)})[Lower(name) := n];
  }

  /** The root's lookups after the corrected move of the node `a` names to
      the name `b`: `b` finds it and `a` finds nothing. */
  lemma MovedNameLookups(fs: Fs, a: string, b: string, n: nat)
    requires RootRename(fs, a, b) && Child(fs, Root, a) == Some(n)
    ensures var r := MoveAs(fs, n, Root, b);
      r.nodes[Root].parent.None? && Child(r, Root, b) == Some(n) && Child(r, Root, a).None?
  {
    var r := MoveAs(fs, n, Root, b);
    var name := fs.nodes[n].name;
    assert r.nodes[Root].children == (fs.nodes[Root].children - {name})[b := n];
    assert r.nodes[Root].childrenLC == (fs.nodes[Root].childrenLC - {Lower(name)})[Lower(b) := n];
  }

  /** As written, `rename("/a", "/b")` answers true, yet afterwards `/b`
      does not exist and `/a` still does: the node moved into the folder it
      was already in under the name it already had. */
  lemma AsWrittenRenameKeepsName(fs: Fs, a: string, b: string)
    requires RootRename(fs, a, b)
    ensures "/" + a != "/" + b
    ensures Rename(fs, "/" + a, "/" + b).Ok? && Rename(fs, "/" + a, "/" + b).value.1
    ensures !Stat(Rename(fs, "/" + a, "/" + b).value.0, "/" + b).found
    ensures Stat(Rename(fs, "/" + a, "/" + b).value.0, "/" + a).found
  {
    var n := Child(fs, Root, a).value;
    RootRenameIs(fs, a, b);
    KeptNameLookups(fs, a, b, n);
    var r := SetParent(fs, n, Some(Root)).(events := fs.events + [Renamed("/" + a, "/" + b)]);
    StatAtRoot(r, a);
    StatAtRoot(r, b);
  }

  /** The corrected rename moves the name: afterwards `/b` exists and `/a`
      does not. */
  lemma RenameCorrectedMovesName(fs: Fs, a: string, b: string)
    requires RootRename(fs, a, b)
    ensures "/" + a != "/" + b
    ensures RenameCorrected(fs, "/" + a, "/" + b).Ok? && RenameCorrected(fs, "/" + a, "/" + b).value.1
    ensures Stat(RenameCorrected(fs, "/" + a, "/" + b).value.0, "/" + b).found
    ensures !Stat(RenameCorrected(fs, "/" + a, "/" + b).value.0, "/" + a).found
  {
    var n := Child(fs, Root, a).value;
    RootRenameIs(fs, a, b);
    MovedNameLookups(fs, a, b, n);
    var r := MoveAs(fs, n, Root, b).(events := fs.events + [Renamed("/" + a, "/" + b)]);
    StatAtRoot(r, a);
    StatAtRoot(r, b);
  }
}

=== FILE: streams.dfy ===
/** The `AsyncStream` layer: a bare stream that supports nothing, the in-memory
    base stream that slices share, `SliceAsyncStream` views over it, and the
    extension functions built on them (`slice`, `readSlice`, `getAvailable`,
    `readBytes`, `readStringz`, `readExact`).

    Every operation takes the shared base and the stream handle it acts through,
    and returns both as they are afterwards: a slice saves, moves and restores
    the base's cursor, so the model can say exactly what a slice leaves behind. */
module Streams {
  import opened Common

  /** The base resource: a memory buffer and the base's own cursor. */
  datatype Base = Base(data: seq<Byte>, pos: int)

  /** What one call of a collaborator stream's `read` answers. */
  datatype Reply = Chunk(bytes: seq<Byte>) | EndOfStream

  /** A stream handle.
      - `Bare`: an `AsyncStream` that overrides nothing.
      - `Direct`: the memory base itself.
      - `Slice`: a `SliceAsyncStream`; `onMemory` is false when the stream it
        was cut from cannot report or move a position.
      - `Feed`: a stream implemented elsewhere (an inflater, an HTTP body) that
        supports only `read`, answering successive calls from `replies`. */
  datatype Stream =
    | Bare
    | Direct
    | Slice(onMemory: bool, baseOffset: int, baseLength: int, position: int)
    | Feed(replies: seq<Reply>)

  /** The outcome of one `read`: the base and the handle afterwards, the bytes
      copied into the caller's buffer, and the returned count (-1 at the end of
      a collaborator stream). */
  datatype ReadOut = ReadOut(base: Base, stream: Stream, bytes: seq<Byte>, count: int)

  function Min(a: int, b: int): int {
    if a <= b then a else b
  }

  function Max(a: int, b: int): int {
    if a >= b then a else b
  }

  /** `n` zero bytes: what a fresh `ByteArray(n)` holds. */
  function Zeros(n: nat): (r: seq<Byte>)
    ensures |r| == n && forall k :: 0 <= k < n ==> r[k] == 0
  {
    seq(n, _ => 0)
  }

  // ---------------------------------------------------------------------------
  // The memory base
  // ---------------------------------------------------------------------------

  /** A read of `n` bytes at `p` from the memory buffer: as many as remain, none
      past the end, and an index error for a negative position or count. */
  function MemRead(data: seq<Byte>, p: int, n: int): (r: Result<seq<Byte>>)
    ensures r.Ok? <==> 0 <= p && 0 <= n
    ensures r.Ok? ==> |r.value| <= n && p + |r.value| <= Max(p, |data|)
    ensures r.Ok? && p <= |data| ==> r.value == data[p..p + |r.value|]
    ensures r.Ok? && p + n <= |data| ==> |r.value| == n
    ensures r.Ok? && |r.value| < n ==> p + |r.value| >= |data|
  {
    if p < 0 || n < 0 then Err(OutOfBounds)
    else if p >= |data| then Ok([])
    else Ok(data[p..Min(p + n, |data|)])
  }

  /** The buffer after writing `bytes` at `p`: grown with zeros when `p` is past
      the end, overwritten in place otherwise. */
  function Overwrite(data: seq<Byte>, p: nat, bytes: seq<Byte>): (r: seq<Byte>)
    ensures |r| == Max(|data|, p + |bytes|)
    ensures forall k :: 0 <= k < |bytes| ==> r[p + k] == bytes[k]
    ensures forall k :: 0 <= k < |r| && (k < p || p + |bytes| <= k) ==>
              r[k] == (if k < |data| then data[k] else 0)
  {
    var padded := if p > |data| then data + Zeros(p - |data|) else data;
    var tail := if p + |bytes| < |padded| then padded[p + |bytes|..] else [];
    padded[..p] + bytes + tail
  }

  // ---------------------------------------------------------------------------
  // The six stream operations
  // ---------------------------------------------------------------------------

  /** `read(buffer, offset, len)`. A slice moves the base to
      `baseOffset + position`, reads, advances by the count and puts the base's
      cursor back, without looking at `baseLength`. */
  function Read(b: Base, s: Stream, len: int): (r: Result<ReadOut>)
    ensures (s.Bare? || (s.Slice? && !s.onMemory)) ==> r == Err(Unsupported)
    ensures r.Ok? ==> r.value.count <= len && |r.value.bytes| == Max(r.value.count, 0)
    ensures r.Ok? ==> r.value.base.data == b.data
    ensures r.Ok? && s.Slice? ==>
              r.value.base == b
              && r.value.stream == s.(position := s.position + r.value.count)
    ensures r.Ok? && s.Direct? ==>
              r.value.base.pos == b.pos + r.value.count && r.value.stream == Direct
    ensures r.Ok? && s.Direct? && b.pos <= |b.data| ==>
              0 <= b.pos && 0 <= r.value.count && b.pos + r.value.count <= |b.data|
              && r.value.bytes == b.data[b.pos..b.pos + r.value.count]
    ensures r.Ok? && s.Slice? && s.baseOffset + s.position <= |b.data| ==>
              0 <= s.baseOffset + s.position && 0 <= r.value.count
              && s.baseOffset + s.position + r.value.count <= |b.data|
              && r.value.bytes == b.data[s.baseOffset + s.position..s.baseOffset + s.position + r.value.count]
    ensures r.Ok? && (s.Direct? || s.Slice?) && r.value.count < len ==>
              (if s.Direct? then b.pos else s.baseOffset + s.position) + r.value.count >= |b.data|
  {
    match s
    case Bare => Err(Unsupported)
    case Direct =>
      var bytes :- MemRead(b.data, b.pos, len);
      Ok(ReadOut(b.(pos := b.pos + |bytes|), Direct, bytes, |bytes|))
    case Slice(onMemory, offset, _, position) =>
      if !onMemory then Err(Unsupported)
      else
        var saved := b.pos;
        var bytes :- MemRead(b.data, offset + position, len);
        Ok(ReadOut(b.(pos := saved), s.(position := position + |bytes|), bytes, |bytes|))
    case Feed(replies) =>
      if len < 0 then Err(OutOfBounds)
      else if replies == [] then Ok(ReadOut(b, Feed([]), [], 0))
      else match replies[0]
        case EndOfStream => Ok(ReadOut(b, Feed(replies[1..]), [], -1))
        case Chunk(c) =>
          var bytes := c[..Min(len, |c|)];
          Ok(ReadOut(b, Feed(replies[1..]), bytes, |bytes|))
  }

  /** `write(buffer, offset, len)` of `bytes` (`len == |bytes|`). A slice writes
      at `baseOffset + position`, advances by `len` and restores the base's
      cursor. */
  function Write(b: Base, s: Stream, bytes: seq<Byte>): (r: Result<(Base, Stream)>)
    ensures (s.Bare? || s.Feed? || (s.Slice? && !s.onMemory)) ==> r == Err(Unsupported)
    ensures r.Ok? <==> (s.Direct? && 0 <= b.pos) || (s.Slice? && s.onMemory && 0 <= s.baseOffset + s.position)
    ensures r.Ok? && s.Slice? ==>
              0 <= s.baseOffset + s.position && s.baseOffset + s.position + |bytes| <= |r.value.0.data|
    ensures r.Ok? && s.Direct? ==> 0 <= b.pos && b.pos + |bytes| <= |r.value.0.data|
    ensures r.Ok? && s.Slice? ==>
              r.value.0.pos == b.pos && r.value.1 == s.(position := s.position + |bytes|)
              && r.value.0.data[s.baseOffset + s.position..s.baseOffset + s.position + |bytes|] == bytes
    ensures r.Ok? && s.Direct? ==>
              r.value.0.pos == b.pos + |bytes| && r.value.1 == Direct
              && r.value.0.data[b.pos..b.pos + |bytes|] == bytes
  {
    match s
    case Bare => Err(Unsupported)
    case Feed(_) => Err(Unsupported)
    case Direct =>
      if b.pos < 0 then Err(OutOfBounds)
      else
        var data := Overwrite(b.data, b.pos, bytes);
        assert data[b.pos..b.pos + |bytes|] == bytes;
        Ok((Base(data, b.pos + |bytes|), Direct))
    case Slice(onMemory, offset, _, position) =>
      if !onMemory then Err(Unsupported)
      else if offset + position < 0 then Err(OutOfBounds)
      else
        var data := Overwrite(b.data, offset + position, bytes);
        assert data[offset + position..offset + position + |bytes|] == bytes;
        Ok((Base(data, b.pos), s.(position := position + |bytes|)))
  }

  /** `getPosition()`. */
  function GetPosition(b: Base, s: Stream): (r: Result<int>)
    ensures r.Ok? <==> s.Direct? || s.Slice?
    ensures s.Direct? ==> r == Ok(b.pos)
    ensures s.Slice? ==> r == Ok(s.position)
  {
    match s
    case Direct => Ok(b.pos)
    case Slice(_, _, _, position) => Ok(position)
    case _ => Err(Unsupported)
  }

  /** `setPosition(value)`: any value is accepted, no range check. */
  function SetPosition(b: Base, s: Stream, value: int): (r: Result<(Base, Stream)>)
    ensures r.Ok? <==> s.Direct? || s.Slice?
    ensures r.Ok? ==> GetPosition(r.value.0, r.value.1) == Ok(value)
    ensures r.Ok? ==> r.value.0.data == b.data
    ensures r.Ok? && s.Slice? ==> r.value.0 == b
  {
    match s
    case Direct => Ok((b.(pos := value), Direct))
    case Slice(_, _, _, _) => Ok((b, s.(position := value)))
    case _ => Err(Unsupported)
  }

  /** `getLength()`: a slice reports the length it was cut with. */
  function GetLength(b: Base, s: Stream): (r: Result<int>)
    ensures r.Ok? <==> s.Direct? || s.Slice?
    ensures s.Direct? ==> r == Ok(|b.data|)
    ensures s.Slice? ==> r == Ok(s.baseLength)
  {
    match s
    case Direct => Ok(|b.data|)
    case Slice(_, _, length, _) => Ok(length)
    case _ => Err(Unsupported)
  }

  /** `setLength(value)`: only the memory base overrides it; a slice does not. */
  function SetLength(b: Base, s: Stream, value: int): (r: Result<Base>)
    ensures r.Ok? <==> s.Direct? && 0 <= value
    ensures r.Ok? ==> |r.value.data| == value && r.value.pos == b.pos
    ensures r.Ok? ==> forall k :: 0 <= k < value ==>
              r.value.data[k] == (if k < |b.data| then b.data[k] else 0)
  {
    if !s.Direct? then Err(Unsupported)
    else if value < 0 then Err(OutOfBounds)
    else if value <= |b.data| then Ok(b.(data := b.data[..value]))
    else Ok(b.(data := b.data + Zeros(value - |b.data|)))
  }

  /** Every operation a stream does not override fails as unsupported, so a
      bare stream supports none of the six. */
  lemma BareSupportsNothing(b: Base, len: int, value: int, bytes: seq<Byte>)
    ensures Read(b, Bare, len) == Err(Unsupported)
    ensures Write(b, Bare, bytes) == Err(Unsupported)
    ensures GetPosition(b, Bare) == Err(Unsupported)
    ensures SetPosition(b, Bare, value) == Err(Unsupported)
    ensures GetLength(b, Bare) == Err(Unsupported)
    ensures SetLength(b, Bare, value) == Err(Unsupported)
    ensures SetLength(b, Slice(true, 0, 0, 0), value) == Err(Unsupported)
  {
  }

  // ---------------------------------------------------------------------------
  // Slicing
  // ---------------------------------------------------------------------------

  /** `AsyncStream.slice(position, length)`: a slice of a slice is one slice of
      the original base with the offsets added. No bounds are checked. */
  function SliceOf(s: Stream, position: int, length: int): (r: Stream)
    ensures r.Slice? && r.position == 0 && r.baseLength == length
  {
    match s
    case Slice(onMemory, offset, _, _) => Slice(onMemory, offset + position, length, 0)
    case Direct => Slice(true, position, length, 0)
    case _ => Slice(false, position, length, 0)
  }

  /** Nested slicing collapses: cutting `[b, b + l2)` out of a slice cut at `a`
      is the same handle as one slice cut at `a + b`, and so reads the same base
      bytes. */
  lemma SliceOfSlice(s: Stream, a: int, l1: int, c: int, l2: int)
    ensures SliceOf(SliceOf(s, a, l1), c, l2) == SliceOf(s, a + c, l2)
    ensures SliceOf(SliceOf(s, a, l1), c, l2).baseOffset
              == (if s.Slice? then s.baseOffset else 0) + a + c
  {
  }

  /** `getAvailable()`: length minus position (negative past the end). */
  function GetAvailable(b: Base, s: Stream): (r: Result<int>)
    ensures r.Ok? <==> s.Direct? || s.Slice?
    ensures s.Direct? ==> r == Ok(|b.data| - b.pos)
    ensures s.Slice? ==> r == Ok(s.baseLength - s.position)
  {
    match GetLength(b, s)
    case Err(e) => Err(e)
    case Ok(length) => Ok(length - GetPosition(b, s).value)
  }

  /** `slice()`: the rest of the stream from its position, as a new slice. */
  function SliceRest(b: Base, s: Stream): (r: Result<Stream>)
    ensures r.Ok? <==> s.Direct? || s.Slice?
    ensures r.Ok? ==> r.value.Slice? && r.value.position == 0
    ensures s.Direct? ==> r.Ok? && r.value.baseLength == |b.data| - b.pos
    ensures s.Slice? ==> r.Ok? && r.value.baseLength == s.baseLength - s.position
    ensures r.Ok? ==>
              r.value.baseOffset == (if s.Slice? then s.baseOffset + s.position else b.pos)
  {
    match GetAvailable(b, s)
    case Err(e) => Err(e)
    case Ok(available) => Ok(SliceOf(s, GetPosition(b, s).value, available))
  }

  /** `setLength` and `getLength` agree: the memory base reports the length it
      was given. */
  lemma LengthAfterSetLength(b: Base, value: int)
    requires 0 <= value
    ensures SetLength(b, Direct, value).Ok?
    ensures GetLength(SetLength(b, Direct, value).value, Direct) == Ok(value)
    ensures GetAvailable(SetLength(b, Direct, value).value, Direct) == Ok(value - b.pos)
  {
  }

  /** A fresh slice reports the length it was cut with, and all of it is
      available. */
  lemma FreshSliceAvailable(b: Base, s: Stream, position: int, length: int)
    ensures GetLength(b, SliceOf(s, position, length)) == Ok(length)
    ensures GetAvailable(b, SliceOf(s, position, length)) == Ok(length)
  {
  }

  /** Reading through a slice or the memory base uses up exactly the bytes it
      delivers: `available` drops by the count. */
  lemma ReadConsumesAvailable(b: Base, s: Stream, len: int)
    requires s.Direct? || s.Slice?
    requires Read(b, s, len).Ok?
    ensures var out := Read(b, s, len).value;
      GetAvailable(out.base, out.stream) == Ok(GetAvailable(b, s).value - out.count)
  {
  }

  /** On the memory base within its data, `available` counts exactly the bytes
      a read of everything delivers. */
  lemma AvailableIsRest(b: Base)
    requires 0 <= b.pos <= |b.data|
    ensures var n := GetAvailable(b, Direct).value;
      Read(b, Direct, n).Ok? && Read(b, Direct, n).value.bytes == b.data[b.pos..]
  {
  }

  /** `slice()` reads what the stream itself would read from its position:
      the same bytes for every count, without moving the base. */
  lemma SliceRestReadsSame(b: Base, s: Stream, n: int)
    requires s.Direct? || (s.Slice? && s.onMemory)
    ensures var rest := SliceRest(b, s).value;
      Read(b, rest, n).Ok? == Read(b, s, n).Ok?
      && (Read(b, s, n).Ok? ==>
            Read(b, rest, n).value.bytes == Read(b, s, n).value.bytes && Read(b, rest, n).value.base == b)
  {
  }

  /** `readSlice(length)`: a slice starting at the current position, and the
      position moved `length` further. */
  function ReadSlice(b: Base, s: Stream, length: int): (r: Result<(Base, Stream, Stream)>)
    ensures r.Ok? <==> s.Direct? || s.Slice?
    ensures r.Ok? ==>
              var start := GetPosition(b, s).value;
              r.value.2 == SliceOf(s, start, length)
              && GetPosition(r.value.0, r.value.1) == Ok(start + length)
              && r.value.0.data == b.data
  {
    match GetPosition(b, s)
    case Err(e) => Err(e)
    case Ok(start) =>
      var moved := SetPosition(b, s, start + length).value;
      Ok((moved.0, moved.1, SliceOf(s, start, length)))
  }

  // ---------------------------------------------------------------------------
  // Reading helpers
  // ---------------------------------------------------------------------------

  /** `readBytes(len)`: one `read` into a fresh `ByteArray(len)`, so a short read
      leaves zeros at the end. */
  function ReadBytes(b: Base, s: Stream, len: int): (r: Result<(Base, Stream, seq<Byte>)>)
    ensures r.Ok? ==> 0 <= len && |r.value.2| == len
    ensures r.Ok? ==> Read(b, s, len).Ok? && var got := Read(b, s, len).value;
              r.value.2[..|got.bytes|] == got.bytes
              && AllZero(r.value.2[|got.bytes|..])
  {
    if len < 0 then Err(OutOfBounds)
    else
      var got :- Read(b, s, len);
      var padded := got.bytes + Zeros(len - |got.bytes|);
      assert padded[..|got.bytes|] == got.bytes;
      assert padded[|got.bytes|..] == Zeros(len - |got.bytes|);
      Ok((got.base, got.stream, padded))
  }

  predicate AllZero(s: seq<Byte>) {
    forall k :: 0 <= k < |s| ==> s[k] == 0
  }

  /** Index of the first zero byte, or -1. */
  function IndexOfZero(s: seq<Byte>): (i: int)
    ensures -1 <= i < |s|
    ensures 0 <= i ==> s[i] == 0 && 0 !in s[..i]
    ensures i < 0 ==> 0 !in s
  {
    if |s| == 0 then -1
    else if s[0] == 0 then 0
    else
      var j := IndexOfZero(s[1..]);
      if j < 0 then -1
      else
        assert s[..j + 1] == [s[0]] + s[1..][..j];
        j + 1
  }

  /** `readStringz(len)` before charset decoding: the bytes of `readBytes(len)`
      up to the first zero, or all `len` of them when there is none. */
  function ReadStringz(b: Base, s: Stream, len: int): (r: Result<(Base, Stream, seq<Byte>)>)
    ensures r.Ok? <==> ReadBytes(b, s, len).Ok?
    ensures r.Ok? ==> var raw := ReadBytes(b, s, len).value.2;
              |r.value.2| <= len && 0 !in r.value.2
              && (|r.value.2| == len || raw[|r.value.2|] == 0)
              && r.value.2 == raw[..|r.value.2|]
  {
    var got :- ReadBytes(b, s, len);
    var index := IndexOfZero(got.2);
    Ok((got.0, got.1, got.2[..if index < 0 then len else index]))
  }

  // ---------------------------------------------------------------------------
  // readExact
  // ---------------------------------------------------------------------------

  /** The `readExact` loop as a recursion: keep reading `remaining` bytes until
      none remain; a negative count ends the loop quietly, a zero count fails
      with "Not enough data". */
  function ReadExactFrom(b: Base, s: Stream, remaining: int, acc: seq<Byte>): Result<ReadOut>
    decreases remaining
  {
    if remaining <= 0 then Ok(ReadOut(b, s, acc, |acc|))
    else
      match Read(b, s, remaining)
      case Err(e) => Err(e)
      case Ok(got) =>
        if got.count < 0 then Ok(ReadOut(got.base, got.stream, acc, |acc|))
        else if got.count == 0 then Err(NotEnoughData)
        else ReadExactFrom(got.base, got.stream, remaining - got.count, acc + got.bytes)
  }

  /** The bytes `readExact` fills, never more than asked for, and all of them
      unless the stream signalled its end. */
  lemma {:induction false} ReadExactFromBounds(b: Base, s: Stream, remaining: int, acc: seq<Byte>)
    ensures var r := ReadExactFrom(b, s, remaining, acc);
      r.Ok? ==> |acc| <= |r.value.bytes| <= |acc| + Max(remaining, 0)
                && r.value.bytes[..|acc|] == acc
    decreases remaining
  {
    if remaining > 0 {
      var got := Read(b, s, remaining);
      if got.Ok? && got.value.count > 0 {
        var acc' := acc + got.value.bytes;
        ReadExactFromBounds(got.value.base, got.value.stream, remaining - got.value.count, acc');
        var r := ReadExactFrom(b, s, remaining, acc);
        assert r == ReadExactFrom(got.value.base, got.value.stream, remaining - got.value.count, acc');
        if r.Ok? {
          PrefixOfPrefix(r.value.bytes, acc, got.value.bytes);
        }
      }
    }
  }

  lemma PrefixOfPrefix(x: seq<Byte>, a: seq<Byte>, b: seq<Byte>)
    requires |a + b| <= |x| && x[..|a + b|] == a + b
    ensures x[..|a|] == a
  {
    assert x[..|a|] == x[..|a + b|][..|a|];
  }

  /** `readExact(buffer, offset, len)`, returning the bytes it placed in
      `buffer[offset..]`. */
  method ReadExact(b: Base, s: Stream, len: int) returns (r: Result<ReadOut>)
    ensures r == ReadExactFrom(b, s, len, [])
    ensures r.Ok? ==> |r.value.bytes| <= Max(len, 0)
  {
    var base, stream := b, s;
    var remaining := len;
    var out: seq<Byte> := [];
    while remaining > 0
      invariant ReadExactFrom(base, stream, remaining, out) == ReadExactFrom(b, s, len, [])
      decreases remaining
    {
      var got := Read(base, stream, remaining);
      if got.Err? {
        return Err(got.error);
      }
      var read := got.value.count;
      if read < 0 {
        base, stream := got.value.base, got.value.stream;
        break;
      }
      if read == 0 {
        return Err(NotEnoughData);
      }
      out := out + got.value.bytes;
      remaining := remaining - read;
      base, stream := got.value.base, got.value.stream;
    }
    r := Ok(ReadOut(base, stream, out, |out|));
    ReadExactFromBounds(b, s, len, []);
  }

  /** On the memory base, `readExact` of `len` bytes succeeds exactly when that
      many bytes remain, and then yields them and moves past them; otherwise it
      fails with "Not enough data". */
  lemma {:induction false} ReadExactDirect(data: seq<Byte>, pos: nat, remaining: int, acc: seq<Byte>)
    requires pos <= |data|
    ensures var r := ReadExactFrom(Base(data, pos), Direct, remaining, acc);
      if pos + Max(remaining, 0) <= |data| then
        r == Ok(ReadOut(Base(data, pos + Max(remaining, 0)), Direct,
                        acc + data[pos..pos + Max(remaining, 0)], |acc| + Max(remaining, 0)))
      else r == Err(NotEnoughData)
    decreases remaining
  {
    if remaining > 0 {
      var got := Read(Base(data, pos), Direct, remaining).value;
      assert got.bytes == data[pos..pos + got.count];
      assert got.count == Min(remaining, |data| - pos);
      if got.count > 0 {
        ReadExactDirect(data, pos + got.count, remaining - got.count, acc + got.bytes);
        if pos + remaining <= |data| {
          assert data[pos..pos + remaining]
              == data[pos..pos + got.count] + data[pos + got.count..pos + remaining];
        }
      }
    } else {
      assert acc + data[pos..pos] == acc;
    }
  }

  /** The same through a slice of the memory base: `readExact` of `len` bytes
      succeeds exactly when that many base bytes follow the slice's cursor,
      advances the slice past them and leaves the base as it was. */
  lemma {:induction false} ReadExactSlice(b: Base, offset: int, length: int, position: int,
                                          remaining: int, acc: seq<Byte>)
    requires 0 <= offset + position <= |b.data|
    ensures var r := ReadExactFrom(b, Slice(true, offset, length, position), remaining, acc);
      var n := Max(remaining, 0);
      if offset + position + n <= |b.data| then
        r == Ok(ReadOut(b, Slice(true, offset, length, position + n),
                        acc + b.data[offset + position..offset + position + n], |acc| + n))
      else r == Err(NotEnoughData)
    decreases remaining
  {
    var start := offset + position;
    if remaining > 0 {
      var got := Read(b, Slice(true, offset, length, position), remaining).value;
      assert got.bytes == b.data[start..start + got.count];
      assert got.count == Min(remaining, |b.data| - start);
      if got.count > 0 {
        ReadExactSlice(b, offset, length, position + got.count, remaining - got.count, acc + got.bytes);
        if start + remaining <= |b.data| {
          assert b.data[start..start + remaining]
              == b.data[start..start + got.count] + b.data[start + got.count..start + remaining];
        }
      }
    } else {
      assert acc + b.data[start..start] == acc;
    }
  }

  /** The case of `ReadExactSlice` where the bytes are all there, from an
      empty accumulator. */
  lemma ExactSliceRead(b: Base, offset: int, length: int, position: int, n: nat)
    requires 0 <= offset + position && offset + position + n <= |b.data|
    ensures ReadExactFrom(b, Slice(true, offset, length, position), n, [])
         == Ok(ReadOut(b, Slice(true, offset, length, position + n),
                       b.data[offset + position..offset + position + n], n))
  {
    ReadExactSlice(b, offset, length, position, n, []);
    assert [] + b.data[offset + position..offset + position + n] == b.data[offset + position..offset + position + n];
  }

  /** Reading `b` back through the slice `[0, k)` and then the slice
      `[k, |b|)` of a buffer it was written to reconstructs `b`. */
  lemma WriteThenSlicesReadBack(initial: seq<Byte>, bytes: seq<Byte>, k: nat)
    requires k <= |bytes|
    ensures var w := Write(Base(initial, 0), Direct, bytes);
      w.Ok? &&
      var first := Read(w.value.0, SliceOf(Direct, 0, k), k);
      var second := Read(w.value.0, SliceOf(Direct, k, |bytes| - k), |bytes| - k);
      first.Ok? && second.Ok? && first.value.bytes + second.value.bytes == bytes
      && first.value.base == w.value.0 && second.value.base == w.value.0
  {
    var data := Overwrite(initial, 0, bytes);
    var written := Base(data, |bytes|);
    assert Write(Base(initial, 0), Direct, bytes) == Ok((written, Direct));
    assert data[0..|bytes|] == bytes;
    SliceReadsBase(written, 0, k, k);
    SliceReadsBase(written, k, |bytes| - k, |bytes| - k);
    assert data[0..k] + data[k..|bytes|] == data[0..|bytes|];
  }

  /** A fresh slice over the memory base reads the `n` base bytes at its offset
      when they exist, and leaves the base untouched. */
  lemma SliceReadsBase(b: Base, offset: nat, length: int, n: nat)
    requires offset + n <= |b.data|
    ensures Read(b, Slice(true, offset, length, 0), n)
         == Ok(ReadOut(b, Slice(true, offset, length, n), b.data[offset..offset + n], n))
  {
    assert MemRead(b.data, offset, n) == Ok(b.data[offset..offset + n]);
  }
}

=== FILE: url_vfs.dfy ===
/** `UrlVfs`: a read-mostly file system over HTTP. The HTTP client is an
    abstract oracle from requests to responses; the model fixes which requests
    the backend sends and how it reads the responses: the URL it builds, the
    byte range of a read, the stat of a `HEAD` probe and the headers of a
    `PUT`. */
module UrlVfs {
  import opened Common

  // ---------------------------------------------------------------------------
  // Kotlin `Long` and its decimal text
  // ---------------------------------------------------------------------------

  const LongMin: int := -0x8000_0000_0000_0000
  const LongMax: int := 0x7FFF_FFFF_FFFF_FFFF

  predicate IsLong(x: int) {
    LongMin <= x <= LongMax
  }

  /** Two's-complement wrap-around of a Kotlin `Long` sum. */
  function WrapLong(x: int): (r: int)
    ensures IsLong(r)
    ensures IsLong(x) ==> r == x
  {
    (x - LongMin) % 0x1_0000_0000_0000_0000 + LongMin
  }

  predicate IsDigit(c: char) {
    '0' <= c <= '9'
  }

  predicate AllDigits(s: string) {
    forall k :: 0 <= k < |s| ==> IsDigit(s[k])
  }

  function DigitChar(d: nat): (c: char)
    requires d < 10
    ensures IsDigit(c)
  {
    ('0' as int + d) as char
  }

  /** The digits of `n` in base ten, most significant first, no leading zero. */
  function Digits(n: nat): (s: string)
    ensures |s| > 0 && AllDigits(s)
    ensures |s| > 1 ==> s[0] != '0'
  {
    if n < 10 then [DigitChar(n)] else Digits(n / 10) + [DigitChar(n % 10)]
  }

  /** The number a non-empty run of decimal digits denotes. */
  function DigitsValue(s: string): nat
    requires AllDigits(s)
  {
    if s == [] then 0 else 10 * DigitsValue(s[..|s| - 1]) + (s[|s| - 1] as int - '0' as int)
  }

  /** Kotlin's string template of a `Long`: a minus sign for a negative value,
      then the digits of its magnitude. */
  function Decimal(x: int): (s: string)
    ensures |s| > 0
    ensures x >= 0 <==> s[0] != '-'
    ensures x >= 0 ==> AllDigits(s)
  {
    if x < 0 then "-" + Digits(-x) else Digits(x)
  }

  /** `String.toLongOrNull()` on ASCII text: an optional `+` or `-`, then at
      least one decimal digit and nothing else, and a value that fits a `Long`. */
  function ParseLong(s: string): (r: Option<int>)
    ensures r.Some? ==> IsLong(r.value)
    ensures s == [] ==> r == None
  {
    if s == [] then None
    else
      var negative := s[0] == '-';
      var body := if s[0] == '-' || s[0] == '+' then s[1..] else s;
      if body == [] || !AllDigits(body) then None
      else
        var m: int := DigitsValue(body);
        var v := if negative then -m else m;
        if IsLong(v) then Some(v) else None
  }

  lemma {:induction false} DigitsRoundTrip(n: nat)
    ensures DigitsValue(Digits(n)) == n
  {
    if n >= 10 {
      DigitsRoundTrip(n / 10);
      var s := Digits(n);
      assert s[..|s| - 1] == Digits(n / 10);
    }
  }

  /** The decimal text of every `Long` parses back to it. */
  lemma DecimalRoundTrip(x: int)
    requires IsLong(x)
    ensures ParseLong(Decimal(x)) == Some(x)
  {
    if x < 0 {
      DigitsRoundTrip(-x);
      assert Decimal(x)[1..] == Digits(-x);
    } else {
      DigitsRoundTrip(x);
    }
  }

  // ---------------------------------------------------------------------------
  // URLs
  // ---------------------------------------------------------------------------

  /** Neither starts nor ends with `/`. */
  predicate Edgeless(s: string) {
    s == [] || (s[0] != '/' && s[|s| - 1] != '/')
  }

  /** `getFullUrl(path)`: the base URL and the path, each trimmed of `/` at
      both ends, joined by a single `/`. */
  function FullUrl(base: string, path: string): (r: string)
    ensures exists k :: 0 <= k < |r| && r[k] == '/' && Edgeless(r[..k]) && Edgeless(r[k + 1..])
    ensures r == Trim(base, '/') + "/" + Trim(path, '/')
  {
    var b := Trim(base, '/');
    var p := Trim(path, '/');
    TrimEdgeless(base);
    TrimEdgeless(path);
    JoinShape(b, p);
    b + "/" + p
  }

  /** What `trim('/')` keeps has no `/` at either end. */
  lemma TrimEdgeless(s: string)
    ensures Edgeless(Trim(s, '/'))
  {
    TrimShape(s, '/');
  }

  /** Two edgeless parts joined by `/` split back at that `/`. */
  lemma JoinShape(b: string, p: string)
    requires Edgeless(b) && Edgeless(p)
    ensures var r := b + "/" + p;
      exists k :: 0 <= k < |r| && r[k] == '/' && Edgeless(r[..k]) && Edgeless(r[k + 1..])
  {
    var r := b + "/" + p;
    assert r[..|b|] == b && r[|b| + 1..] == p;
    assert r[|b|] == '/';
  }

  /** A base and a path that neither start nor end with `/` are joined as they
      are, with one `/` between them. */
  lemma FullUrlOfEdgeless(base: string, path: string)
    requires Edgeless(base) && Edgeless(path)
    ensures FullUrl(base, path) == base + "/" + path
  {
    assert TrimStart(base, '/') == base && TrimEnd(base, '/') == base;
    assert TrimStart(path, '/') == path && TrimEnd(path, '/') == path;
  }

  /** Appending a `/` does not change what `trim('/')` keeps. */
  lemma {:induction false} TrimStartOfSlashed(s: string)
    ensures TrimStart(s + "/", '/') == if AllChar(s, '/') then [] else TrimStart(s, '/') + "/"
  {
    if s != [] {
      assert (s + "/")[1..] == s[1..] + "/";
      TrimStartOfSlashed(s[1..]);
    }
  }

  /** `trim('/')` ignores one more `/` at the start. */
  lemma TrimIgnoresLeadingSlash(s: string)
    ensures Trim("/" + s, '/') == Trim(s, '/')
  {
    assert ("/" + s)[1..] == s;
  }

  /** `trim('/')` ignores one more `/` at the end. */
  lemma TrimIgnoresTrailingSlash(s: string)
    ensures Trim(s + "/", '/') == Trim(s, '/')
  {
    TrimStartOfSlashed(s);
    var u := TrimStart(s, '/');
    if !AllChar(s, '/') {
      assert (u + "/")[..|u|] == u;
    } else {
      assert u == [];
    }
  }

  /** The URL is the same however many `/` the base ends with and the path
      starts or ends with. */
  lemma FullUrlIgnoresEdgeSlashes(base: string, path: string)
    ensures FullUrl(base + "/", path) == FullUrl(base, path)
    ensures FullUrl(base, "/" + path) == FullUrl(base, path)
    ensures FullUrl(base, path + "/") == FullUrl(base, path)
  {
    TrimIgnoresTrailingSlash(base);
    TrimIgnoresLeadingSlash(path);
    TrimIgnoresTrailingSlash(path);
  }

  // ---------------------------------------------------------------------------
  // The HTTP oracle
  // ---------------------------------------------------------------------------

  datatype Method = Get | Head | Put

  datatype Request = Request(verb: Method, url: string, headers: map<string, string>, body: seq<Byte>)

  datatype Response = Response(success: bool, headers: map<string, string>, content: seq<Byte>)

  /** The HTTP client: the response it returns for each request. */
  type Server = Request -> Response

  /** A plain request with no headers and no body. */
  function Plain(verb: Method, url: string): Request {
    Request(verb, url, map[], [])
  }

  // ---------------------------------------------------------------------------
  // stat, open and read
  // ---------------------------------------------------------------------------

  /** The `content-length` header as a `Long`, or 0 when absent or unreadable. */
  function ContentLength(headers: map<string, string>): (n: int)
    ensures IsLong(n)
    ensures "content-length" !in headers ==> n == 0
  {
    if "content-length" in headers && ParseLong(headers["content-length"]).Some? then
      ParseLong(headers["content-length"]).value
    else 0
  }

  /** `stat(path)`: a `HEAD` probe of the full URL. A successful response
      reports an existing directory whose size is the `content-length` header
      (0 when absent or unparseable); any other reports a missing entry. */
  function Stat(server: Server, base: string, path: string): (r: Common.Stat)
    ensures var res := server(Plain(Head, FullUrl(base, path)));
      r.path == path
      && (r.found <==> res.success)
      && (!r.found ==> r == NonExistent(path))
      && (r.found ==> r.isDirectory && r.size == ContentLength(res.headers))
  {
    var res := server(Plain(Head, FullUrl(base, path)));
    if res.success then Existent(path, true, ContentLength(res.headers)) else NonExistent(path)
  }

  /** A server that announces a length in `content-length` has it reported as
      the stat size, for every length a `Long` holds. */
  lemma StatReportsAnnouncedLength(server: Server, base: string, path: string, n: int)
    requires IsLong(n)
    requires var res := server(Plain(Head, FullUrl(base, path)));
      res.success && "content-length" in res.headers && res.headers["content-length"] == Decimal(n)
    ensures Stat(server, base, path) == Existent(path, true, n)
  {
    DecimalRoundTrip(n);
  }

  /** The stream `open` returns: the URL it reads from and the length the
      stat reported. */
  datatype UrlStream = UrlStream(url: string, length: int)

  /** `open(path, mode)`: stats the path first and fails with not-found for a
      missing resource; otherwise a stream whose length is the stat size. */
  function Open(server: Server, base: string, path: string): (r: Result<UrlStream>)
    ensures var st := Stat(server, base, path);
      (r.Ok? <==> st.found)
      && (r.Err? ==> r.error == NotFound(FullUrl(base, path)))
      && (r.Ok? ==> r.value.url == FullUrl(base, path) && r.value.length == st.size)
  {
    var st := Stat(server, base, path);
    if !st.found then Err(NotFound(FullUrl(base, path)))
    else Ok(UrlStream(FullUrl(base, path), st.size))
  }

  /** The `range` header value of a read of `len` bytes at `position`: the
      first and the last byte position, inclusive, in `Long` arithmetic. */
  function RangeHeader(position: int, len: int): string {
    "bytes=" + Decimal(position) + "-" + Decimal(WrapLong(position + len - 1))
  }

  /** A byte-range-spec of section 2.1 of RFC 7233 read back: `bytes=`, the
      first byte position, `-`, the last byte position. */
  function ParseRange(h: string): Option<(int, int)> {
    if |h| < 6 || h[..6] != "bytes=" then None
    else
      var rest := h[6..];
      var i := IndexOf(rest, '-');
      if i < 0 then None
      else
        match (ParseLong(rest[..i]), ParseLong(rest[i + 1..]))
        case (Some(first), Some(last)) => Some((first, last))
        case _ => None
  }

  /** What one `read` of the stream does: the request it sends, if any, and the
      bytes it delivers. */
  datatype ReadOutcome = ReadOutcome(request: Option<Request>, data: seq<Byte>)

  /** `read(position, buffer, offset, len)` of an opened stream: a zero-length
      read sends nothing and delivers nothing; otherwise one `GET` of the
      stream's URL with a `range` header, delivering at most `len` bytes of the
      response body. */
  function Read(server: Server, s: UrlStream, position: int, len: int): (r: ReadOutcome)
    requires IsLong(position) && 0 <= len
    ensures len == 0 <==> r.request.None?
    ensures len == 0 ==> r.data == []
    ensures r.request.Some? ==>
      var q := r.request.value;
      q.verb == Get && q.url == s.url && q.headers.Keys == {"range"} && q.body == []
      && var body := server(q).content;
         |r.data| <= len && |r.data| <= |body| && r.data == body[..|r.data|]
         && (|r.data| < len ==> r.data == body)
  {
    if len == 0 then ReadOutcome(None, [])
    else
      var q := Request(Get, s.url, map["range" := RangeHeader(position, len)], []);
      var body := server(q).content;
      var n := if |body| < len then |body| else len;
      ReadOutcome(Some(q), body[..n])
  }

  /** A read of `len > 0` bytes at a non-negative position asks for exactly
      those bytes: the range names `position` as its first and
      `position + len - 1` as its last byte, `len` bytes inclusive. */
  lemma ReadRequestsItsRange(server: Server, s: UrlStream, position: int, len: int)
    requires 0 <= position && 0 < len && position + len - 1 <= LongMax
    ensures var r := Read(server, s, position, len);
      r.request.Some?
      && ParseRange(r.request.value.headers["range"]) == Some((position, position + len - 1))
  {
    var first := Decimal(position);
    var last := Decimal(position + len - 1);
    var h := RangeHeader(position, len);
    assert h == "bytes=" + first + "-" + last;
    var rest := h[6..];
    assert rest == first + "-" + last;
    SeparatorAfterDigits(first, last);
    DecimalRoundTrip(position);
    DecimalRoundTrip(position + len - 1);
  }

  /** In `first-last` with `first` all digits, the separator is the first `-`. */
  lemma SeparatorAfterDigits(first: string, last: string)
    requires AllDigits(first)
    ensures var t := first + "-" + last;
      IndexOf(t, '-') == |first| && t[..|first|] == first && t[|first| + 1..] == last
  {
    var t := first + "-" + last;
    assert t[..|first|] == first;
    assert t[|first| + 1..] == last;
    assert forall k :: 0 <= k < |first| ==> t[k] != '-';
  }

  /** The range a read asks for spans exactly the bytes it wants. */
  lemma RangeSpansLen(position: int, len: int)
    requires 0 <= position && 0 < len && position + len - 1 <= LongMax
    ensures var pr := ParseRange(RangeHeader(position, len));
      pr.Some? && pr.value.1 - pr.value.0 + 1 == len
  {
    var server: Server := q => Response(true, map[], []);
    ReadRequestsItsRange(server, UrlStream("", 0), position, len);
  }

  // ---------------------------------------------------------------------------
  // put
  // ---------------------------------------------------------------------------

  const ApplicationJson: string := "application/json"

  /** The headers of `put`: the caller's headers (none when absent) in which
      `content-length` is the content's length and `content-type` the given
      MIME type or `application/json`; every other header is kept. */
  function PutHeaders(headers: Option<map<string, string>>, length: int, mime: Option<string>): (h: map<string, string>)
    ensures h.Keys == (if headers.Some? then headers.value.Keys else {}) + {"content-length", "content-type"}
    ensures h["content-length"] == Decimal(length)
    ensures h["content-type"] == (if mime.Some? then mime.value else ApplicationJson)
    ensures headers.Some? ==>
      forall k :: k in headers.value && k != "content-length" && k != "content-type" ==> h[k] == headers.value[k]
  {
    var given := if headers.Some? then headers.value else map[];
    var mimeType := if mime.Some? then mime.value else ApplicationJson;
    given["content-length" := Decimal(length)]["content-type" := mimeType]
  }

  /** `put(path, content, attributes)`: one `PUT` of the full URL carrying the
      content and the headers above for the content's length. */
  function PutRequest(base: string, path: string, content: seq<Byte>,
                      headers: Option<map<string, string>>, mime: Option<string>): (r: Request)
    ensures r.verb == Put && r.url == FullUrl(base, path) && r.body == content
    ensures r.headers == PutHeaders(headers, |content|, mime)
  {
    Request(Put, FullUrl(base, path), PutHeaders(headers, |content|, mime), content)
  }

  /** The receiver of a `PUT` reads the content's length back from its
      `content-length` header. */
  lemma PutAnnouncesLength(base: string, path: string, content: seq<Byte>,
                           headers: Option<map<string, string>>, mime: Option<string>)
    requires |content| <= LongMax
    ensures ParseLong(PutRequest(base, path, content, headers, mime).headers["content-length"]) == Some(|content|)
  {
    DecimalRoundTrip(|content|);
  }
}

=== FILE: vfs_file.dfy ===
/** `VfsFile`: a handle is a backend and a path, and every operation on it is
    the backend's answer for that path. The backend is abstract: its `stat`
    and `list` are oracles that may fail. What the recursive operations
    walk is a finite snapshot of a directory as the backend reports it, and
    what they do to the target is a trace of actions, which a simple store
    gives a meaning to. */
module VfsFile {
  import opened Common

  /** What one `list(path)` call yields: the paths of the handles it produced
      before it ended, and whether it ended by failing. */
  datatype Listing = Listing(items: seq<string>, broken: bool)

  /** A backend as the handle layer sees it: `stat` and `list` per path,
      either of which may fail. */
  datatype Backend = Backend(stat: string -> Result<Stat>, list: string -> Result<Listing>)

  /** `VfsFile(vfs, path)`. */
  datatype Handle = Handle(vfs: Backend, path: string)

  // ---------------------------------------------------------------------------
  // Paths of handles
  // ---------------------------------------------------------------------------

  /** `VfsUtil.combine`, as the join of two paths with one `/`; an empty side
      adds nothing. (`VfsUtil` is not part of this model, and neither is the
      normalisation of `.` and `..` it may do.) */
  function Combine(base: string, path: string): string {
    if base == "" then path else if path == "" then base else base + "/" + path
  }

  /** `LastIndexOf` is the one position holding `c` with no `c` after it. */
  lemma LastIndexOfIs(s: string, c: char, k: nat)
    requires k < |s| && s[k] == c && c !in s[k + 1..]
    ensures LastIndexOf(s, c) == k
  {
    var i := LastIndexOf(s, c);
  }

  /** Joining keeps the basename of a non-empty path; its folder is the
      base, followed by the path's own folder when the path has one. */
  lemma CombineSplits(base: string, path: string)
    requires base != "" && path != ""
    ensures Basename(Combine(base, path)) == Basename(path)
    ensures '/' in path ==> Folder(Combine(base, path)) == base + "/" + Folder(path)
    ensures '/' !in path ==> Folder(Combine(base, path)) == base
  {
    if 0 <= LastIndexOf(path, '/') {
      CombineSplitsAtSlash(base, path, LastIndexOf(path, '/'));
    } else {
      CombineSplitsPlain(base, path);
    }
  }

  lemma CombineSplitsAtSlash(base: string, path: string, j: nat)
    requires j == LastIndexOf(path, '/')
    ensures Basename(base + "/" + path) == Basename(path)
    ensures Folder(base + "/" + path) == base + "/" + Folder(path)
  {
    JoinBasename(base, path, j);
    JoinFolder(base, path, j);
  }

  lemma JoinBasename(base: string, path: string, j: nat)
    requires j == LastIndexOf(path, '/')
    ensures Basename(base + "/" + path) == path[j + 1..]
  {
    var s := base + "/" + path;
    JoinLastSlash(base, path, j);
    assert s[|base| + 1 + j + 1..] == path[j + 1..];
  }

  lemma JoinFolder(base: string, path: string, j: nat)
    requires j == LastIndexOf(path, '/')
    ensures Folder(base + "/" + path) == base + "/" + path[..j]
  {
    var s := base + "/" + path;
    JoinLastSlash(base, path, j);
    assert s[..|base| + 1 + j] == base + "/" + path[..j];
  }

  /** The last `/` of a join is the last `/` of its right side, when it has one. */
  lemma JoinLastSlash(base: string, path: string, j: nat)
    requires j == LastIndexOf(path, '/')
    ensures LastIndexOf(base + "/" + path, '/') == |base| + 1 + j
  {
    var s := base + "/" + path;
    var k := |base| + 1 + j;
    assert s[k] == path[j];
    assert s[k + 1..] == path[j + 1..];
    LastIndexOfIs(s, '/', k);
  }

  lemma CombineSplitsPlain(base: string, path: string)
    requires LastIndexOf(path, '/') < 0
    ensures Basename(base + "/" + path) == Basename(path)
    ensures Folder(base + "/" + path) == base
  {
    var s := base + "/" + path;
    assert s[|base|] == '/';
    assert s[|base| + 1..] == path;
    LastIndexOfIs(s, '/', |base|);
    assert s[..|base|] == base;
  }

  /** `file[path]`: a handle on the same backend at the combined path; no
      I/O. Seen through the path helpers, the new handle's basename is the
      one `path` names and its folder is `path`'s folder under this handle. */
  function Get(h: Handle, path: string): (r: Handle)
    ensures r.vfs == h.vfs
    ensures h.path == "" ==> r.path == path
    ensures path != "" ==> Basename(r.path) == Basename(path)
    ensures h.path != "" && '/' in path ==> Folder(r.path) == h.path + "/" + Folder(path)
    ensures h.path != "" && path != "" && '/' !in path ==> Folder(r.path) == h.path
  {
    if h.path != "" && path != "" then
      CombineSplits(h.path, path);
      Handle(h.vfs, Combine(h.path, path))
    else Handle(h.vfs, Combine(h.path, path))
  }

  /** `exists()`: false when `stat` fails, otherwise what `stat` says. */
  function Exists(h: Handle): (r: bool)
    ensures r <==> h.vfs.stat(h.path).Ok? && h.vfs.stat(h.path).value.found
    ensures h.vfs.stat(h.path).Err? ==> !r
  {
    match h.vfs.stat(h.path)
    case Err(_) => false
    case Ok(s) => s.found
  }

  // ---------------------------------------------------------------------------
  // What is done to a target
  // ---------------------------------------------------------------------------

  /** One step of a copy: the `notify` callback, a `mkdir`, or a `put` of
      some bytes. */
  datatype Action =
    | Notify(src: string, dst: string)
    | MakeDir(path: string)
    | Put(path: string, data: seq<Byte>)

  /** A target backend reduced to what a copy can observe: the directories
      made and the bytes last put at each path. */
  datatype Store = Store(dirs: set<string>, files: map<string, seq<Byte>>)

  /** The store after a trace of actions. */
  function Apply(st: Store, actions: seq<Action>): (r: Store)
    ensures forall p :: p in st.dirs ==> p in r.dirs
    decreases |actions|
  {
    if actions == [] then st
    else
      var st' := match actions[0]
        case Notify(_, _) => st
        case MakeDir(p) => st.(dirs := st.dirs + {p})
        case Put(p, d) => st.(files := st.files[p := d]);
      Apply(st', actions[1..])
  }

  /** `writeStream(src)`: the source's bytes are put at the handle's path, and
      the answer is the source's length. Read back, the target holds exactly
      the source's bytes. */
  function WriteStream(target: string, src: seq<Byte>): (r: (seq<Action>, nat))
    ensures r.1 == |src|
    ensures forall st: Store :: target in Apply(st, r.0).files && Apply(st, r.0).files[target] == src
    ensures forall st: Store :: Apply(st, r.0).dirs == st.dirs
  {
    ([Put(target, src)], |src|)
  }

  /** `copyTo(target)`: the source opened for reading, its bytes written to
      the target by `writeStream`. */
  function CopyTo(src: seq<Byte>, target: string): (r: (seq<Action>, nat))
    ensures r.1 == |src|
    ensures forall st: Store :: target in Apply(st, r.0).files && Apply(st, r.0).files[target] == src
  {
    WriteStream(target, src)
  }

  /** `mkdirs()`: only the directory of the handle itself is made; a missing
      ancestor stays missing. */
  function Mkdirs(h: Handle): (r: seq<Action>)
    ensures forall st: Store :: Apply(st, r).dirs == st.dirs + {h.path}
    ensures forall st: Store :: Apply(st, r).files == st.files
  {
    [MakeDir(h.path)]
  }

  // ---------------------------------------------------------------------------
  // Walking a directory
  // ---------------------------------------------------------------------------

  /** A directory as the backend reports it, entry by entry: a file with its
      bytes, a directory with its listing, a directory whose `list` fails,
      or an entry whose `stat` fails. A child's handle is its parent's
      combined with the child's name. */
  datatype Tree =
    | File(name: string, data: seq<Byte>)
    | Dir(name: string, children: seq<Tree>)
    | Unlistable(name: string)
    | Unreadable(name: string)

  /** No entry of the tree makes a call fail. */
  predicate Sound(t: Tree)
    decreases t
  {
    match t
    case File(_, _) => true
    case Dir(_, cs) => SoundAll(cs)
    case Unlistable(_) => false
    case Unreadable(_) => false
  }

  predicate SoundAll(cs: seq<Tree>)
    decreases cs
  {
    cs == [] || (Sound(cs[0]) && SoundAll(cs[1..]))
  }

  /** The reference order: the tree's paths under `p`, each entry before its
      children, children in listing order. */
  function Paths(t: Tree, p: string): (r: seq<string>)
    ensures |r| >= 1 && r[0] == p
    decreases t
  {
    [p] + (if t.Dir? then PathsAll(t.children, p) else [])
  }

  function PathsAll(cs: seq<Tree>, p: string): seq<string>
    decreases cs
  {
    if cs == [] then [] else Paths(cs[0], Combine(p, cs[0].name)) + PathsAll(cs[1..], p)
  }

  /** The reference contents: every file of the tree with the path it has
      under `p`, in the same order. */
  function FilesOf(t: Tree, p: string): seq<(string, seq<Byte>)>
    decreases t
  {
    match t
    case File(_, d) => [(p, d)]
    case Dir(_, cs) => FilesAll(cs, p)
    case Unlistable(_) => []
    case Unreadable(_) => []
  }

  function FilesAll(cs: seq<Tree>, p: string): seq<(string, seq<Byte>)>
    decreases cs
  {
    if cs == [] then [] else FilesOf(cs[0], Combine(p, cs[0].name)) + FilesAll(cs[1..], p)
  }

  /** The source paths of the notifications in a trace. */
  function Sources(actions: seq<Action>): seq<string> {
    if actions == [] then []
    else (if actions[0].Notify? then [actions[0].src] else []) + Sources(actions[1..])
  }

  /** The target paths of the notifications in a trace. */
  function Targets(actions: seq<Action>): seq<string> {
    if actions == [] then []
    else (if actions[0].Notify? then [actions[0].dst] else []) + Targets(actions[1..])
  }

  /** The puts in a trace. */
  function Puts(actions: seq<Action>): seq<(string, seq<Byte>)> {
    if actions == [] then []
    else (if actions[0].Put? then [(actions[0].path, actions[0].data)] else []) + Puts(actions[1..])
  }

  lemma {:induction false} ProjectionsAppend(a: seq<Action>, b: seq<Action>)
    ensures Sources(a + b) == Sources(a) + Sources(b)
    ensures Targets(a + b) == Targets(a) + Targets(b)
    ensures Puts(a + b) == Puts(a) + Puts(b)
    decreases |a|
  {
    if a != [] {
      assert (a + b)[0] == a[0];
      assert (a + b)[1..] == a[1..] + b;
      ProjectionsAppend(a[1..], b);
      assert Sources(a + b) == (if a[0].Notify? then [a[0].src] else []) + Sources(a[1..] + b);
      assert Targets(a + b) == (if a[0].Notify? then [a[0].dst] else []) + Targets(a[1..] + b);
      assert Puts(a + b) == (if a[0].Put? then [(a[0].path, a[0].data)] else []) + Puts(a[1..] + b);
    } else {
      assert a + b == b;
    }
  }

  /** What a `copyToTree` did before it stopped, and whether it stopped by
      failing. */
  datatype Run = Run(actions: seq<Action>, failed: bool)

  /** `copyToTree(target, notify)`: the pair is notified first; a directory
      makes the target directory and then copies each listed child into the
      target's child of the same name; a file is copied with `copyTo`. No
      failure is caught: a `stat` or `list` that fails ends the whole copy. */
  function CopyToTree(t: Tree, src: string, dst: string): (r: Run)
    ensures |r.actions| >= 1 && r.actions[0] == Notify(src, dst)
    ensures t.Dir? || t.Unlistable? ==> |r.actions| >= 2 && r.actions[1] == MakeDir(dst)
    ensures r.failed <==> !Sound(t)
    decreases t
  {
    var start := [Notify(src, dst)];
    match t
    case Unreadable(_) => Run(start, true)
    case File(_, d) => Run(start + CopyTo(d, dst).0, false)
    case Unlistable(_) => Run(start + [MakeDir(dst)], true)
    case Dir(_, cs) =>
      var rest := CopyChildren(cs, src, dst);
      Run(start + [MakeDir(dst)] + rest.actions, rest.failed)
  }

  /** The loop over a directory's children, stopping at the first failure. */
  function CopyChildren(cs: seq<Tree>, src: string, dst: string): (r: Run)
    ensures r.failed <==> !SoundAll(cs)
    decreases cs
  {
    if cs == [] then Run([], false)
    else
      var first := CopyToTree(cs[0], Combine(src, cs[0].name), Combine(dst, cs[0].name));
      if first.failed then first
      else
        var rest := CopyChildren(cs[1..], src, dst);
        Run(first.actions + rest.actions, rest.failed)
  }

  /** A copy that does not fail notifies every pair in pre-order, the source
      and target sides walking the same tree, and puts every file of the
      source at its place under the target, in order. */
  lemma {:induction false} CopyToTreeOrder(t: Tree, src: string, dst: string)
    requires Sound(t)
    ensures Sources(CopyToTree(t, src, dst).actions) == Paths(t, src)
    ensures Targets(CopyToTree(t, src, dst).actions) == Paths(t, dst)
    ensures Puts(CopyToTree(t, src, dst).actions) == FilesOf(t, dst)
    decreases t
  {
    var start := [Notify(src, dst)];
    assert Sources(start) == [src] && Targets(start) == [dst] && Puts(start) == [];
    match t
    case File(_, d) =>
      ProjectionsAppend(start, [Put(dst, d)]);
      assert Sources([Put(dst, d)]) == [] && Targets([Put(dst, d)]) == [];
      assert Puts([Put(dst, d)]) == [(dst, d)];
    case Dir(_, cs) =>
      var rest := CopyChildren(cs, src, dst);
      CopyChildrenOrder(cs, src, dst);
      assert Sources([MakeDir(dst)]) == [] && Targets([MakeDir(dst)]) == [] && Puts([MakeDir(dst)]) == [];
      ProjectionsAppend(start, [MakeDir(dst)]);
      ProjectionsAppend(start + [MakeDir(dst)], rest.actions);
  }

  lemma {:induction false} CopyChildrenOrder(cs: seq<Tree>, src: string, dst: string)
    requires SoundAll(cs)
    ensures Sources(CopyChildren(cs, src, dst).actions) == PathsAll(cs, src)
    ensures Targets(CopyChildren(cs, src, dst).actions) == PathsAll(cs, dst)
    ensures Puts(CopyChildren(cs, src, dst).actions) == FilesAll(cs, dst)
    decreases cs
  {
    if cs != [] {
      var first := CopyToTree(cs[0], Combine(src, cs[0].name), Combine(dst, cs[0].name));
      var rest := CopyChildren(cs[1..], src, dst);
      CopyToTreeOrder(cs[0], Combine(src, cs[0].name), Combine(dst, cs[0].name));
      CopyChildrenOrder(cs[1..], src, dst);
      ProjectionsAppend(first.actions, rest.actions);
    }
  }

  /** What a `listRecursive` yielded before it ended, and whether it ended by
      failing. */
  datatype Yield = Yield(items: seq<string>, failed: bool)

  /** `listRecursive(filter)` over the children `cs` of the directory at `p`:
      each child the filter accepts is yielded, then stated, and a directory
      is listed recursively with the default filter, which accepts
      everything. A rejected child is neither yielded nor entered. */
  function ListRecursive(cs: seq<Tree>, p: string, filter: string -> bool): (r: Yield)
    ensures !r.failed && (forall k :: 0 <= k < |cs| ==> !filter(Combine(p, cs[k].name))) ==> r.items == []
    decreases cs, 1
  {
    if cs == [] then Yield([], false)
    else
      var path := Combine(p, cs[0].name);
      if !filter(path) then ListRecursive(cs[1..], p, filter)
      else
        var here := Below(cs[0], path);
        if here.failed then Yield([path] + here.items, true)
        else
          var rest := ListRecursive(cs[1..], p, filter);
          Yield([path] + here.items + rest.items, rest.failed)
  }

  /** What the recursive call yields for an accepted entry at `path`: nothing
      for a file, the whole listing for a directory. */
  function Below(t: Tree, path: string): (r: Yield)
    ensures t.File? ==> r == Yield([], false)
    decreases t, 0
  {
    match t
    case File(_, _) => Yield([], false)
    case Dir(_, cs) => ListRecursive(cs, path, AcceptAll)
    case Unlistable(_) => Yield([], true)
    case Unreadable(_) => Yield([], true)
  }

  /** The default filter. */
  function AcceptAll(path: string): bool {
    true
  }

  /** The children of `p` the filter accepts. */
  function Accepted(cs: seq<Tree>, p: string, filter: string -> bool): (r: seq<Tree>)
    ensures |r| <= |cs|
    ensures forall k :: 0 <= k < |r| ==> r[k] in cs && filter(Combine(p, r[k].name))
  {
    if cs == [] then []
    else if filter(Combine(p, cs[0].name)) then [cs[0]] + Accepted(cs[1..], p, filter)
    else Accepted(cs[1..], p, filter)
  }

  /** The filter acts on the top level only: listing with it is listing the
      accepted children with the default filter. */
  lemma {:induction false} FilterTopLevelOnly(cs: seq<Tree>, p: string, filter: string -> bool)
    ensures ListRecursive(cs, p, filter) == ListRecursive(Accepted(cs, p, filter), p, AcceptAll)
    decreases cs
  {
    if cs != [] {
      FilterTopLevelOnly(cs[1..], p, filter);
      if filter(Combine(p, cs[0].name)) {
        var acc := Accepted(cs, p, filter);
        assert acc[0] == cs[0] && acc[1..] == Accepted(cs[1..], p, filter);
      }
    }
  }

  /** Without failures and with the default filter, `listRecursive` yields
      the same paths, in the same order, as `copyToTree` notifies below the
      directory: the two walks agree. */
  lemma {:induction false} ListRecursiveIsPreOrder(cs: seq<Tree>, p: string)
    requires SoundAll(cs)
    ensures ListRecursive(cs, p, AcceptAll) == Yield(PathsAll(cs, p), false)
    decreases cs
  {
    if cs != [] {
      var path := Combine(p, cs[0].name);
      BelowIsPreOrder(cs[0], path);
      ListRecursiveIsPreOrder(cs[1..], p);
    }
  }

  lemma {:induction false} BelowIsPreOrder(t: Tree, path: string)
    requires Sound(t)
    ensures [path] + Below(t, path).items == Paths(t, path) && !Below(t, path).failed
    decreases t
  {
    if t.Dir? {
      ListRecursiveIsPreOrder(t.children, path);
    }
  }

  /** Copying a sound directory notifies its own pair and then exactly the
      paths `listRecursive` yields below it. */
  lemma CopyNotifiesListing(t: Tree, src: string, dst: string)
    requires t.Dir? && Sound(t)
    ensures Sources(CopyToTree(t, src, dst).actions) == [src] + ListRecursive(t.children, src, AcceptAll).items
  {
    CopyToTreeOrder(t, src, dst);
    ListRecursiveIsPreOrder(t.children, src);
  }
}

=== FILE: zip.dfy ===
/** `ZipVfs`: a read-only file system over a ZIP archive held in memory
    (PKWARE APPNOTE.TXT). Opening the archive reads the end-of-central-directory
    record from the last 22 bytes (section 4.3.16), walks the central directory
    (section 4.3.12) and indexes every entry twice: by its name trimmed of `/`,
    and by folder then basename. `open` reads the entry's local file header
    (section 4.3.7) and hands out the payload as a slice of the archive stream,
    raw or inflating by compression method (section 4.4.5). */
module Zip {
  import opened Common
  import Streams

  // ---------------------------------------------------------------------------
  // Layout constants
  // ---------------------------------------------------------------------------

  /** Size of the end-of-central-directory record the reader expects at the
      very end of the archive (it assumes an empty archive comment). */
  const EocdSize := 22
  /** Fixed part of a central directory file header. */
  const RecordSize := 46
  /** Fixed part of a local file header. */
  const LocalHeaderSize := 30

  /** The three signatures, as the big-endian integers the source compares. */
  const EocdSignature := 0x504B_0506
  const RecordSignature := 0x504B_0102
  const LocalSignature := 0x504B_0304

  /** The same signatures as the bytes that appear in the file: `PK` and
      the record kind. */
  const EocdMagic: seq<Byte> := [0x50, 0x4B, 0x05, 0x06]
  const RecordMagic: seq<Byte> := [0x50, 0x4B, 0x01, 0x02]
  const LocalMagic: seq<Byte> := [0x50, 0x4B, 0x03, 0x04]

  /** Compression methods the reader understands (APPNOTE section 4.4.5). */
  const Stored := 0
  const Deflated := 8

  // ---------------------------------------------------------------------------
  // Field readers
  // ---------------------------------------------------------------------------

  const TwoTo16 := 0x1_0000
  const TwoTo31 := 0x8000_0000
  const TwoTo32 := 0x1_0000_0000

  /** `readU16_le`. */
  function U16le(d: seq<Byte>, p: int): (v: int)
    requires 0 <= p && p + 2 <= |d|
    ensures 0 <= v < TwoTo16
  {
    d[p] as int + 256 * d[p + 1] as int
  }

  /** Unsigned little-endian 32-bit value. */
  function U32le(d: seq<Byte>, p: int): (v: int)
    requires 0 <= p && p + 4 <= |d|
    ensures 0 <= v < TwoTo32
  {
    U16le(d, p) + TwoTo16 * U16le(d, p + 2)
  }

  /** Unsigned big-endian 32-bit value. */
  function U32be(d: seq<Byte>, p: int): (v: int)
    requires 0 <= p && p + 4 <= |d|
    ensures 0 <= v < TwoTo32
  {
    ((d[p] as int * 256 + d[p + 1] as int) * 256 + d[p + 2] as int) * 256 + d[p + 3] as int
  }

  /** A Kotlin `Int` read from 32 bits: two's complement. */
  function Signed32(u: int): (v: int)
    requires 0 <= u < TwoTo32
    ensures -TwoTo31 <= v < TwoTo31
    ensures v % TwoTo32 == u
  {
    if u >= TwoTo31 then u - TwoTo32 else u
  }

  /** `readS32_le`. */
  function S32le(d: seq<Byte>, p: int): int
    requires 0 <= p && p + 4 <= |d|
  {
    Signed32(U32le(d, p))
  }

  /** `readS32_be`. */
  function S32be(d: seq<Byte>, p: int): int
    requires 0 <= p && p + 4 <= |d|
  {
    Signed32(U32be(d, p))
  }

  /** `Int.toUInt()`: the 32 bits read back as an unsigned number. */
  function ToUInt(x: int): (u: int)
    requires -TwoTo31 <= x < TwoTo31
    ensures 0 <= u < TwoTo32 && u % TwoTo32 == x % TwoTo32
  {
    if x < 0 then x + TwoTo32 else x
  }

  /** The four bytes of a 32-bit value, most significant first. */
  function BeBytes(v: int): (r: seq<Byte>)
    requires 0 <= v < TwoTo32
    ensures |r| == 4
  {
    [(v / 256 / 256 / 256) as Byte, (v / 256 / 256 % 256) as Byte, (v / 256 % 256) as Byte, (v % 256) as Byte]
  }

  /** The big-endian reading and `BeBytes` are inverse: the four bytes at `p`
      are the bytes of the value read there. */
  lemma BeBytesOfRead(d: seq<Byte>, p: int)
    requires 0 <= p && p + 4 <= |d|
    ensures BeBytes(U32be(d, p)) == d[p..p + 4]
  {
    var a, b, c, e := d[p] as int, d[p + 1] as int, d[p + 2] as int, d[p + 3] as int;
    var v2 := a * 256 + b;
    var v1 := v2 * 256 + c;
    var u := v1 * 256 + e;
    assert u == U32be(d, p);
    LowDigit(v1, e);
    LowDigit(v2, c);
    LowDigit(a, b);
  }

  /** A value is determined by its four big-endian bytes. */
  lemma BeBytesInjective(u: int, v: int)
    requires 0 <= u < TwoTo32 && 0 <= v < TwoTo32 && BeBytes(u) == BeBytes(v)
    ensures u == v
  {
    assert u == ((u / 256 / 256 / 256 * 256 + u / 256 / 256 % 256) * 256 + u / 256 % 256) * 256 + u % 256;
    assert v == ((v / 256 / 256 / 256 * 256 + v / 256 / 256 % 256) * 256 + v / 256 % 256) * 256 + v % 256;
    assert BeBytes(u)[0] == BeBytes(v)[0] && BeBytes(u)[1] == BeBytes(v)[1];
    assert BeBytes(u)[2] == BeBytes(v)[2] && BeBytes(u)[3] == BeBytes(v)[3];
  }

  /** Dividing `x * 256 + e` by 256 splits off the low byte `e`. */
  lemma LowDigit(x: int, e: int)
    requires 0 <= x && 0 <= e < 256
    ensures (x * 256 + e) / 256 == x && (x * 256 + e) % 256 == e
  {
  }

  /** A positive signature matches exactly when the four bytes at `p` are its
      big-endian bytes: the source's integer comparison is a byte comparison. */
  lemma SignatureIsBytes(d: seq<Byte>, p: int, sig: int)
    requires 0 <= p && p + 4 <= |d| && 0 <= sig < TwoTo31
    ensures S32be(d, p) == sig <==> d[p..p + 4] == BeBytes(sig)
  {
    BeBytesOfRead(d, p);
    if d[p..p + 4] == BeBytes(sig) {
      BeBytesInjective(U32be(d, p), sig);
    }
  }

  /** The integer signatures and the magic bytes agree. */
  lemma SignatureBytes()
    ensures BeBytes(EocdSignature) == EocdMagic
    ensures BeBytes(RecordSignature) == RecordMagic
    ensures BeBytes(LocalSignature) == LocalMagic
  {
    BeBytesOfRead(EocdMagic, 0);
    BeBytesOfRead(RecordMagic, 0);
    BeBytesOfRead(LocalMagic, 0);
    assert U32be(EocdMagic, 0) == EocdSignature;
    assert U32be(RecordMagic, 0) == RecordSignature;
    assert U32be(LocalMagic, 0) == LocalSignature;
  }

  /** The bytes as a string, one character per byte (ASCII names). */
  function Latin1(bs: seq<Byte>): (s: string)
    ensures |s| == |bs| && forall k :: 0 <= k < |bs| ==> s[k] as int == bs[k] as int
  {
    seq(|bs|, k requires 0 <= k < |bs| => bs[k] as int as char)
  }

  // ---------------------------------------------------------------------------
  // Central directory records
  // ---------------------------------------------------------------------------

  /** `ZipEntry`: the raw name is the entry's `path`; sizes and the header
      offset are the unsigned readings (`toUInt`) of the record's fields. The
      entry's `compressedData` is the archive slice
      `[headerOffset, headerOffset + compressedSize)` (`DataSlice`). */
  datatype Entry = Entry(
    path: string,
    compression: int,
    isDirectory: bool,
    headerOffset: int,
    compressedSize: int,
    uncompressedSize: int)

  function DataSlice(e: Entry): Streams.Stream {
    Streams.SliceOf(Streams.Direct, e.headerOffset, e.compressedSize)
  }

  /** One record as read: the entry, where the cursor stands after the name and
      the extra field, and the file-comment length the record announced. */
  datatype RecordRead = RecordRead(entry: Entry, afterExtra: int, commentLength: int)

  /** Reads the central directory record at `pos` of the directory bytes. A
      fixed field that runs past the end fails with "Not enough data"; the
      name and the extra field take what is left when they run past it. */
  function ReadRecord(dir: seq<Byte>, pos: nat): (r: Result<RecordRead>)
    requires pos <= |dir|
    ensures r.Ok? <==> pos + RecordSize <= |dir| && S32be(dir, pos) == RecordSignature
    ensures r.Ok? ==> var nameEnd := Streams.Min(pos + RecordSize + U16le(dir, pos + 28), |dir|);
      r.value.afterExtra == Streams.Min(nameEnd + U16le(dir, pos + 30), |dir|)
      && r.value.commentLength == U16le(dir, pos + 32)
      && r.value.entry.path == Latin1(dir[pos + RecordSize..nameEnd])
      && r.value.entry.compression == U16le(dir, pos + 10)
      && r.value.entry.compressedSize == U32le(dir, pos + 20)
      && r.value.entry.uncompressedSize == U32le(dir, pos + 24)
      && r.value.entry.headerOffset == U32le(dir, pos + 42)
    ensures r.Ok? ==> (r.value.entry.isDirectory <==> EndsWith(r.value.entry.path, '/'))
    ensures pos + 4 <= |dir| && S32be(dir, pos) != RecordSignature ==>
              r == Err(InvalidFormat("Not a zip file record"))
  {
    if pos + 4 > |dir| then Err(NotEnoughData)
    else if S32be(dir, pos) != RecordSignature then Err(InvalidFormat("Not a zip file record"))
    else if pos + RecordSize > |dir| then Err(NotEnoughData)
    else
      var compression := U16le(dir, pos + 10);
      var compressedSize := S32le(dir, pos + 20);
      var uncompressedSize := S32le(dir, pos + 24);
      var nameLength := U16le(dir, pos + 28);
      var extraLength := U16le(dir, pos + 30);
      var commentLength := U16le(dir, pos + 32);
      var headerOffset := S32le(dir, pos + 42);
      var nameEnd := Streams.Min(pos + RecordSize + nameLength, |dir|);
      var name := Latin1(dir[pos + RecordSize..nameEnd]);
      var extraEnd := Streams.Min(nameEnd + extraLength, |dir|);
      var entry := Entry(name, compression, EndsWith(name, '/'), ToUInt(headerOffset),
                         ToUInt(compressedSize), ToUInt(uncompressedSize));
      Ok(RecordRead(entry, extraEnd, commentLength))
  }

  /** Where the next record is read. As written (`skipComments` false) the
      cursor stays right after the extra field, on the file comment; skipping
      the comment is the corrected walk. */
  function NextRecord(dir: seq<Byte>, rec: RecordRead, skipComments: bool): (next: int)
    requires rec.afterExtra <= |dir|
    ensures rec.afterExtra <= next <= |dir|
  {
    if skipComments then Streams.Min(Streams.Max(rec.afterExtra, rec.afterExtra + rec.commentLength), |dir|)
    else rec.afterExtra
  }

  /** The loop over `entriesInDirectory` records starting at `pos`: every record
      is read in turn and the first failure aborts the walk. */
  function Walk(dir: seq<Byte>, pos: nat, count: int, skipComments: bool): (r: Result<seq<Entry>>)
    requires pos <= |dir|
    ensures r.Ok? ==> |r.value| == Streams.Max(count, 0)
    decreases Streams.Max(count, 0)
  {
    if count <= 0 then Ok([])
    else
      match ReadRecord(dir, pos)
      case Err(e) => Err(e)
      case Ok(rec) =>
        assert pos + RecordSize <= rec.afterExtra;
        var rest :- Walk(dir, NextRecord(dir, rec, skipComments), count - 1, skipComments);
        Ok([rec.entry] + rest)
  }

  // ---------------------------------------------------------------------------
  // The two indexes
  // ---------------------------------------------------------------------------

  /** `files` maps a trimmed name to its entry; `folders` (`filesPerFolder`)
      maps a folder to its entries by basename. */
  datatype Index = Index(files: map<string, Entry>, folders: map<string, map<string, Entry>>)

  const NoEntries := Index(map[], map[])

  /** `normalizeName()`: the name trimmed of `/` at both ends. */
  function Key(e: Entry): string {
    Trim(e.path, '/')
  }

  /** Indexes one entry under its trimmed name, and under the text before the
      last `/` (or "") by the text after it; a later entry replaces an earlier
      one with the same name. */
  function AddEntry(idx: Index, e: Entry): Index {
    var key := Key(e);
    var folder := Folder(key);
    var inFolder := if folder in idx.folders then idx.folders[folder] else map[];
    Index(idx.files[key := e], idx.folders[folder := inFolder[Basename(key) := e]])
  }

  /** The index after the walk: the entries added in directory order. */
  function BuildIndex(es: seq<Entry>): Index
    decreases |es|
  {
    if es == [] then NoEntries else AddEntry(BuildIndex(es[..|es| - 1]), es[|es| - 1])
  }

  /** The last entry of `es` whose trimmed name is `key`: the one the index
      keeps. */
  function LastWith(es: seq<Entry>, key: string): (r: Option<Entry>)
    ensures r.Some? ==> r.value in es && Key(r.value) == key
    decreases |es|
  {
    if es == [] then None
    else if Key(es[|es| - 1]) == key then Some(es[|es| - 1])
    else LastWith(es[..|es| - 1], key)
  }

  /** A name is indexed exactly when some entry has it, and it is indexed to
      the last entry that has it. */
  lemma {:induction false} BuildIndexLastWins(es: seq<Entry>, key: string)
    ensures key in BuildIndex(es).files <==> LastWith(es, key).Some?
    ensures key in BuildIndex(es).files ==> BuildIndex(es).files[key] == LastWith(es, key).value
    decreases |es|
  {
    if es != [] {
      var init, last := es[..|es| - 1], es[|es| - 1];
      BuildIndexLastWins(init, key);
      assert BuildIndex(es).files == BuildIndex(init).files[Key(last) := last];
      assert LastWith(es, key) == if Key(last) == key then Some(last) else LastWith(init, key);
    }
  }

  /** Every indexed name is its entry's trimmed name and is listed in its
      folder under its basename, to the same entry. */
  predicate FilesListed(idx: Index) {
    forall k :: k in idx.files ==>
      Key(idx.files[k]) == k && Folder(k) in idx.folders && Basename(k) in idx.folders[Folder(k)]
      && idx.folders[Folder(k)][Basename(k)] == idx.files[k]
  }

  /** Every listed entry is indexed under its trimmed name, which has the
      folder and basename it is listed under. */
  predicate ListedIndexed(idx: Index) {
    forall f, n :: f in idx.folders && n in idx.folders[f] ==>
      var e := idx.folders[f][n];
      Key(e) in idx.files && idx.files[Key(e)] == e && Folder(Key(e)) == f && Basename(Key(e)) == n
  }

  /** The two indexes agree, both ways. */
  predicate Shared(idx: Index) {
    FilesListed(idx) && ListedIndexed(idx)
  }

  /** A trimmed name does not start with `/`. */
  lemma TrimmedHasNoLeadingSlash(path: string)
    ensures !StartsWith(Trim(path, '/'), '/')
  {
    var u := TrimStart(path, '/');
    var t := TrimEnd(u, '/');
    if t != [] {
      assert t[0] == u[0];
    }
  }

  /** Two names that do not start with `/` and have the same folder and
      basename are the same name. */
  lemma SplitInjective(k1: string, k2: string)
    requires !StartsWith(k1, '/') && !StartsWith(k2, '/')
    requires Folder(k1) == Folder(k2) && Basename(k1) == Basename(k2)
    ensures k1 == k2
  {
    FolderBasename(k1);
    FolderBasename(k2);
  }

  /** Adding an entry keeps every indexed name listed. */
  lemma AddEntryFilesListed(idx: Index, e: Entry)
    requires FilesListed(idx)
    ensures FilesListed(AddEntry(idx, e))
  {
    var r := AddEntry(idx, e);
    forall k | k in r.files
      ensures Key(r.files[k]) == k && Folder(k) in r.folders && Basename(k) in r.folders[Folder(k)]
              && r.folders[Folder(k)][Basename(k)] == r.files[k]
    {
      if k != Key(e) {
        OtherNameStaysListed(idx, e, k);
      }
    }
  }

  /** An indexed name other than the added one keeps its listing. */
  lemma OtherNameStaysListed(idx: Index, e: Entry, k: string)
    requires FilesListed(idx) && k in idx.files && k != Key(e)
    ensures var r := AddEntry(idx, e);
      Folder(k) in r.folders && Basename(k) in r.folders[Folder(k)]
      && r.folders[Folder(k)][Basename(k)] == idx.files[k]
  {
    var key := Key(e);
    var f, n := Folder(k), Basename(k);
    if f == Folder(key) && n == Basename(key) {
      TrimmedHasNoLeadingSlash(e.path);
      TrimmedHasNoLeadingSlash(idx.files[k].path);
      SplitInjective(k, key);
    } else {
      UntouchedListing(idx, e, f, n);
    }
  }

  /** Adding an entry leaves every other folder and basename listed as it
      was. */
  lemma UntouchedListing(idx: Index, e: Entry, f: string, n: string)
    requires f in idx.folders && n in idx.folders[f]
    requires f != Folder(Key(e)) || n != Basename(Key(e))
    ensures var r := AddEntry(idx, e);
      f in r.folders && n in r.folders[f] && r.folders[f][n] == idx.folders[f][n]
  {
  }

  /** Adding an entry keeps every listed entry indexed. */
  lemma AddEntryListedIndexed(idx: Index, e: Entry)
    requires ListedIndexed(idx)
    ensures ListedIndexed(AddEntry(idx, e))
  {
    var key := Key(e);
    var folder, base := Folder(key), Basename(key);
    var r := AddEntry(idx, e);
    forall f, n | f in r.folders && n in r.folders[f]
      ensures var e' := r.folders[f][n];
        Key(e') in r.files && r.files[Key(e')] == e' && Folder(Key(e')) == f && Basename(Key(e')) == n
    {
      if f != folder || n != base {
        assert f in idx.folders && n in idx.folders[f];
        assert r.folders[f][n] == idx.folders[f][n];
      }
    }
  }

  /** Adding an entry keeps the two indexes in agreement. */
  lemma AddEntryShared(idx: Index, e: Entry)
    requires Shared(idx)
    ensures Shared(AddEntry(idx, e))
  {
    AddEntryFilesListed(idx, e);
    AddEntryListedIndexed(idx, e);
  }

  /** The index the walk builds keeps the two indexes in agreement. */
  lemma {:induction false} BuildIndexShared(es: seq<Entry>)
    ensures Shared(BuildIndex(es))
    decreases |es|
  {
    if es != [] {
      BuildIndexShared(es[..|es| - 1]);
      AddEntryShared(BuildIndex(es[..|es| - 1]), es[|es| - 1]);
    }
  }

  // ---------------------------------------------------------------------------
  // Opening the archive
  // ---------------------------------------------------------------------------

  /** The opened file system: the archive stream's memory base and the index. */
  datatype ZipFs = ZipFs(base: Streams.Base, index: Index)

  /** A `ByteArray(n)` filled from the front with `bs` (at most `n` of them). */
  function Pad(bs: seq<Byte>, n: nat): (r: seq<Byte>)
    ensures |r| == n
    ensures |bs| >= n ==> r == bs[..n]
  {
    if |bs| >= n then bs[..n] else bs + Streams.Zeros(n - |bs|)
  }

  /** What `readAvailable()` of the directory slice yields: the archive bytes
      of `[offset, offset + size)` that exist, zero-filled up to `size`. */
  function DirectoryBytes(archive: seq<Byte>, offset: nat, size: nat): (r: seq<Byte>)
    ensures |r| == size
  {
    var present := if offset >= |archive| then [] else archive[offset..Streams.Min(offset + size, |archive|)];
    present + Streams.Zeros(size - |present|)
  }

  /** The index of a directory walk, or the walk's failure. */
  function Indexed(walk: Result<seq<Entry>>, base: Streams.Base): Result<ZipFs> {
    match walk
    case Err(e) => Err(e)
    case Ok(es) => Ok(ZipFs(base, BuildIndex(es)))
  }

  /** The first step of `ZipVfs(s)`: seek to `length - 22` and read the
      end-of-central-directory record exactly, padded into a 22-byte array. */
  function ReadEocd(archive: seq<Byte>): Result<(Streams.Base, seq<Byte>)> {
    var b := Streams.Base(archive, 0);
    var length := Streams.GetLength(b, Streams.Direct).value;
    var moved := Streams.SetPosition(b, Streams.Direct, length - EocdSize).value;
    var tail :- Streams.ReadExactFrom(moved.0, moved.1, EocdSize, []);
    Ok((tail.base, Pad(tail.bytes, EocdSize)))
  }

  /** The second step: slice the directory out of the archive stream at the
      offset and size the record gives, read what is available, and walk
      the record count it gives, skipping each record's comment only when
      `skipComments` is set. */
  function ReadDirectory(base: Streams.Base, eocd: seq<Byte>, skipComments: bool): Result<seq<Entry>>
    requires |eocd| == EocdSize
  {
    var entries := U16le(eocd, 10);
    var directorySize := S32le(eocd, 12);
    var directoryOffset := S32le(eocd, 16);
    var ds := Streams.SliceOf(Streams.Direct, directoryOffset, directorySize);
    var available := Streams.GetAvailable(base, ds).value;
    match Streams.ReadBytes(base, ds, available)
    case Err(e) => Err(e)
    case Ok(dir) => Walk(dir.2, 0, entries, skipComments)
  }

  /** `ZipVfs(s)` over an archive in memory: the end-of-central-directory
      record is taken from the last 22 bytes, its signature is checked before
      anything else, then the directory is read and its records indexed.
      As written, the walk does not skip the records' file comments. The two
      indexes of the result agree. */
  function Load(archive: seq<Byte>): (r: Result<ZipFs>)
    ensures r.Ok? ==> Shared(r.value.index)
  {
    LoadWith(archive, false)
  }

  /** `ZipVfs(s)` with the walk corrected to skip each record's file comment. */
  function LoadCorrected(archive: seq<Byte>): (r: Result<ZipFs>)
    ensures r.Ok? ==> Shared(r.value.index)
  {
    LoadWith(archive, true)
  }

  function LoadWith(archive: seq<Byte>, skipComments: bool): (r: Result<ZipFs>)
    ensures r.Ok? ==> Shared(r.value.index)
  {
    match ReadEocd(archive)
    case Err(e) => Err(e)
    case Ok(tail) =>
      var (base, eocd) := tail;
      if |eocd| != EocdSize || S32be(eocd, 0) != EocdSignature then Err(InvalidFormat("Not a zip file"))
      else
        match ReadDirectory(base, eocd, skipComments)
        case Err(e) => Err(e)
        case Ok(es) =>
          BuildIndexShared(es);
          Ok(ZipFs(base, BuildIndex(es)))
  }

  /** The record is the archive's last 22 bytes, or the read fails on the
      negative position of an archive shorter than that. */
  lemma EocdLayout(archive: seq<Byte>)
    ensures |archive| < EocdSize ==> ReadEocd(archive) == Err(OutOfBounds)
    ensures |archive| >= EocdSize ==>
      ReadEocd(archive) == Ok((Streams.Base(archive, |archive|), archive[|archive| - EocdSize..]))
  {
    var p := |archive| - EocdSize;
    if p < 0 {
      assert Streams.Read(Streams.Base(archive, p), Streams.Direct, EocdSize) == Err(OutOfBounds);
    } else {
      Streams.ReadExactDirect(archive, p, EocdSize, []);
      assert [] + archive[p..p + EocdSize] == archive[p..];
      assert archive[p..][..EocdSize] == archive[p..];
    }
  }

  /** The directory bytes are `[offset, offset + size)` of the archive; a
      negative offset or size fails before any record is read. */
  lemma DirectoryLayout(archive: seq<Byte>, eocd: seq<Byte>, skipComments: bool)
    requires |eocd| == EocdSize
    ensures var b := Streams.Base(archive, |archive|);
      var size, offset := S32le(eocd, 12), S32le(eocd, 16);
      if size < 0 || offset < 0 then ReadDirectory(b, eocd, skipComments) == Err(OutOfBounds)
      else ReadDirectory(b, eocd, skipComments)
           == Walk(DirectoryBytes(archive, offset, size), 0, U16le(eocd, 10), skipComments)
  {
    var size, offset := S32le(eocd, 12), S32le(eocd, 16);
    var b := Streams.Base(archive, |archive|);
    var ds := Streams.Slice(true, offset, size, 0);
    if size < 0 {
      assert Streams.ReadBytes(b, ds, size) == Err(OutOfBounds);
    } else if offset < 0 {
      assert Streams.Read(b, ds, size) == Err(OutOfBounds);
    } else {
      DirectoryRead(b, offset, size);
    }
  }

  /** What `Load` does, stated on the archive bytes: an archive shorter than
      the record fails on the negative position; a record that does not start
      with `50 4B 05 06` is "Not a zip file" before any entry is read; a
      negative directory offset or size fails; otherwise the index is built
      from exactly the advertised number of records of the directory bytes,
      walked as written (`skipComments` false) or corrected. */
  lemma LoadLayout(archive: seq<Byte>, skipComments: bool)
    ensures |archive| < EocdSize ==> LoadWith(archive, skipComments) == Err(OutOfBounds)
    ensures |archive| >= EocdSize ==>
      var t := archive[|archive| - EocdSize..];
      var r := LoadWith(archive, skipComments);
      if t[..4] != EocdMagic then r == Err(InvalidFormat("Not a zip file"))
      else if S32le(t, 12) < 0 || S32le(t, 16) < 0 then r == Err(OutOfBounds)
      else r == Indexed(Walk(DirectoryBytes(archive, S32le(t, 16), S32le(t, 12)), 0, U16le(t, 10), skipComments),
                        Streams.Base(archive, |archive|))
  {
    EocdLayout(archive);
    if |archive| >= EocdSize {
      var t := archive[|archive| - EocdSize..];
      SignatureIsBytes(t, 0, EocdSignature);
      SignatureBytes();
      DirectoryLayout(archive, t, skipComments);
    }
  }

  /** `readAvailable()` of a fresh slice of the memory base yields the
      directory bytes. */
  lemma DirectoryRead(b: Streams.Base, offset: nat, size: nat)
    ensures var r := Streams.ReadBytes(b, Streams.Slice(true, offset, size, 0), size);
      r.Ok? && r.value.2 == DirectoryBytes(b.data, offset, size)
  {
    var s := Streams.Slice(true, offset, size, 0);
    var m := Streams.MemRead(b.data, offset, size).value;
    assert Streams.Read(b, s, size) == Ok(Streams.ReadOut(b, s.(position := |m|), m, |m|));
    if offset < |b.data| {
      assert m == b.data[offset..Streams.Min(offset + size, |b.data|)];
    }
  }

  // ---------------------------------------------------------------------------
  // The file system operations
  // ---------------------------------------------------------------------------

  /** What `open` hands out: the stored payload slice itself, or that slice
      behind an `InflateAsyncStream` (whose decompression is not modelled). */
  datatype Payload = Raw(stream: Streams.Stream) | Inflating(stream: Streams.Stream)

  /** Reads the local file header through the header stream: the signature
      exactly, then the rest (`ReadHeaderFields`). Yields the base and the
      header stream positioned on the payload. */
  function ReadLocalHeader(b: Streams.Base, header: Streams.Stream): Result<(Streams.Base, Streams.Stream)> {
    match Streams.ReadExactFrom(b, header, 4, [])
    case Err(e) => Err(e)
    case Ok(sig) =>
      if S32be(Pad(sig.bytes, 4), 0) != LocalSignature then Err(InvalidFormat("Not a zip file"))
      else ReadHeaderFields(sig.base, sig.stream)
  }

  /** The local header after its signature: the 26 fixed bytes exactly,
      then the name and the extra field with the lengths given there. */
  function ReadHeaderFields(b: Streams.Base, header: Streams.Stream): Result<(Streams.Base, Streams.Stream)> {
    match Streams.ReadExactFrom(b, header, LocalHeaderSize - 4, [])
    case Err(e) => Err(e)
    case Ok(fixed) => SkipNameAndExtra(fixed.base, fixed.stream, Pad(fixed.bytes, LocalHeaderSize - 4))
  }

  /** `readString(fileNameLength)` then `readBytes(extraLength)`, both
      discarded: only the cursor moves. */
  function SkipNameAndExtra(b: Streams.Base, header: Streams.Stream, fields: seq<Byte>): Result<(Streams.Base, Streams.Stream)>
    requires |fields| == LocalHeaderSize - 4
  {
    match Streams.ReadBytes(b, header, U16le(fields, 22))
    case Err(e) => Err(e)
    case Ok(name) =>
      match Streams.ReadBytes(name.0, name.1, U16le(fields, 24))
      case Err(e) => Err(e)
      case Ok(extra) => Ok((extra.0, extra.1))
  }

  /** `open(path)`: the entry is looked up by its trimmed name, and an
      unknown name is a `FileNotFoundException`. */
  function Open(z: ZipFs, path: string): (r: Result<Payload>)
    ensures Trim(path, '/') !in z.index.files ==> r == Err(NotFound(path))
    ensures r.Ok? ==>
      var e := z.index.files[Trim(path, '/')];
      (r.value.Raw? <==> e.compression == Stored)
      && (r.value.Inflating? <==> e.compression == Deflated)
      && r.value.stream.Slice? && r.value.stream.onMemory
      && r.value.stream.baseLength == e.compressedSize && r.value.stream.position == 0
  {
    var key := Trim(path, '/');
    if key !in z.index.files then Err(NotFound(path))
    else OpenEntry(z.base, z.index.files[key])
  }

  /** Opening a found entry: its local header is read through
      `compressedData.slice()`; the payload is the next `compressedSize`
      bytes, handed out raw for method 0, inflating for method 8, and any
      other method is not implemented. */
  function OpenEntry(b: Streams.Base, e: Entry): (r: Result<Payload>)
    ensures r.Ok? ==>
      (r.value.Raw? <==> e.compression == Stored)
      && (r.value.Inflating? <==> e.compression == Deflated)
      && r.value.stream.Slice? && r.value.stream.onMemory
      && r.value.stream.baseLength == e.compressedSize && r.value.stream.position == 0
  {
    match Streams.SliceRest(b, DataSlice(e))
    case Err(err) => Err(err)
    case Ok(header) =>
      match ReadLocalHeader(b, header)
      case Err(err) => Err(err)
      case Ok(after) =>
        match Streams.ReadSlice(after.0, after.1, e.compressedSize)
        case Err(err) => Err(err)
        case Ok(data) =>
          if !data.2.onMemory then Err(Unsupported)
          else if e.compression == Stored then Ok(Raw(data.2))
          else if e.compression == Deflated then Ok(Inflating(data.2))
          else Err(NotImplemented(e.compression))
  }

  /** `stat(path)`: an indexed entry reports its directory flag and
      uncompressed size under the path asked for; anything else does not
      exist. */
  function StatOf(z: ZipFs, path: string): (r: Stat)
    ensures r.path == path
    ensures r.found <==> Trim(path, '/') in z.index.files
    ensures r.found ==> var e := z.index.files[Trim(path, '/')];
      r.isDirectory == e.isDirectory && r.size == e.uncompressedSize
    ensures !r.found ==> r == NonExistent(path)
  {
    var key := Trim(path, '/');
    if key in z.index.files then
      var e := z.index.files[key];
      Existent(path, e.isDirectory, e.uncompressedSize)
    else NonExistent(path)
  }

  /** `list(path)`: the entries of the folder the trimmed path names, each
      reported under its raw name; a folder no entry lives in is a failed
      `!!`. */
  function List(z: ZipFs, path: string): (r: Result<set<Stat>>)
    ensures r.Err? <==> Trim(path, '/') !in z.index.folders
    ensures r.Err? ==> r.error == MissingFolder(path)
    ensures r.Ok? ==> forall st :: st in r.value <==>
      exists n :: n in z.index.folders[Trim(path, '/')] && st == EntryStat(z.index.folders[Trim(path, '/')][n])
  {
    var key := Trim(path, '/');
    if key !in z.index.folders then Err(MissingFolder(path))
    else
      var folder := z.index.folders[key];
      Ok(set n | n in folder :: EntryStat(folder[n]))
  }

  /** `entry.toStat(this[entry.path])`. */
  function EntryStat(e: Entry): Stat {
    Existent(e.path, e.isDirectory, e.uncompressedSize)
  }

  /** Every stat `list` reports is what `stat` reports for the path it
      carries: the listing and the name index agree. */
  lemma ListedStatsAgree(z: ZipFs, path: string)
    requires Shared(z.index) && List(z, path).Ok?
    ensures forall st :: st in List(z, path).value ==> StatOf(z, st.path) == st
  {
    var folder := z.index.folders[Trim(path, '/')];
    forall st | st in List(z, path).value
      ensures StatOf(z, st.path) == st
    {
      var n :| n in folder && st == EntryStat(folder[n]);
      var e := folder[n];
      assert Key(e) in z.index.files && z.index.files[Key(e)] == e;
    }
  }

  /** `stat` after indexing a walk: a path is found exactly when some
      record has its trimmed name, and then it reports the last such record. */
  lemma StatReportsLastRecord(es: seq<Entry>, base: Streams.Base, path: string)
    ensures var st := StatOf(ZipFs(base, BuildIndex(es)), path);
      var last := LastWith(es, Trim(path, '/'));
      (st.found <==> last.Some?)
      && (last.Some? ==> st == Existent(path, last.value.isDirectory, last.value.uncompressedSize))
  {
    BuildIndexLastWins(es, Trim(path, '/'));
  }

  // ---------------------------------------------------------------------------
  // What `open` reads
  // ---------------------------------------------------------------------------

  /** `readBytes(n)` through a slice of the memory base whose cursor is inside
      the data: it succeeds, leaves the base alone and moves the cursor by
      what was there, at most up to the end of the data. */
  lemma SliceReadBytesAdvance(b: Streams.Base, offset: int, length: int, position: int, n: nat)
    requires 0 <= offset + position <= |b.data|
    ensures var r := Streams.ReadBytes(b, Streams.Slice(true, offset, length, position), n);
      r.Ok? && r.value.0 == b
      && r.value.1 == Streams.Slice(true, offset, length, Streams.Min(offset + position + n, |b.data|) - offset)
  {
    var s := Streams.Slice(true, offset, length, position);
    var m := Streams.MemRead(b.data, offset + position, n).value;
    assert |m| == Streams.Min(n, |b.data| - (offset + position));
    assert Streams.Read(b, s, n) == Ok(Streams.ReadOut(b, s.(position := position + |m|), m, |m|));
  }

  /** The local header at `h` of the archive bytes, judged on the bytes
      alone: a negative offset is an index error, a header cut short is "Not
      enough data", a signature other than `50 4B 03 04` is "Not a zip file",
      and otherwise the payload starts after the 30 fixed bytes, the name and
      the extra field, as far as the data goes. */
  function HeaderOnBytes(d: seq<Byte>, h: int): (r: Result<int>)
    ensures r.Ok? <==> 0 <= h && h + LocalHeaderSize <= |d| && d[h..h + 4] == LocalMagic
    ensures r.Ok? ==> r.value == Streams.Min(h + LocalHeaderSize + U16le(d, h + 26) + U16le(d, h + 28), |d|)
  {
    if h < 0 then Err(OutOfBounds)
    else if h + 4 > |d| then Err(NotEnoughData)
    else if d[h..h + 4] != LocalMagic then Err(InvalidFormat("Not a zip file"))
    else if h + LocalHeaderSize > |d| then Err(NotEnoughData)
    else Ok(Streams.Min(h + LocalHeaderSize + U16le(d, h + 26) + U16le(d, h + 28), |d|))
  }

  /** What `open` makes of an entry's payload slice, by compression method. */
  function PayloadOf(e: Entry, s: Streams.Stream): Result<Payload> {
    if e.compression == Stored then Ok(Raw(s))
    else if e.compression == Deflated then Ok(Inflating(s))
    else Err(NotImplemented(e.compression))
  }

  /** Reading the local header through a fresh slice at `h` fails the way
      `HeaderOnBytes` says when it rejects the bytes... */
  lemma LocalHeaderFails(b: Streams.Base, h: int, length: int)
    requires HeaderOnBytes(b.data, h).Err?
    ensures ReadLocalHeader(b, Streams.Slice(true, h, length, 0)) == Err(HeaderOnBytes(b.data, h).error)
  {
    var d := b.data;
    if h < 0 || h + 4 > |d| {
      assert HeaderOnBytes(d, h) == if h < 0 then Err(OutOfBounds) else Err(NotEnoughData);
      SignatureCutShort(b, h, length);
    } else if d[h..h + 4] != LocalMagic {
      assert HeaderOnBytes(d, h) == Err(InvalidFormat("Not a zip file"));
      SignatureRead(b, h, length);
    } else {
      assert h + LocalHeaderSize > |d|;
      assert HeaderOnBytes(d, h) == Err(NotEnoughData);
      SignatureRead(b, h, length);
      FieldsCutShort(b, h, length);
    }
  }

  /** ... and leaves the cursor on the payload when it accepts them. */
  lemma LocalHeaderRead(b: Streams.Base, h: int, length: int, p: int)
    requires HeaderOnBytes(b.data, h) == Ok(p)
    ensures ReadLocalHeader(b, Streams.Slice(true, h, length, 0)) == Ok((b, Streams.Slice(true, h, length, p - h)))
  {
    HeaderRead(b, h, length, p);
  }

  /** A complete local header with the right signature. */
  lemma HeaderRead(b: Streams.Base, h: int, length: int, p: int)
    requires 0 <= h && h + LocalHeaderSize <= |b.data| && b.data[h..h + 4] == LocalMagic
    requires p == Streams.Min(h + LocalHeaderSize + U16le(b.data, h + 26) + U16le(b.data, h + 28), |b.data|)
    ensures ReadLocalHeader(b, Streams.Slice(true, h, length, 0)) == Ok((b, Streams.Slice(true, h, length, p - h)))
  {
    SignatureAccepted(b, h, length);
    FieldsReadTo(b, h, length, p);
  }

  /** The right signature hands over to the fixed fields. */
  lemma SignatureAccepted(b: Streams.Base, h: int, length: int)
    requires 0 <= h && h + 4 <= |b.data| && b.data[h..h + 4] == LocalMagic
    ensures ReadLocalHeader(b, Streams.Slice(true, h, length, 0)) == ReadHeaderFields(b, Streams.Slice(true, h, length, 4))
  {
    SignatureRead(b, h, length);
  }

  /** `FieldsRead` with the payload offset named. */
  lemma FieldsReadTo(b: Streams.Base, h: int, length: int, p: int)
    requires 0 <= h && h + LocalHeaderSize <= |b.data|
    requires p == Streams.Min(h + LocalHeaderSize + U16le(b.data, h + 26) + U16le(b.data, h + 28), |b.data|)
    ensures ReadHeaderFields(b, Streams.Slice(true, h, length, 4)) == Ok((b, Streams.Slice(true, h, length, p - h)))
  {
    FieldsRead(b, h, length);
  }

  /** No signature to read: an index error before the data, "Not enough
      data" at its end. */
  lemma SignatureCutShort(b: Streams.Base, h: int, length: int)
    requires h < 0 || h + 4 > |b.data|
    ensures ReadLocalHeader(b, Streams.Slice(true, h, length, 0))
         == if h < 0 then Err(OutOfBounds) else Err(NotEnoughData)
  {
    var s := Streams.Slice(true, h, length, 0);
    if h < 0 {
      assert Streams.Read(b, s, 4) == Err(OutOfBounds);
    } else if h > |b.data| {
      assert Streams.Read(b, s, 4) == Ok(Streams.ReadOut(b, s, [], 0));
    } else {
      Streams.ReadExactSlice(b, h, length, 0, 4, []);
    }
  }

  /** Fixed fields cut short by the end of the data: "Not enough data". */
  lemma FieldsCutShort(b: Streams.Base, h: int, length: int)
    requires 0 <= h && h + 4 <= |b.data| < h + LocalHeaderSize
    ensures ReadHeaderFields(b, Streams.Slice(true, h, length, 4)) == Err(NotEnoughData)
  {
    Streams.ReadExactSlice(b, h, length, 4, LocalHeaderSize - 4, []);
  }

  /** The signature step: the integer comparison is the byte comparison. */
  lemma SignatureRead(b: Streams.Base, h: int, length: int)
    requires 0 <= h && h + 4 <= |b.data|
    ensures ReadLocalHeader(b, Streams.Slice(true, h, length, 0))
         == if b.data[h..h + 4] != LocalMagic then Err(InvalidFormat("Not a zip file"))
            else ReadHeaderFields(b, Streams.Slice(true, h, length, 4))
  {
    var sig := b.data[h..h + 4];
    Streams.ExactSliceRead(b, h, length, 0, 4);
    assert Pad(sig, 4) == sig;
    SignatureIsBytes(sig, 0, LocalSignature);
    SignatureBytes();
  }

  /** The fields step when the 26 fixed bytes are there: the name and the
      extra field move the cursor to where `HeaderOnBytes` puts the payload. */
  lemma FieldsRead(b: Streams.Base, h: int, length: int)
    requires 0 <= h && h + LocalHeaderSize <= |b.data|
    ensures ReadHeaderFields(b, Streams.Slice(true, h, length, 4))
         == Ok((b, Streams.Slice(true, h, length,
                  Streams.Min(h + LocalHeaderSize + U16le(b.data, h + 26) + U16le(b.data, h + 28), |b.data|) - h)))
  {
    var d := b.data;
    var fields := d[h + 4..h + LocalHeaderSize];
    assert Pad(fields, LocalHeaderSize - 4) == fields;
    assert U16le(fields, 22) == U16le(d, h + 26);
    assert U16le(fields, 24) == U16le(d, h + 28);
    var s4 := Streams.Slice(true, h, length, 4);
    var s30 := Streams.Slice(true, h, length, LocalHeaderSize);
    assert Streams.ReadExactFrom(b, s4, LocalHeaderSize - 4, [])
        == Ok(Streams.ReadOut(b, s30, fields, LocalHeaderSize - 4)) by {
      Streams.ExactSliceRead(b, h, length, 4, LocalHeaderSize - 4);
    }
    assert ReadHeaderFields(b, s4) == SkipNameAndExtra(b, s30, fields);
    SkipRead(b, h, length, U16le(d, h + 26), U16le(d, h + 28), fields);
  }

  /** Skipping `n` then `m` bytes from the end of the fixed fields leaves
      the cursor `n + m` further on, or at the end of the data. */
  lemma SkipRead(b: Streams.Base, h: int, length: int, n: nat, m: nat, fields: seq<Byte>)
    requires 0 <= h && h + LocalHeaderSize <= |b.data|
    requires |fields| == LocalHeaderSize - 4 && U16le(fields, 22) == n && U16le(fields, 24) == m
    ensures SkipNameAndExtra(b, Streams.Slice(true, h, length, LocalHeaderSize), fields)
         == Ok((b, Streams.Slice(true, h, length, Streams.Min(h + LocalHeaderSize + n + m, |b.data|) - h)))
  {
    var d := b.data;
    var afterName := Streams.Min(h + LocalHeaderSize + n, |d|) - h;
    assert Streams.Min(h + afterName + m, |d|) == Streams.Min(h + LocalHeaderSize + n + m, |d|);
    SliceReadBytesAdvance(b, h, length, LocalHeaderSize, n);
    SliceReadBytesAdvance(b, h, length, afterName, m);
  }

  /** What `open` does, stated on the archive bytes at the entry's header
      offset: the local header's outcome as `HeaderOnBytes` judges it, then
      a payload slice of `compressedSize` bytes from where the header ends,
      raw for method 0, inflating for method 8, not implemented otherwise. */
  lemma OpenLayout(z: ZipFs, path: string)
    requires Trim(path, '/') in z.index.files
    ensures var e := z.index.files[Trim(path, '/')];
      Open(z, path) == match HeaderOnBytes(z.base.data, e.headerOffset)
                       case Err(err) => Err(err)
                       case Ok(p) => PayloadOf(e, Streams.Slice(true, p, e.compressedSize, 0))
  {
    OpenEntryLayout(z.base, z.index.files[Trim(path, '/')]);
  }

  /** `OpenLayout` for the entry found. */
  lemma OpenEntryLayout(b: Streams.Base, e: Entry)
    ensures OpenEntry(b, e) == match HeaderOnBytes(b.data, e.headerOffset)
                               case Err(err) => Err(err)
                               case Ok(p) => PayloadOf(e, Streams.Slice(true, p, e.compressedSize, 0))
  {
    match HeaderOnBytes(b.data, e.headerOffset)
    case Err(_) => OpenEntryFails(b, e);
    case Ok(p) => OpenEntryPayload(b, e, p);
  }

  /** A local header `HeaderOnBytes` rejects makes `open` fail the same way. */
  lemma OpenEntryFails(b: Streams.Base, e: Entry)
    requires HeaderOnBytes(b.data, e.headerOffset).Err?
    ensures OpenEntry(b, e) == Err(HeaderOnBytes(b.data, e.headerOffset).error)
  {
    var header := Streams.Slice(true, e.headerOffset, e.compressedSize, 0);
    assert Streams.SliceRest(b, DataSlice(e)) == Ok(header);
    LocalHeaderFails(b, e.headerOffset, e.compressedSize);
  }

  /** A local header `HeaderOnBytes` accepts puts the payload slice where it
      says. */
  lemma OpenEntryPayload(b: Streams.Base, e: Entry, p: int)
    requires HeaderOnBytes(b.data, e.headerOffset) == Ok(p)
    ensures OpenEntry(b, e) == PayloadOf(e, Streams.Slice(true, p, e.compressedSize, 0))
  {
    var h, cs := e.headerOffset, e.compressedSize;
    var header := Streams.Slice(true, h, cs, 0);
    var after := Streams.Slice(true, h, cs, p - h);
    var payload := Streams.Slice(true, p, cs, 0);
    assert Streams.SliceRest(b, DataSlice(e)) == Ok(header);
    assert Streams.ReadSlice(b, after, cs).value.2 == payload;
    LocalHeaderRead(b, h, cs, p);
  }
}

=== FILE: zip_writer.dfy ===
/** A writer for the central directory records `Zip` reads: it lays out
    each record as PKWARE APPNOTE.TXT section 4.3.12 describes it, with the
    fields the reader ignores left zero. The writer is the reader's partner:
    the directory walk reads back exactly the entries that were written. */
module ZipWriter {
  import opened Common
  import Streams
  import opened Zip

  /** What one directory record carries: the name bytes, the compression
      method, the two sizes, the local header's offset, and the variable
      extra and comment fields. */
  datatype Record = Record(
    name: seq<Byte>,
    compression: int,
    compressedSize: int,
    uncompressedSize: int,
    headerOffset: int,
    extra: seq<Byte>,
    comment: seq<Byte>)

  /** Every field fits its slot: 16-bit lengths and method, 32-bit sizes and
      offset. */
  predicate Fits(r: Record) {
    0 <= r.compression < TwoTo16
    && 0 <= r.compressedSize < TwoTo32 && 0 <= r.uncompressedSize < TwoTo32
    && 0 <= r.headerOffset < TwoTo32
    && |r.name| < TwoTo16 && |r.extra| < TwoTo16 && |r.comment| < TwoTo16
  }

  predicate AllFit(rs: seq<Record>) {
    forall i :: 0 <= i < |rs| ==> Fits(rs[i])
  }

  /** No record carries a file comment. */
  predicate NoComments(rs: seq<Record>) {
    forall i :: 0 <= i < |rs| ==> rs[i].comment == []
  }

  /** Little-endian bytes of a 16-bit and a 32-bit value. */
  function Le16(v: int): (r: seq<Byte>)
    requires 0 <= v < TwoTo16
    ensures |r| == 2
  {
    [(v % 256) as Byte, (v / 256) as Byte]
  }

  function Le32(v: int): (r: seq<Byte>)
    requires 0 <= v < TwoTo32
    ensures |r| == 4
  {
    Le16(v % TwoTo16) + Le16(v / TwoTo16)
  }

  /** The 46 fixed bytes of a record. */
  function Header(r: Record): (h: seq<Byte>)
    requires Fits(r)
    ensures |h| == RecordSize
  {
    RecordMagic + Streams.Zeros(6) + Le16(r.compression) + Streams.Zeros(8)
    + Le32(r.compressedSize) + Le32(r.uncompressedSize)
    + Le16(|r.name|) + Le16(|r.extra|) + Le16(|r.comment|)
    + Streams.Zeros(8) + Le32(r.headerOffset)
  }

  /** A whole record: the fixed part, then name, extra field and comment. */
  function Encode(r: Record): (bs: seq<Byte>)
    requires Fits(r)
    ensures |bs| == RecordSize + |r.name| + |r.extra| + |r.comment|
  {
    Header(r) + r.name + r.extra + r.comment
  }

  /** The records one after the other, as a central directory. */
  function EncodeAll(rs: seq<Record>): (bs: seq<Byte>)
    requires AllFit(rs)
  {
    if rs == [] then [] else Encode(rs[0]) + EncodeAll(rs[1..])
  }

  /** The entry the reader should make of a record. */
  function EntryOf(r: Record): Entry {
    var path := Latin1(r.name);
    Entry(path, r.compression, EndsWith(path, '/'), r.headerOffset, r.compressedSize, r.uncompressedSize)
  }

  function Entries(rs: seq<Record>): (es: seq<Entry>)
    ensures |es| == |rs| && forall i :: 0 <= i < |rs| ==> es[i] == EntryOf(rs[i])
  {
    seq(|rs|, i requires 0 <= i < |rs| => EntryOf(rs[i]))
  }

  // ---------------------------------------------------------------------------
  // Field readers against field writers
  // ---------------------------------------------------------------------------

  /** `U16le` reads back what `Le16` wrote. */
  lemma ReadLe16(d: seq<Byte>, p: int, v: int)
    requires 0 <= v < TwoTo16 && 0 <= p && p + 2 <= |d| && d[p..p + 2] == Le16(v)
    ensures U16le(d, p) == v
  {
    assert d[p] == d[p..p + 2][0] && d[p + 1] == d[p..p + 2][1];
  }

  /** `U32le` reads back what `Le32` wrote. */
  lemma ReadLe32(d: seq<Byte>, p: int, v: int)
    requires 0 <= v < TwoTo32 && 0 <= p && p + 4 <= |d| && d[p..p + 4] == Le32(v)
    ensures U32le(d, p) == v
  {
    assert d[p..p + 2] == d[p..p + 4][..2] == Le16(v % TwoTo16);
    assert d[p + 2..p + 4] == d[p..p + 4][2..] == Le16(v / TwoTo16);
    ReadLe16(d, p, v % TwoTo16);
    ReadLe16(d, p + 2, v / TwoTo16);
  }

  /** The signed reading of a 32-bit field, made unsigned again, is the
      unsigned reading. */
  lemma ToUIntSigned(u: int)
    requires 0 <= u < TwoTo32
    ensures ToUInt(Signed32(u)) == u
  {
  }

  // ---------------------------------------------------------------------------
  // Reading one record back
  // ---------------------------------------------------------------------------

  /** Where each field sits in the fixed part. */
  lemma HeaderSlices(r: Record)
    requires Fits(r)
    ensures var h := Header(r);
      h[..4] == RecordMagic && h[10..12] == Le16(r.compression)
      && h[20..24] == Le32(r.compressedSize) && h[24..28] == Le32(r.uncompressedSize)
      && h[28..30] == Le16(|r.name|) && h[30..32] == Le16(|r.extra|) && h[32..34] == Le16(|r.comment|)
      && h[42..46] == Le32(r.headerOffset)
  {
    var a := RecordMagic + Streams.Zeros(6) + Le16(r.compression) + Streams.Zeros(8);
    var b := Le32(r.compressedSize) + Le32(r.uncompressedSize);
    var c := Le16(|r.name|) + Le16(|r.extra|) + Le16(|r.comment|);
    var e := Streams.Zeros(8) + Le32(r.headerOffset);
    var h := Header(r);
    assert h == a + b + c + e;
    assert |a| == 20 && |b| == 8 && |c| == 6 && |e| == 12;
    assert h[..4] == a[..4] == RecordMagic;
    assert h[10..12] == a[10..12] == Le16(r.compression);
    assert h[20..24] == b[..4] && h[24..28] == b[4..];
    assert h[28..30] == c[..2] && h[30..32] == c[2..4] && h[32..34] == c[4..];
    assert h[42..46] == e[8..];
  }

  /** The fixed part read in place: the signature matches and every field
      reads back as written. */
  lemma HeaderAt(d: seq<Byte>, pos: nat, r: Record)
    requires Fits(r) && pos + RecordSize <= |d| && d[pos..pos + RecordSize] == Header(r)
    ensures S32be(d, pos) == RecordSignature
    ensures U16le(d, pos + 10) == r.compression
    ensures U32le(d, pos + 20) == r.compressedSize && U32le(d, pos + 24) == r.uncompressedSize
    ensures U16le(d, pos + 28) == |r.name| && U16le(d, pos + 30) == |r.extra|
    ensures U16le(d, pos + 32) == |r.comment| && U32le(d, pos + 42) == r.headerOffset
  {
    var h := Header(r);
    HeaderSlices(r);
    SubSlice(d, pos, RecordSize, 0, 4);
    SubSlice(d, pos, RecordSize, 10, 12);
    SubSlice(d, pos, RecordSize, 20, 24);
    SubSlice(d, pos, RecordSize, 24, 28);
    SubSlice(d, pos, RecordSize, 28, 30);
    SubSlice(d, pos, RecordSize, 30, 32);
    SubSlice(d, pos, RecordSize, 32, 34);
    SubSlice(d, pos, RecordSize, 42, 46);
    SignatureBytes();
    SignatureIsBytes(d, pos, RecordSignature);
    ReadLe16(d, pos + 10, r.compression);
    ReadLe32(d, pos + 20, r.compressedSize);
    ReadLe32(d, pos + 24, r.uncompressedSize);
    ReadLe16(d, pos + 28, |r.name|);
    ReadLe16(d, pos + 30, |r.extra|);
    ReadLe16(d, pos + 32, |r.comment|);
    ReadLe32(d, pos + 42, r.headerOffset);
  }

  /** A written record read in place: the reader makes the entry the record
      describes, and stops right after its extra field, on the comment. */
  lemma RecordAt(d: seq<Byte>, pos: nat, r: Record)
    requires Fits(r) && pos + |Encode(r)| <= |d| && d[pos..pos + |Encode(r)|] == Encode(r)
    ensures ReadRecord(d, pos) == Ok(RecordRead(EntryOf(r), pos + RecordSize + |r.name| + |r.extra|, |r.comment|))
  {
    var n := |r.name|;
    RecordPieces(d, pos, r);
    HeaderAt(d, pos, r);
    var nameEnd := Streams.Min(pos + RecordSize + U16le(d, pos + 28), |d|);
    assert nameEnd == pos + RecordSize + n;
    var got := ReadRecord(d, pos).value;
    assert got.entry.path == Latin1(r.name);
    assert got.entry == EntryOf(r);
  }

  // ---------------------------------------------------------------------------
  // Reading a whole directory back
  // ---------------------------------------------------------------------------

  /** The corrected walk reads back every record written, in order; the walk
      as written does too as long as no record has a comment. */
  lemma {:induction false} WalkReadsBack(d: seq<Byte>, pos: nat, rs: seq<Record>, skipComments: bool)
    requires AllFit(rs) && pos + |EncodeAll(rs)| <= |d| && d[pos..pos + |EncodeAll(rs)|] == EncodeAll(rs)
    requires skipComments || NoComments(rs)
    ensures Walk(d, pos, |rs|, skipComments) == Ok(Entries(rs))
    decreases |rs|
  {
    if rs != [] {
      var r, tail := rs[0], rs[1..];
      var next := pos + |Encode(r)|;
      DirectoryPieces(d, pos, rs);
      RecordAt(d, pos, r);
      var rec := RecordRead(EntryOf(r), pos + RecordSize + |r.name| + |r.extra|, |r.comment|);
      assert NextRecord(d, rec, skipComments) == next;
      WalkReadsBack(d, next, tail, skipComments);
      WalkStep(d, pos, |tail|, skipComments, rec, next, Entries(tail));
      EntriesCons(rs);
    }
  }

  /** A directory written in place is its first record followed by the rest,
      and the rest keeps every property of the whole. */
  lemma DirectoryPieces(d: seq<Byte>, pos: nat, rs: seq<Record>)
    requires rs != [] && AllFit(rs)
    requires pos + |EncodeAll(rs)| <= |d| && d[pos..pos + |EncodeAll(rs)|] == EncodeAll(rs)
    ensures AllFit(rs[1..]) && (NoComments(rs) ==> NoComments(rs[1..]))
    ensures pos + |Encode(rs[0])| + |EncodeAll(rs[1..])| <= |d|
    ensures d[pos..pos + |Encode(rs[0])|] == Encode(rs[0])
    ensures d[pos + |Encode(rs[0])|..pos + |Encode(rs[0])| + |EncodeAll(rs[1..])|] == EncodeAll(rs[1..])
  {
    TailFits(rs);
    var all, enc := EncodeAll(rs), Encode(rs[0]);
    assert all == enc + EncodeAll(rs[1..]);
    SubSlice(d, pos, |all|, 0, |enc|);
    assert all[..|enc|] == enc;
    SubSlice(d, pos, |all|, |enc|, |all|);
    assert all[|enc|..] == EncodeAll(rs[1..]);
  }

  /** The records after the first keep every property of the whole. */
  lemma TailFits(rs: seq<Record>)
    requires rs != [] && AllFit(rs)
    ensures AllFit(rs[1..]) && (NoComments(rs) ==> NoComments(rs[1..]))
  {
    var tail := rs[1..];
    assert forall i :: 0 <= i < |tail| ==> tail[i] == rs[i + 1];
  }

  /** One step of the walk over a record that reads. */
  lemma WalkStep(d: seq<Byte>, pos: nat, more: nat, skipComments: bool, rec: RecordRead, next: nat, rest: seq<Entry>)
    requires pos <= |d| && ReadRecord(d, pos) == Ok(rec)
    requires rec.afterExtra <= |d| && next == NextRecord(d, rec, skipComments)
    requires Walk(d, next, more, skipComments) == Ok(rest)
    ensures Walk(d, pos, more + 1, skipComments) == Ok([rec.entry] + rest)
  {
  }

  lemma EntriesCons(rs: seq<Record>)
    requires rs != []
    ensures Entries(rs) == [EntryOf(rs[0])] + Entries(rs[1..])
  {
  }

  /** The walk as written misreads a directory whose first record has a
      comment that does not itself start with a record signature: it takes the
      comment for the next record and fails. `WalkReadsBack` shows that the
      corrected walk reads every record of the same directory. */
  lemma AsWrittenMisreadsComment(d: seq<Byte>, pos: nat, rs: seq<Record>)
    requires |rs| >= 2 && AllFit(rs)
    requires pos + |EncodeAll(rs)| <= |d| && d[pos..pos + |EncodeAll(rs)|] == EncodeAll(rs)
    requires |rs[0].comment| >= 4 && rs[0].comment[..4] != RecordMagic
    ensures Walk(d, pos, |rs|, false) == Err(InvalidFormat("Not a zip file record"))
  {
    var r := rs[0];
    DirectoryPieces(d, pos, rs);
    RecordAt(d, pos, r);
    var c := pos + RecordSize + |r.name| + |r.extra|;
    var rec := RecordRead(EntryOf(r), c, |r.comment|);
    assert ReadRecord(d, pos) == Ok(rec);
    CommentAt(d, pos, r);
    NotARecord(d, c, r.comment);
    WalkStepFails(d, pos, |rs| - 1, false, rec, c);
  }

  /** Bytes that do not start with a record signature do not read as a
      record. */
  lemma NotARecord(d: seq<Byte>, c: nat, bs: seq<Byte>)
    requires c + |bs| <= |d| && d[c..c + |bs|] == bs && |bs| >= 4 && bs[..4] != RecordMagic
    ensures ReadRecord(d, c) == Err(InvalidFormat("Not a zip file record"))
  {
    SubSlice(d, c, |bs|, 0, 4);
    SignatureBytes();
    SignatureIsBytes(d, c, RecordSignature);
  }

  /** The comment of a record written at `pos` sits right after its extra
      field. */
  lemma CommentAt(d: seq<Byte>, pos: nat, r: Record)
    requires Fits(r) && pos + |Encode(r)| <= |d| && d[pos..pos + |Encode(r)|] == Encode(r)
    ensures var c := pos + RecordSize + |r.name| + |r.extra|;
      d[c..c + |r.comment|] == r.comment
  {
    var enc := Encode(r);
    var k := RecordSize + |r.name| + |r.extra|;
    assert enc[k..] == r.comment;
    SubSlice(d, pos, |enc|, k, |enc|);
  }

  /** A walk whose second record does not read fails with that record's
      error. */
  lemma WalkStepFails(d: seq<Byte>, pos: nat, more: nat, skipComments: bool, rec: RecordRead, next: nat)
    requires pos <= |d| && ReadRecord(d, pos) == Ok(rec) && more > 0
    requires rec.afterExtra <= |d| && next == NextRecord(d, rec, skipComments)
    requires ReadRecord(d, next).Err?
    ensures Walk(d, pos, more + 1, skipComments) == Err(ReadRecord(d, next).error)
  {
  }

  /** The fixed part and the name of a record written at `pos`. */
  lemma RecordPieces(d: seq<Byte>, pos: nat, r: Record)
    requires Fits(r) && pos + |Encode(r)| <= |d| && d[pos..pos + |Encode(r)|] == Encode(r)
    ensures d[pos..pos + RecordSize] == Header(r)
    ensures d[pos + RecordSize..pos + RecordSize + |r.name|] == r.name
  {
    var enc := Encode(r);
    var n := |r.name|;
    assert enc[..RecordSize] == Header(r);
    assert enc[RecordSize..RecordSize + n] == r.name;
    SubSlice(d, pos, |enc|, 0, RecordSize);
    SubSlice(d, pos, |enc|, RecordSize, RecordSize + n);
  }

  /** A slice of a slice is a slice of the whole. */
  lemma SubSlice(d: seq<Byte>, pos: int, n: int, i: int, j: int)
    requires 0 <= pos && pos + n <= |d| && 0 <= i <= j <= n
    ensures d[pos + i..pos + j] == d[pos..pos + n][i..j]
  {
    var w := d[pos..pos + n];
    forall k | 0 <= k < j - i
      ensures d[pos + i..pos + j][k] == w[i..j][k]
    {
      assert w[i..j][k] == w[i + k] == d[pos + i + k];
    }
  }

  /** The archive's end record advertises `|rs|` records at a directory
      that starts with the written records. */
  predicate HoldsDirectory(archive: seq<Byte>, rs: seq<Record>) {
    AllFit(rs) && |archive| >= EocdSize
    && var t := archive[|archive| - EocdSize..];
    t[..4] == EocdMagic && 0 <= S32le(t, 12) && 0 <= S32le(t, 16) && U16le(t, 10) == |rs|
    && var d := DirectoryBytes(archive, S32le(t, 16), S32le(t, 12));
    |EncodeAll(rs)| <= |d| && d[..|EncodeAll(rs)|] == EncodeAll(rs)
  }

  /** Loading such an archive is indexing the walk of its directory bytes. */
  lemma LoadWalksDirectory(archive: seq<Byte>, rs: seq<Record>, skipComments: bool)
    requires HoldsDirectory(archive, rs)
    ensures var t := archive[|archive| - EocdSize..];
      var d := DirectoryBytes(archive, S32le(t, 16), S32le(t, 12));
      LoadWith(archive, skipComments) == Indexed(Walk(d, 0, |rs|, skipComments), Streams.Base(archive, |archive|))
      && d[0..|EncodeAll(rs)|] == EncodeAll(rs)
  {
    LoadLayout(archive, skipComments);
    var t := archive[|archive| - EocdSize..];
    var d := DirectoryBytes(archive, S32le(t, 16), S32le(t, 12));
    assert d[0..|EncodeAll(rs)|] == d[..|EncodeAll(rs)|];
  }

  /** The corrected loader indexes exactly the written records. */
  lemma LoadCorrectedReadsBack(archive: seq<Byte>, rs: seq<Record>)
    requires HoldsDirectory(archive, rs)
    ensures LoadCorrected(archive) == Ok(ZipFs(Streams.Base(archive, |archive|), BuildIndex(Entries(rs))))
  {
    var t := archive[|archive| - EocdSize..];
    var d := DirectoryBytes(archive, S32le(t, 16), S32le(t, 12));
    LoadWalksDirectory(archive, rs, true);
    WalkReadsBack(d, 0, rs, true);
  }

  /** The loader as written rejects the same archive when its first record
      carries a comment that does not start with a record signature. */
  lemma LoadRejectsComment(archive: seq<Byte>, rs: seq<Record>)
    requires HoldsDirectory(archive, rs)
    requires |rs| >= 2 && |rs[0].comment| >= 4 && rs[0].comment[..4] != RecordMagic
    ensures Load(archive) == Err(InvalidFormat("Not a zip file record"))
  {
    LoadWalksDirectory(archive, rs, false);
    DirectoryWalkFails(archive, rs);
  }

  lemma DirectoryWalkFails(archive: seq<Byte>, rs: seq<Record>)
    requires HoldsDirectory(archive, rs)
    requires |rs| >= 2 && |rs[0].comment| >= 4 && rs[0].comment[..4] != RecordMagic
    ensures var t := archive[|archive| - EocdSize..];
      Walk(DirectoryBytes(archive, S32le(t, 16), S32le(t, 12)), 0, |rs|, false)
      == Err(InvalidFormat("Not a zip file record"))
  {
    var t := archive[|archive| - EocdSize..];
    var d := DirectoryBytes(archive, S32le(t, 16), S32le(t, 12));
    assert d[0..|EncodeAll(rs)|] == d[..|EncodeAll(rs)|];
    AsWrittenMisreadsComment(d, 0, rs);
  }
}
